=== FILE: README.md ===
# Hyperwar rules engine in Dafny

This project models the rules of the Hyperwar browser wargame. Two or more
factions take turns moving units on a square grid, shooting at each other,
carrying infantry in transports, and deploying scenario groups. Only the rules
are modelled; rendering and the page are not. The modelled parts are:

- **terrain**: the fixed 30 x 20 default map and its move costs and cover;
- **units**: building a unit from its template, the number of weapons still
  working at a given health, and the longest range the unit can fire at;
- **movement**: `performMove`, which walks a straight, columns-first line and
  pays each cell's terrain cost;
- **combat**: `performCombat`. Each loadout entry passes a series of gates,
  picks its ammunition and fires a volley. Hits are totalled and rounded. The
  defender loses health and may be destroyed, and a unit it carries may be
  killed or may survive;
- **AI**: the nearest enemy, the budget-bounded breadth-first pathfinder with
  its closest-cell choice and path tracing, one unit's decision (attack, move
  and attack again, or hold), and the faction's turn loop;
- **turns**: passing the turn to the next faction in sorted order and
  refreshing that faction's units, then running its AI when it is
  computer-controlled;
- **transport**: loading an infantry unit into an adjacent friendly transport
  and unloading it onto the first free neighbouring cell;
- **deployment**: expanding scenario groups (nested, with counts and
  transport placeholders), the deployment-pool entry, and placing a unit or a
  transport with its passenger.

State is immutable. The roster of units on the map is a `seq<Unit>`. A
transport's passenger lives inside it (`Cargo = Empty | Carrying(passenger)`).
Every operation returns a new roster. Randomness is passed in as parameters:
`Dice` holds the per-shot rolls, the carried-unit roll and the casualty
percentage, and the AI turn takes a roll oracle.

Modules, one per file: `Base` (options, results, distance, rounding),
`Terrain`, `Text` (lower-casing, substring tests, string order), `Units`,
`Roster`, `Movement`, `Combat`, `Pathfinder`, `Ai`, `Turns`, `Transport`,
`Groups`.

## Model

| member | source | states |
|---|---|---|
| Base.Round | js/core.js:201 | `Math.round` on the accumulated damage: the result is within half a point of the real total, rounding halves up |
| Terrain.Info | js/core.js:7-12 | only water is impassable; land costs 1 or 2 move points; cover lies in [0, 1) |
| Terrain.KindAt | js/core.js:14-22 | forest on the top three and bottom three rows, water in the side columns between them, plain off the 30 x 20 map |
| Terrain.OffGridIsPlain | js/core.js:280-281 | a cell outside the map costs 1 and gives no cover, the `|| 'plain'` fallback |
| Text.Lower | js/core.js:165 | lower-casing keeps the length and maps each ASCII capital to its small letter, leaving every other character unchanged |
| Text.LessIrreflexive | js/main.js:581 | the string order used to sort factions is irreflexive |
| Text.LessTransitive | js/main.js:581 | the string order is transitive |
| Text.LessTotal | js/main.js:581 | the string order is total on distinct strings, so sorting is well defined |
| Units.InitialAmmo | js/unit.js:34-41 | a weapon has an ammunition store exactly when some loadout entry defines ammunition for it, and the store is a copy of the last such entry's map |
| Units.AmmoStep | js/unit.js:36-41 | one more loadout entry keeps that characterisation: it adds or overwrites its weapon's store and leaves the others alone |
| Units.NewUnit | js/unit.js:5-42 | an unknown template is an error; otherwise every field comes from the template, with full health and movement, no moves or attacks yet, default stance, nothing carried, and the ammunition described above; a well-formed template gives a well-formed unit |
| Units.CeilShare | js/unit.js:53-59 | the ceiling share of `k` weapons is non-negative, at least 1 when `k > 0`, at most `k` at or below full health, and at least `k` at or above it |
| Units.CeilLow | js/unit.js:53-59 | a rounded-up share of a live unit is non-negative, and at least 1 when the unit has any instances |
| Units.CeilBelow | js/unit.js:53-59 | at or below full health the rounded-up share never exceeds the instance count |
| Units.CeilAbove | js/unit.js:53-59 | at or above full health the rounded-up share is at least the instance count |
| Units.ActiveCount | js/unit.js:48-59 | never more than the maximum; none when health is gone; at least one while alive; all at full health; otherwise the least count whose share of the maximum covers the health share |
| Units.ActiveCountMonotone | js/unit.js:48-59 | more health never means fewer working weapons |
| Units.CountsOf | js/unit.js:45-84 | a weapon appears in the active-count map exactly when some entry for it has a working weapon and ammunition (or needs none); its positive count is that of the last such entry, which overwrites earlier ones |
| Units.CountsStep | js/unit.js:76 | a counted entry overwrites the count an earlier entry with the same weapon id had set, and an uncounted entry leaves the map alone |
| Units.ActiveCountsBounded | js/unit.js:45-84 | for a unit, a weapon is active exactly under that rule, and its count never exceeds that entry's maximum |
| Units.FindItem | js/unit.js:100 | `find` on the loadout: none exactly when no entry has the weapon id, else the first entry that has it |
| Units.RangeOver | js/unit.js:91-110 | the running maximum is at least the range of every eligible weapon, and a positive result is the range of one of them |
| Units.MaxAttackRange | js/unit.js:87-112 | the unit's range is the largest range of an active, known weapon that has ammunition or needs none, and 0 when there is no such weapon |
| Roster.IndexOfId | js/main.js:484 | `findIndex` by id: none exactly when no unit has the id, else the first index holding it |
| Roster.IndexOfIdIs | js/main.js:484 | the first index holding an id is what the lookup returns |
| Roster.FirstAt | js/main.js:476 | `find` by cell: none exactly when the cell is empty, else the first unit standing there |
| Roster.RemoveAt | js/main.js:485 | `splice(k, 1)`: one shorter, entries before `k` kept and entries after `k` shifted down |
| Roster.RemoveById | js/core.js:232-235 | removing by id drops the unit when present and changes nothing otherwise; with unique ids the id is gone, no unit is invented, and every other unit stays |
| Roster.RemoveByIdUnique | js/core.js:232-235 | removal keeps ids unique |
| Roster.RemoveByIdValid | js/core.js:232-235 | removal keeps the roster valid (unique ids, well-formed units) |
| Roster.UpdateMembers | js/core.js:241 | overwriting one unit introduces no unit other than the new value |
| Roster.ReplaceValid | js/core.js:241 | replacing a unit with a well-formed one of the same id keeps the roster valid |
| Movement.WalkCells | js/core.js:268-287 | the straight walk visits exactly as many cells as the Manhattan distance, cell `k` being step `k + 1` of the walk |
| Movement.WalkPositionShift | js/core.js:276-278 | taking the first step and walking on is the same walk, one step later |
| Movement.WalkStepAdjacent | js/core.js:276-278 | consecutive positions of the walk are neighbours |
| Movement.WalkShape | js/core.js:268-287 | the walk starts next to the unit, ends on the target, and every step moves to a neighbouring cell |
| Movement.WalkOrder | js/core.js:276-278 | the walk covers the column difference first, along the unit's row, and then the rows, in the target's column |
| Movement.WalkCost | js/core.js:280-286 | the walk's cost is impassable exactly when some cell on it is water, and otherwise is at least the number of cells |
| Movement.Move | js/core.js:256-308 | refused when already moved or aimed at the unit's own cell; succeeds exactly when the walk is passable, affordable and ends on an empty cell; the moved unit stands on the target, pays the walk's cost (at least the distance), is marked moved and stays well-formed |
| Movement.MoveOnce | js/core.js:257-260 | a unit that has moved is refused any second move in the same turn |
| Combat.MarksLightVehicleIff | js/core.js:167-168 | the light-vehicle test is exactly "contains ifv, apc, recon, vehicle, spg or artillery" |
| Combat.TargetClassOf | js/core.js:161-170 | heavy armour exactly when the lower-cased class contains "tank", light vehicle exactly when it does not but carries a light-vehicle mark, infantry otherwise |
| Combat.Effectiveness | js/core.js:172-182 | an unknown ammunition type is worth 0.1; bullets (the default type) are worth 1.0 against infantry; every factor lies between 0.05 and 1.2 |
| Combat.FirstStocked | js/core.js:117-123 | the first compatible ammunition with a positive stock, or none when none is stocked |
| Combat.ChooseAmmo | js/core.js:106-128 | a stocked preferred ammunition wins; otherwise the first stocked compatible one; whatever is chosen is in stock |
| Combat.DistanceFactor | js/core.js:141-144 | the falloff lies in [0, 1], is 1 at point-blank range, and is positive within the weapon's range |
| Combat.CountHits | js/core.js:151-159 | hits never exceed shots; all hit when every roll is within the hit chance, and none when every roll is above it |
| Combat.ShotsToFire | js/core.js:139 | shots are the smaller of weapons times fire rate and the rounds in stock |
| Combat.VolleyDamage | js/core.js:185-187 | no hits do no damage, and damage is never negative when each hit does non-negative damage |
| Combat.Gate | js/core.js:79-104 | an entry gets past the checks exactly when it is active, its weapon is known, the infantry anti-tank ban does not apply, and the defender is in range; an inactive entry and a banned weapon are reported as such |
| Combat.Shoot | js/core.js:106-189 | a fired volley uses the chosen ammunition, which is known and in stock, with the stated shots, hits and damage; otherwise it is skipped for lack of ammunition or an unknown ammunition type |
| Combat.VolleyOf | js/core.js:77-193 | each loadout entry is skipped for the reason the gates give or fires as `Shoot` says, and only weapons with an ammunition store fire |
| Combat.Spend | js/core.js:185-189 | only a volley that hits spends rounds: exactly its shots, from the chosen ammunition, with every other count and key unchanged |
| Combat.SpendKeepsAmmo | js/core.js:185-189 | spending after a volley leaves the same stores, each count between 0 and what it was |
| Combat.AmmoSpentTransitive | js/core.js:77-193 | spending twice is still spending |
| Combat.FireFrom | js/core.js:77-193 | firing the loadout changes only the attacker's ammunition, only downwards; nothing fires exactly when every remaining entry is skipped, and then nothing changes and no damage is done |
| Combat.Survivor | js/core.js:221-226 | the surviving passenger stands on the transport's cell, keeps at least 1 health, never gains health, and changes nothing else |
| Combat.Aftermath | js/core.js:200-238 | no damage changes nothing; damage short of lethal lowers the defender's health; lethal damage removes the defender and keeps every other unit except a passenger that dies with it; a passenger that dies with it (roll below 0.6) is no longer on the roster either; a passenger comes out exactly when the defender dies carrying one and the roll is at least 0.6, and then as the survivor above; no unit other than the damaged defender appears |
| Combat.Resolve | js/core.js:65-244 | no attack happens exactly when no entry fires, and then nothing changes; otherwise the damage is the rounded total of the volleys and the roster is the aftermath with the attacker marked as having attacked |
| Combat.FiredVolleyFacts | js/core.js:79-139 | a volley that fired passed every gate, used stocked ammunition, and scored no more hits than shots nor more shots than rounds |
| Combat.InfantryNeverFiresAntiTank | js/core.js:91-98 | between two infantry units no anti-tank weapon fires |
| Combat.OutOfRangeNeverFires | js/ai.js:141-143 | a defender beyond the attacker's maximum attack range cannot be attacked, which is what the AI's range check relies on |
| Combat.SurvivorWellFormed | js/core.js:221-226 | a surviving well-formed passenger stays well-formed |
| Combat.AftermathValid | js/core.js:200-238 | damage keeps the roster valid, and a surviving passenger is well-formed |
| Combat.ResolveValid | js/core.js:65-244 | an attack keeps a valid roster valid |
| Combat.ResolveKeepsUnits | js/core.js:185-241 | after an attack every unit on the map is an old unit, the attacker with only less ammunition and its attacked flag set, or the defender with only less health |
| Combat.AftermathKeepsOthers | js/core.js:200-238 | damage to one unit leaves every other unit findable by its id, unchanged, unless it is the passenger that dies with the destroyed defender |
| Combat.AftermathKeepsReplaced | js/core.js:185-238 | the attacker written back before the damage is applied is the unit its id finds afterwards |
| Combat.FoundIsOriginal | js/core.js:200-238 | in a roster drawn from one with distinct ids, a unit's id finds that very unit |
| Combat.ResolveKeepsAttacker | js/core.js:185-241 | after an attack that fires, the attacker is still on the map with its attacked flag set, differing only in ammunition, of which it has no more than before |
| Combat.ResolveWounds | js/core.js:205-206 | after an attack that fires, a defender that survives keeps its place with its health lowered by exactly the damage |
| Combat.ResolveDestroys | js/core.js:205-236 | after an attack that fires, a defender whose health the damage reaches is gone from the map |
| Combat.ExampleCounts | js/unit.js:45-84 | a full-strength unit with one four-instance entry has all four active |
| Combat.ExampleVolley | js/core.js:136-188 | four shots at accuracy 1.0 against no cover all hit, each for 10 * (1 - 1/6) at distance 1 and range 5 |
| Combat.SingleVolley | js/core.js:136-188 | a one-entry loadout fires exactly when its one volley fires, for that volley's damage |
| Combat.WorkedExample | js/core.js:65-244 | the worked example of the rules: four Bullet hits of 10 at distance 1 with range 5 deal 33 damage and leave a 100-health defender at 67 |
| Pathfinder.Fill | js/ai.js:43-45 | the BFS tables start with one uniform value per cell of the grid |
| Pathfinder.Set | js/ai.js:72-73 | updating one cell of a table keeps its shape and every other cell |
| Pathfinder.SlackShrinks | js/ai.js:71-72 | lowering a cell's cost strictly reduces the total slack, which bounds the search |
| Pathfinder.RelaxSound | js/ai.js:70-73 | recording a cheaper reachable neighbour keeps every recorded cost backed by a chain of predecessors |
| Pathfinder.RelaxQueue | js/ai.js:74 | queueing the improved neighbour keeps every queue entry within budget and at or above its cell's cost |
| Pathfinder.Relax | js/ai.js:59-75 | one direction step changes the tables exactly when the neighbour is an enterable in-grid cell that the step makes cheaper within the budget: then the neighbour gets the new cost, the current cell as predecessor, and a queue entry at the end; otherwise nothing changes. Either way the neighbour ends up no dearer than the current cost plus its entry cost, no cost rises, and every change is queued |
| Pathfinder.ImproveLowers | js/ai.js:70-74 | recording a cheaper cost for one cell and queueing it lowers the table, queues the change, leaves the old queue as a prefix and relaxes that cell |
| Pathfinder.AdjacentIsNeighbour | js/ai.js:52-54 | every cell at distance 1 is reached by one of the four direction offsets |
| Pathfinder.SettledLowered | js/ai.js:71-72 | lowering other cells' costs keeps a cell settled, that is, no step from it can lower a neighbour |
| Pathfinder.RelaxedFirstStep | js/ai.js:58-77 | relaxing one more direction keeps the earlier directions relaxed, keeps costs from rising and keeps every change queued after the old queue |
| Pathfinder.RelaxNext | js/ai.js:58-76 | one turn of the direction loop keeps the tables sound, the queue well formed and the slack from growing, and relaxes one more direction |
| Pathfinder.SlackStep | js/ai.js:71 | the slack never grows across relaxations and stays equal only while the queue is untouched |
| Pathfinder.InitialSound | js/ai.js:48-50 | the start cell at cost 0 and nothing else reached is a sound beginning |
| Pathfinder.RelaxAll | js/ai.js:58-77 | the four directions keep the tables sound and either lower the slack or leave the queue as it was; afterwards all four neighbours are no dearer than the dequeued cost plus their entry cost, no cost rose, and every changed cost is queued behind the old queue |
| Pathfinder.QueueTail | js/ai.js:57 | taking the head off a sound queue keeps the rest sound, and the head is a reached grid cell |
| Pathfinder.InitialCovered | js/ai.js:48-50 | at the start the only reached cell, the unit's own, is queued at its cost |
| Pathfinder.CoveredStep | js/ai.js:57-77 | after dequeuing an entry and relaxing its neighbours, every reached cell is still either settled or queued at its current cost |
| Pathfinder.CoveredEmpty | js/ai.js:56 | once the queue is empty every reached cell is settled |
| Pathfinder.ExploreNext | js/ai.js:56-77 | one turn of the queue loop keeps the tables sound, the queue well formed and every reached cell settled or queued, and lowers the slack or shortens the queue |
| Pathfinder.Explore | js/ai.js:42-78 | the search ends, and every reached cell is within budget and has a predecessor chain back to the start through passable, free-or-target neighbours; at the end no step from a reached cell to an enterable in-grid neighbour within budget could lower that neighbour's cost |
| Pathfinder.WalkReached | js/ai.js:56-78 | once the search has ended, any walk over enterable grid cells from a reached cell, affordable within the budget, ends on a reached cell whose recorded cost is at most the walk's cost, so recorded costs are cheapest |
| Pathfinder.Consider | js/ai.js:87-95 | one cell of the scan keeps "best so far is strictly closer than the start and first among the closest" |
| Pathfinder.ScanNextColumn | js/ai.js:85-86 | finishing a column moves the scan on to the next one |
| Pathfinder.ScanColumn | js/ai.js:86-96 | scanning a column keeps the scan invariant |
| Pathfinder.Closest | js/ai.js:81-97 | when found, the chosen cell is reached, strictly closer to the target than the start, and the first of the closest reached cells in scan order; when not found, it is the target and no reached cell is closer than the start |
| Pathfinder.ScanDone | js/ai.js:81-97 | the invariant at the end of the scan gives that result |
| Pathfinder.WalkCostCons | js/ai.js:104-113 | the cost of a walk is the first cell's cost plus the rest's |
| Pathfinder.TraceStep | js/ai.js:107-112 | stepping to the predecessor extends a traced walk and strictly lowers the recorded cost |
| Pathfinder.TraceDone | js/ai.js:104-114 | a trace that reached the start is a walk of neighbouring enterable grid cells ending on the chosen cell, no dearer than its recorded cost |
| Pathfinder.Trace | js/ai.js:104-114 | the traced path is empty exactly when the chosen cell is the start; otherwise it ends there, every step is to an enterable neighbour, and it costs no more than recorded |
| Pathfinder.CheapestTrace | js/ai.js:103-114 | after a finished search, the traced walk costs exactly the recorded cost of the chosen cell |
| Pathfinder.FindPath | js/ai.js:42-115 | the path is non-empty exactly when some reached cell is strictly closer to the target than the unit; it is a walk of enterable grid cells within the unit's remaining movement, ending on the first closest reached cell, and it costs exactly that cell's recorded cost. Stated without the tables: non-empty exactly when some affordable walk of the unit ends on a grid cell strictly closer to the target, and then ending on the closest cell any affordable walk reaches, first in column-major order among ties, no dearer than any other affordable walk there |
| Pathfinder.WalkBack | js/ai.js:104-114 | following the predecessor links back from a recorded cell yields an affordable walk of the unit from its own cell to that cell |
| Pathfinder.ReachedIffReachable | js/ai.js:42-78 | once the search has ended, a grid cell has a recorded cost within the unit's movement exactly when some affordable walk of the unit over enterable grid cells ends there |
| Pathfinder.TowardsCloser | js/ai.js:81-97 | a non-empty searched path ends strictly closer to the target than the unit stands |
| Pathfinder.StepCloser | js/ai.js:42-115 | a unit that can pay to step onto an enterable neighbouring grid cell strictly closer to the target always gets a non-empty path, ending at least as close to the target as that cell |
| Pathfinder.CheapestWalk | js/ai.js:42-115 | the returned walk is a cheapest one: any other walk from the unit over enterable grid cells to the same end costs at least as much |
| Ai.FindNearestEnemy | js/ai.js:14-28 | none exactly when every unit is friendly; otherwise an enemy no farther than any other, and the first at that distance |
| Ai.NearestEnemyUnique | js/ai.js:14-28 | only one unit is the nearest enemy the scan keeps |
| Ai.WalkCostPrefix | js/ai.js:172-180 | every prefix of a passable path is passable at no greater cost |
| Ai.WalkCostSnoc | js/ai.js:172-176 | a path's cost grows by the cost of the cell added at its end |
| Ai.Affordable | js/ai.js:168-183 | the candidates are the longest affordable prefix of the path, each with the running cost of the steps up to it; a path affordable in total is a candidate list in full |
| Ai.TryMoves | js/ai.js:185-208 | tries at most the last five candidates, furthest first: a success is the first of them the move rule accepts, and a failure means it refused all of them |
| Ai.ResolveOnGrid | js/ai.js:145 | an attack keeps the roster valid and every unit on the grid |
| Ai.MoveAlong | js/ai.js:165-211 | along an affordable path of grid cells, the unit is either refused at each of the last five cells and nothing changes, or moves to the furthest of them the move rule accepts and then makes its attack after moving |
| Ai.AttackAfterMove | js/ai.js:191-205 | after moving, the unit attacks exactly when the then nearest enemy is within its maximum range, and the roster is then the outcome of attacking that enemy; otherwise nothing changes; the roster stays valid and on the grid |
| Ai.Advance | js/ai.js:160-214 | the path searched towards the nearest enemy is an affordable walk of the unit over enterable grid cells; it is empty exactly when no affordable walk ends on a grid cell strictly closer to the enemy, and otherwise ends on the closest cell some affordable walk reaches, the first in column-major order among ties, no dearer than any other affordable walk there; the unit either is refused at each of the last five cells of that path and nothing changes, or moves to the furthest of them the move rule accepts and then makes its attack after moving |
| Ai.DecideUnitAction | js/ai.js:127-220 | no enemy exactly when every unit is friendly, otherwise the nearest enemy is the one acted on; the unit attacks it exactly when it has not attacked, the enemy is within maximum range and some weapon fires, and the roster is then the attack's outcome; it holds, changing nothing, exactly when it did not attack and has moved or attacked already; otherwise it advances or is stuck as for Ai.Advance; the roster stays valid and on the grid |
| Ai.FactionIds | js/ai.js:236 | the faction's ids are exactly those of its units at the start of the turn |
| Ai.MovedSpends | js/ai.js:186-201 | after a move along the path, the mover is found by its id on the cell it moved to, with its moved flag set, whether or not it then attacked |
| Ai.DecidedSpends | js/ai.js:145-206 | a unit that attacked is still on the map, found by its id, with its attacked flag set; one that advanced stands on the cell it moved to with its moved flag set |
| Ai.SpentUnitIdles | js/ai.js:139-161 | a unit that has attacked finds no enemy or holds and changes nothing; one that has moved never advances or gets stuck |
| Ai.FactionIdsAppend | js/ai.js:236 | the snapshot keeps roster order: that of two rosters joined is the first's followed by the second's |
| Ai.ActingPrefix | js/ai.js:239-248 | which units acted depends only on the rosters at their own turns |
| Ai.TurnTraceStep | js/ai.js:239-248 | one more unit's turn, acting or skipped, extends the record of the AI turn |
| Ai.RunAiTurn | js/ai.js:234-248 | the snapshot's units take their turns in snapshot order, each deciding its action on the roster the previous ones left, or skipped with nothing changed when no longer on the map; the ids returned are exactly those of the units that acted, in snapshot order, so the first unit of the snapshot always acts; the roster stays valid and on the grid |
| Turns.Insert | js/main.js:579-581 | inserting a faction into a sorted list keeps it sorted and adds that one faction |
| Turns.SortedFactions | js/main.js:579-581 | the factions present, each once, in sorted order |
| Turns.SortedUnique | js/main.js:579-581 | two sorted lists with the same members are equal, so the factions present determine the order |
| Turns.IndexOf | js/main.js:583 | `indexOf`: -1 exactly when absent, otherwise the first position |
| Turns.NextFaction | js/main.js:583-585 | the next faction is always one of the factions present |
| Turns.SortedDistinct | js/main.js:579-581 | a sorted faction list has no repeats |
| Turns.DistinctIndex | js/main.js:583 | in a list without repeats, a faction's position is where it stands |
| Turns.NextAt | js/main.js:583-585 | the faction after the one at position `i` is at `i + 1`, wrapping to the first |
| Turns.NextOfAbsent | js/main.js:583-585 | when the current faction has no units left, the first faction in order plays next (`indexOf` gives -1) |
| Turns.NextFactionOrder | js/main.js:579-585 | the next faction is the least faction after the current one in string order, or the first when there is none after it |
| Turns.NextDiffers | js/main.js:580-585 | with two or more factions the turn always passes to a different faction |
| Turns.Rotate | js/main.js:583-588 | passing the turn repeatedly always lands on a present faction |
| Turns.RotateFrom | js/main.js:583-588 | passing the turn `k` times from position `i` reaches position `i + k`, wrapping around |
| Turns.EveryFactionGetsATurn | js/main.js:583-588 | while the factions stay the same, every faction plays within one round, and a full round comes back to the current one |
| Turns.Refresh | js/main.js:590 | a refreshed unit may move and attack again with full movement, and nothing else about it changes |
| Turns.RefreshFaction | js/main.js:590 | the new current faction's units are refreshed and every other unit is untouched |
| Turns.RefreshKeeps | js/main.js:590 | refreshing keeps the roster valid, on the grid, and with the same factions |
| Turns.EndTurn | js/main.js:575-606 | ending the turn during deployment or with no units is refused; a success leaves deployment off, clears the selection and keeps the number of units |
| Turns.EndTurnOneFaction | js/main.js:580 | the turn is refused for a single faction exactly when deployment is over, there are units, and they all share one faction |
| Turns.EndTurnOk | js/main.js:579-591 | a successful end of turn hands over to a different faction that has units, refreshes exactly that faction's units, keeps the others, and keeps the roster valid and on the grid |
| Turns.EndTurnAndPlay | js/main.js:575-606 | fails exactly when ending the turn fails; a human faction gets the plain end-of-turn state; for an AI faction the end-of-turn state changes only in its roster, which is the outcome of the whole AI turn of that faction as for Ai.RunAiTurn |
| Transport.Occurs | js/main.js:483 | a unit holds its own id, and a unit that carries nothing holds only that |
| Transport.CountUpTo | js/main.js:483 | the count over a prefix includes the last unit's ids |
| Transport.CountAgree | js/main.js:483-485 | rosters that agree on a prefix agree on its count |
| Transport.CountAppend | js/main.js:554 | appending a unit adds its ids to the force |
| Transport.CountUpdate | js/main.js:483 | overwriting an entry of a prefix swaps its ids for the new unit's |
| Transport.ForceUpdate | js/main.js:483 | overwriting a unit swaps its ids for the new unit's |
| Transport.CountRemove | js/main.js:485 | removing an entry of a prefix removes its ids from the count |
| Transport.ForceRemove | js/main.js:485 | removing a unit removes its ids from the force |
| Transport.CountGrows | js/main.js:483-485 | a longer prefix holds at least as many of each id |
| Transport.ForcePair | js/main.js:483-485 | two distinct entries together hold no more of an id than the whole force |
| Transport.ForceDistinctUnique | js/main.js:484 | when no id occurs twice in the force, the ids on the map are unique |
| Transport.Board | js/main.js:483-485 | boarding puts the infantry inside the transport and takes it off the map, shifting later units down |
| Transport.BoardMembers | js/main.js:483-485 | after boarding, every other unit is still on the map, the loaded transport is too, and nothing else appears |
| Transport.Load | js/main.js:466-494 | loading happens exactly when deployment is over, the clicked cell is on the map, the selected unit exists, the cell holds a unit, and the selected infantry of the current faction stands next to a friendly empty transport; the result is the boarded roster with the transport selected |
| Transport.BoardIds | js/main.js:483-485 | boarding keeps the force: the same ids, each as often |
| Transport.BoardValid | js/main.js:483-485 | boarding keeps the roster valid; the infantry's id leaves the map and the transport's stays |
| Transport.LoadKeeps | js/main.js:466-494 | a load keeps the force, keeps ids distinct and the roster valid, and selects a unit on the map |
| Transport.Spots | js/main.js:544 | the four candidate cells are the transport's neighbours |
| Transport.FirstFree | js/main.js:545-549 | the first candidate on the map and unoccupied, or none when every candidate is blocked |
| Transport.Disembark | js/main.js:552-555 | unloading empties the transport and appends the passenger, on the chosen cell, at the end of the roster |
| Transport.Unload | js/main.js:538-562 | unloading happens exactly when deployment is over, the selected unit exists, is a transport, carries a unit, and has a free neighbour; the passenger goes to the first free spot in the order below, above, right, left |
| Transport.DisembarkIds | js/main.js:552-555 | unloading keeps the force |
| Transport.DisembarkValid | js/main.js:552-555 | unloading keeps the roster valid and ids distinct |
| Transport.UnloadKeeps | js/main.js:538-562 | an unload keeps the force, keeps ids distinct, and keeps the roster valid |
| Transport.NeighbourIsSpot | js/main.js:544 | every neighbouring cell is one of the four candidates |
| Transport.BoardedIndex | js/main.js:484-487 | after boarding, the transport is found at its shifted position |
| Transport.BoardedVacates | js/main.js:485 | after boarding, the infantry's old cell is empty |
| Transport.DisembarkRestores | js/main.js:483-555 | boarding and then disembarking gives back a roster of the same size holding every other unit, with the infantry last on the chosen cell |
| Transport.BoardThenUnload | js/main.js:483-555 | a unit boarded onto a transport next to it can always be unloaded again, onto a cell next to the transport, with every other unit unchanged |
| Transport.LoadThenUnload | js/main.js:466-562 | after a load, unloading the selected transport succeeds; it brings the infantry back unchanged apart from its cell, next to the transport, and keeps every other unit |
| Groups.Copies | js/main.js:746 | an entry with count 0 (missing) is built once; otherwise as often as its count says |
| Groups.ExpandGroup | js/main.js:733-818 | too deep or unknown groups expand to nothing; items get consecutive increasing ids from the counter, lie on the start row, at or right of the start column and left of column `gridCols`, and units are built from their templates with the origin group recorded |
| Groups.ExpandFrom | js/main.js:744-816 | expanding the remaining entries numbers, lays out and builds the items the same way, from the current offset |
| Groups.Join | js/main.js:760 | concatenating two expansions keeps the numbering, layout and origin |
| Groups.Item | js/main.js:762-811 | one copy of a unit template makes an item with the given id, column and row: a placeholder for the template's transport carrying that template exactly when the transport is named and known, otherwise the unit built from the template |
| Groups.WantedStep | js/main.js:746-748 | one more copy still to lay out of a unit-template entry puts that template first among the wanted ones |
| Groups.ExpandOne | js/main.js:748-811 | a copy of a unit template that fits on the grid makes one item with the next id in the current column, and the expansion goes on one column and one id further |
| Groups.FlatCount | js/main.js:744-816 | without subgroups, the remaining entries expand to as many items as there are wanted unit-template copies, but no more than the free columns to the grid's right edge |
| Groups.FlatAt | js/main.js:744-816 | without subgroups, item `k` is the item of the `k`-th wanted unit-template copy, with the `k`-th id from the counter, `k` columns after the offset |
| Groups.FlatAtMade | js/main.js:762-811 | the same when the next copy is a unit template that fits on the grid |
| Groups.FlatItems | js/main.js:744-816 | without subgroups, the items are exactly those of the wanted unit-template copies in entry and copy order, cut off at the grid's right edge, numbered from the counter and laid out without gaps |
| Groups.FlatGroup | js/main.js:733-818 | expanding a known group without subgroups within the depth limit gives exactly the items of its unit-template copies in order, as many as fit from the start column, numbered from the counter and tagged with the origin group |
| Groups.PoolEntryOf | js/main.js:232-253 | a pool entry keeps the item's id and type; a placeholder keeps its passenger's type and a unit has none |
| Groups.Place | js/main.js:321-405 | placement happens exactly on a free cell of the map with known templates; it appends one unit with the entry's id and type on that cell, fresh; a transport entry carries a new passenger with the next id, off the map; the counter advances for every transport entry on a free on-map cell whose transport template is known, even when the passenger template is unknown and nothing is placed |
| Groups.PlaceKeeps | js/main.js:321-405 | placing adds exactly the entry's id, and the passenger's when there is one; with fresh ids the roster stays valid and ids stay distinct |

## Left out

- Rendering, the canvas, the DOM, the info panel, the combat log, alerts,
  and the server and network code are not modelled. They carry no rules.
- Timers and the AI's delay between units are left out. The asynchronous AI
  turn is modelled as a plain loop.
- `Math.random` is replaced by parameters. `Dice` holds the shot rolls, the
  carried-unit roll and the casualty percentage. The source draws the roll
  from [0, 1) and the percentage from 0 to 30 (js/core.js:212, 224); the
  model does not constrain them, and its proofs hold for any values. The AI
  turn takes a roll oracle indexed by unit and by which of the unit's two
  attacks it is.
- Stances are left out. The stance is set to "Default" and never changes.
- The deployment UI's `isPlaced` flag and its stale-pool checks are left
  out. So are the `_originGroupId` bookkeeping on placed units and the
  scenario loop that calls `expandGroup` for each scenario entry.
- Units.ActiveCount: JavaScript's double-precision arithmetic is modelled
  as exact rational and integer arithmetic, so results can differ where the
  source rounds. With a loadout count of 25, health 28 and maximum health
  100, the source computes `Math.ceil(25 * (28 / 100))`, which is
  `Math.ceil(7.000000000000001)`, or 8 (js/unit.js:48-53); the model gives
  7. The health percentage, Combat.DistanceFactor, the hit chances and the
  damage sums before `Math.round` in Combat.Resolve are exact in the model
  in the same way.
- Groups.ExpandGroup: the number and order of the items is pinned by an
  independent reference (the wanted unit-template copies) only for groups
  without subgroups, in Groups.FlatGroup. For nested groups the contract
  gives the numbering, layout and provenance of the items but not how many
  there are.
- The template's and unit's numeric `capacity` is modelled as a `bool`: the
  source only tests it for truthiness (js/main.js:450, 480, 541).
- Units.WellFormed: the model requires `maxHealth > 0`. The source divides by
  it and never checks it.
- Text.Less: string order is by code point. JavaScript's default sort
  compares UTF-16 code units, which gives the same order for characters in
  the Basic Multilingual Plane only.
- Text.Lower: only ASCII capitals are lower-cased. JavaScript's
  `toLowerCase` uses the full Unicode mapping, so a class name with a
  non-ASCII capital (such as U+212A KELVIN SIGN, which becomes "k") can be
  classified differently by the source than by the model.
- Combat.ResolveKeepsAttacker: requires distinct ids on the map and that the
  defender's passenger does not share the attacker's id. The source tells
  units apart by object identity, so it needs neither; ids stand in for it.
- Ai.DecidedSpends: requires that no carried unit shares its id with a unit
  on the map (`NoCarriedOnMap`), for the same reason.
- Combat.Aftermath: a surviving passenger is returned separately and is not
  added to the roster. The source likewise never pushes it back into
  `activeUnits`. Object aliasing is not modelled, so a passenger still listed
  on the map is not moved with its dead transport.
- Pathfinder.FindPath: requires the unit and the target to be on the grid.
  The source indexes its tables with both cells.
- Movement.Move: as in the source, the cost is that of the straight
  columns-first walk, not of a shortest path.
- Units.MaxAttackRange: as in the source, a weapon without an ammunition
  store counts only when its loadout entry defines no ammunition.
- Transport.ForceDistinct: distinct ids across the whole force, passengers
  included, are tracked only through load, unload and placement.
- Transport.Unload: as in the source, the unload button does not check that
  the transport belongs to the current faction.
- Units.NewUnit: the JavaScript constructor ignores the faction argument
  that callers pass. The unit takes its template's faction, and the model
  does the same.
- Turns.EndTurnAndPlay: after the AI faction's units have acted, the model
  stops. The source's second hand-over at the end of the AI turn is not
  repeated.

=== FILE: ai.dfy ===
/** The computer opponent (js/ai.js): nearest-enemy targeting, the
    attack-first decision, movement along the searched path with up to five
    attempts, a second attack after moving, and the turn loop over the AI
    faction's units. */
module Ai {
  import opened Base
  import Terrain
  import opened Units
  import opened Roster
  import Movement
  import Combat
  import Pathfinder

  /** The factions the computer plays. */
  const AiFactions: seq<string> := ["WarsawPact"]

  predicate IsEnemy(u: Unit, v: Unit)
  {
    v.faction != u.faction
  }

  /** Manhattan distance between two units' cells. */
  function UnitDist(u: Unit, v: Unit): nat
  {
    Dist(v.col, v.row, u.col, u.row)
  }

  /** `i` is the enemy the source's scan keeps: no enemy is nearer and every
      earlier enemy is strictly farther. */
  ghost predicate NearestEnemyAt(u: Unit, rs: seq<Unit>, i: nat)
  {
    && i < |rs| && IsEnemy(u, rs[i])
    && (forall j :: 0 <= j < |rs| && IsEnemy(u, rs[j]) ==> UnitDist(u, rs[i]) <= UnitDist(u, rs[j]))
    && (forall j :: 0 <= j < i && IsEnemy(u, rs[j]) ==> UnitDist(u, rs[i]) < UnitDist(u, rs[j]))
  }

  /** `findNearestEnemy`: the index of the nearest unit of another faction,
      the first one on ties, or none when every unit is friendly. */
  method FindNearestEnemy(u: Unit, rs: seq<Unit>) returns (r: Option<nat>)
    ensures r.None? <==> forall j :: 0 <= j < |rs| ==> !IsEnemy(u, rs[j])
    ensures r.Some? ==> NearestEnemyAt(u, rs, r.value)
  {
    r := None;
    var minDist := 0;
    var i := 0;
    while i < |rs|
      invariant 0 <= i <= |rs|
      invariant r.None? <==> forall j :: 0 <= j < i ==> !IsEnemy(u, rs[j])
      invariant r.Some? ==> (r.value < i && IsEnemy(u, rs[r.value]) && minDist == UnitDist(u, rs[r.value])
        && (forall j :: 0 <= j < i && IsEnemy(u, rs[j]) ==> minDist <= UnitDist(u, rs[j]))
        && (forall j :: 0 <= j < r.value && IsEnemy(u, rs[j]) ==> minDist < UnitDist(u, rs[j])))
    {
      if IsEnemy(u, rs[i]) {
        var dist := UnitDist(u, rs[i]);
        if r.None? || dist < minDist {
          minDist := dist;
          r := Some(i);
        }
      }
      i := i + 1;
    }
  }

  /** A cell the AI may try to move to, with the path cost paid to reach it. */
  datatype Candidate = Candidate(cell: Cell, usedCost: nat)

  /** Cost of a walk with one more cell appended. */
  lemma {:induction false} WalkCostSnoc(p: seq<Cell>, c: Cell)
    ensures Movement.WalkCost(p + [c]) ==
      if Movement.WalkCost(p).Impassable? || Terrain.CostAt(c.col, c.row).Impassable? then Terrain.Impassable
      else Terrain.Passable(Movement.WalkCost(p).points + Terrain.CostAt(c.col, c.row).points)
    decreases |p|
  {
    if p == [] {
      assert [] + [c] == [c];
      assert [c][1..] == [];
    } else {
      assert (p + [c])[1..] == p[1..] + [c];
      WalkCostSnoc(p[1..], c);
    }
  }

  /** The candidate list: the longest prefix of the path whose running cost
      stays within the budget, each cell paired with the running cost. */
  method Affordable(path: seq<Cell>, budget: nat) returns (cs: seq<Candidate>)
    ensures |cs| <= |path|
    ensures forall k :: (0 <= k < |cs| ==> (cs[k].cell == path[k]
      && Movement.WalkCost(path[..k + 1]) == Terrain.Passable(cs[k].usedCost) && cs[k].usedCost <= budget))
    ensures |cs| < |path| ==> (Movement.WalkCost(path[..|cs| + 1]).Impassable?
      || Movement.WalkCost(path[..|cs| + 1]).points > budget)
    ensures Movement.Affords(path, budget) ==> |cs| == |path|
  {
    cs := [];
    var used := 0;
    var i := 0;
    while i < |path|
      invariant i == |cs| <= |path|
      invariant Movement.WalkCost(path[..i]) == Terrain.Passable(used)
      invariant forall k :: (0 <= k < |cs| ==> (cs[k].cell == path[k]
        && Movement.WalkCost(path[..k + 1]) == Terrain.Passable(cs[k].usedCost) && cs[k].usedCost <= budget))
    {
      var step := path[i];
      WalkCostSnoc(path[..i], step);
      assert path[..i] + [step] == path[..i + 1];
      match Terrain.CostAt(step.col, step.row)
      case Impassable =>
        break;
      case Passable(n) =>
        if used + n > budget {
          break;
        }
        used := used + n;
        cs := cs + [Candidate(step, used)];
        i := i + 1;
    }
    if i < |path| && Movement.WalkCost(path).Passable? {
      WalkCostPrefix(path, i + 1);
    }
  }

  /** Up to five move attempts, from the last candidate backwards; the first
      move the rules accept is taken. */
  method TryMoves(u: Unit, cs: seq<Candidate>, rs: seq<Unit>) returns (r: Option<(nat, Unit)>)
    ensures r.Some? ==> (
      var j := r.value.0;
      && |cs| - 5 <= j < |cs|
      && Movement.Move(u, cs[j].cell.col, cs[j].cell.row, rs) == Movement.Moved(r.value.1)
      && forall t :: j < t < |cs| ==> Movement.Move(u, cs[t].cell.col, cs[t].cell.row, rs).Refused?)
    ensures r.None? ==> forall t :: |cs| - 5 <= t < |cs| && 0 <= t ==> Movement.Move(u, cs[t].cell.col, cs[t].cell.row, rs).Refused?
  {
    var i := |cs| - 1;
    var tries := 0;
    while i >= 0 && tries < 5
      invariant -1 <= i < |cs| && tries == |cs| - 1 - i && tries <= 5
      invariant forall t :: i < t < |cs| ==> Movement.Move(u, cs[t].cell.col, cs[t].cell.row, rs).Refused?
    {
      var m := Movement.Move(u, cs[i].cell.col, cs[i].cell.row, rs);
      if m.Moved? {
        return Some((i, m.unit));
      }
      i := i - 1;
      tries := tries + 1;
    }
    return None;
  }

  /** Every unit of the roster stands on the `cols` by `rows` grid. */
  ghost predicate OnGrid(rs: seq<Unit>, cols: nat, rows: nat)
  {
    forall i :: 0 <= i < |rs| ==> Pathfinder.InGrid(Cell(rs[i].col, rs[i].row), cols, rows)
  }

  /** An attack moves nobody, so the roster stays on the grid. */
  lemma ResolveOnGrid(rs: seq<Unit>, a: nat, d: nat, weapons: map<string, Weapon>, ammos: map<string, Ammo>,
                      dice: Combat.Dice, cols: nat, rows: nat)
    requires a < |rs| && d < |rs| && a != d && Valid(rs) && OnGrid(rs, cols, rows)
    ensures rs[a].maxHealth > 0 && AmmoNonNegative(rs[a].currentAmmo)
    ensures Valid(Combat.Resolve(rs, a, d, weapons, ammos, dice).roster)
    ensures OnGrid(Combat.Resolve(rs, a, d, weapons, ammos, dice).roster, cols, rows)
  {
    Combat.ResolveValid(rs, a, d, weapons, ammos, dice);
    Combat.ResolveKeepsUnits(rs, a, d, weapons, ammos, dice);
    var o := Combat.Resolve(rs, a, d, weapons, ammos, dice);
    forall i | 0 <= i < |o.roster| ensures Pathfinder.InGrid(Cell(o.roster[i].col, o.roster[i].row), cols, rows) {
      assert o.roster[i] in o.roster;
      if o.roster[i] in rs {
        var j :| 0 <= j < |rs| && rs[j] == o.roster[i];
      }
    }
  }

  /** Only one index is the enemy the scan keeps. */
  lemma NearestEnemyUnique(u: Unit, rs: seq<Unit>, i: nat, j: nat)
    requires NearestEnemyAt(u, rs, i) && NearestEnemyAt(u, rs, j)
    ensures i == j
  {
  }

  /** Every prefix of a passable walk is passable, at no greater cost. */
  lemma {:induction false} WalkCostPrefix(p: seq<Cell>, n: nat)
    requires n <= |p| && Movement.WalkCost(p).Passable?
    ensures Movement.WalkCost(p[..n]).Passable? && Movement.WalkCost(p[..n]).points <= Movement.WalkCost(p).points
    decreases n
  {
    if n == 0 {
      assert p[..0] == [];
    } else {
      assert p[..n][1..] == p[1..][..n - 1];
      assert Movement.WalkCost(p[1..]).Passable?;
      WalkCostPrefix(p[1..], n - 1);
    }
  }

  /** The attack after a move, in roster `rs` where the mover is entry `k`:
      `target` is the then nearest enemy when it lies within the mover's
      maximum range, and the roster is the outcome of attacking it;
      otherwise the nearest enemy, if any, is out of range and nothing
      changes. */
  ghost predicate AttackedAfterMove(rs: seq<Unit>, k: nat, weapons: map<string, Weapon>, ammos: map<string, Ammo>,
                                    dice: Combat.Dice, target: Option<nat>, rs': seq<Unit>)
  {
    && k < |rs| && Valid(rs)
    && (target.Some? ==>
          && NearestEnemyAt(rs[k], rs, target.value)
          && UnitDist(rs[k], rs[target.value]) <= MaxAttackRange(rs[k], weapons)
          && rs' == Combat.Resolve(rs, k, target.value, weapons, ammos, dice).roster)
    && (target.None? ==>
          && rs' == rs
          && forall e: nat :: NearestEnemyAt(rs[k], rs, e) ==> UnitDist(rs[k], rs[e]) > MaxAttackRange(rs[k], weapons))
  }

  /** After a move: attack the then nearest enemy once if it is in range. */
  method AttackAfterMove(rs: seq<Unit>, k: nat, weapons: map<string, Weapon>, ammos: map<string, Ammo>,
                         second: Combat.Dice, cols: nat, rows: nat)
    returns (rs': seq<Unit>, target: Option<nat>)
    requires k < |rs| && Valid(rs) && OnGrid(rs, cols, rows)
    ensures Valid(rs') && OnGrid(rs', cols, rows)
    ensures AttackedAfterMove(rs, k, weapons, ammos, second, target, rs')
  {
    var e := FindNearestEnemy(rs[k], rs);
    if e.Some? && UnitDist(rs[k], rs[e.value]) <= MaxAttackRange(rs[k], weapons) {
      assert e.value != k;
      ResolveOnGrid(rs, k, e.value, weapons, ammos, second, cols, rows);
      return Combat.Resolve(rs, k, e.value, weapons, ammos, second).roster, e;
    }
    if e.Some? {
      forall n: nat | NearestEnemyAt(rs[k], rs, n) ensures n == e.value {
        NearestEnemyUnique(rs[k], rs, n, e.value);
      }
    }
    return rs, None;
  }

  /** What one AI unit did; `enemy` is the nearest enemy it found. */
  datatype Action =
    | NoEnemy
    | Attacked(enemy: nat)
    | Advanced(enemy: nat, path: seq<Cell>, step: nat, target: Option<nat>)
    | Stuck(enemy: nat, path: seq<Cell>)
    | Held(enemy: nat)

  /** The move rule refuses to move `u` to cell `c`. */
  predicate Refuses(u: Unit, c: Cell, rs: seq<Unit>)
  {
    Movement.Move(u, c.col, c.row, rs).Refused?
  }

  /** The moves along `act.path` for entry `k` of `rs`: a stuck unit was
      refused at each of the (up to five) furthest cells of the path and
      nothing changed; an advancing unit moved to the furthest cell among
      the last five of the path that the move rule accepts, and then made
      its attack after moving. */
  ghost predicate MovedAlong(rs: seq<Unit>, k: nat, weapons: map<string, Weapon>, ammos: map<string, Ammo>,
                             second: Combat.Dice, act: Action, rs': seq<Unit>)
  {
    && k < |rs| && (act.Advanced? || act.Stuck?)
    && (act.Stuck? ==>
          && rs' == rs
          && forall t :: |act.path| - 5 <= t < |act.path| && 0 <= t ==> Refuses(rs[k], act.path[t], rs))
    && (act.Advanced? ==>
          && |act.path| - 5 <= act.step < |act.path|
          && Movement.Move(rs[k], act.path[act.step].col, act.path[act.step].row, rs).Moved?
          && (forall t :: act.step < t < |act.path| ==> Refuses(rs[k], act.path[t], rs))
          && AttackedAfterMove(rs[k := Movement.Move(rs[k], act.path[act.step].col, act.path[act.step].row, rs).unit],
                               k, weapons, ammos, second, act.target, rs'))
  }

  /** The outcome of the movement half for entry `k` of `rs`: the path is
      the one the search promises towards the enemy's cell (non-empty
      exactly when an affordable walk reaches a cell strictly closer to the
      enemy, ending on the first closest such cell), and the unit moved
      along it as `MovedAlong` says. */
  ghost predicate Advancing(rs: seq<Unit>, k: nat, weapons: map<string, Weapon>, ammos: map<string, Ammo>,
                            second: Combat.Dice, cols: nat, rows: nat, act: Action, rs': seq<Unit>)
  {
    && k < |rs| && (act.Advanced? || act.Stuck?) && act.enemy < |rs|
    && Pathfinder.Towards(rs[k], Cell(rs[act.enemy].col, rs[act.enemy].row), rs, cols, rows, act.path)
    && MovedAlong(rs, k, weapons, ammos, second, act, rs')
  }

  /** The moves along an affordable path of grid cells: the cells are tried
      furthest first, and after a move the unit attacks the then nearest
      enemy once if it is in range. */
  method MoveAlong(rs: seq<Unit>, k: nat, enemy: nat, path: seq<Cell>, weapons: map<string, Weapon>,
                   ammos: map<string, Ammo>, second: Combat.Dice, cols: nat, rows: nat)
    returns (rs': seq<Unit>, act: Action)
    requires k < |rs| && Valid(rs) && OnGrid(rs, cols, rows)
    requires forall i :: 0 <= i < |path| ==> Pathfinder.InGrid(path[i], cols, rows)
    requires Movement.Affords(path, rs[k].movementRemaining)
    ensures Valid(rs') && OnGrid(rs', cols, rows)
    ensures (act.Advanced? || act.Stuck?) && act.enemy == enemy && act.path == path
    ensures MovedAlong(rs, k, weapons, ammos, second, act, rs')
  {
    var u := rs[k];
    var cs := Affordable(path, u.movementRemaining);
    assert |cs| == |path|;
    var t := TryMoves(u, cs, rs);
    if t.None? {
      forall i | |path| - 5 <= i < |path| && 0 <= i ensures Refuses(u, path[i], rs) {
        assert cs[i].cell == path[i];
      }
      return rs, Stuck(enemy, path);
    }
    var (j, moved) := t.value;
    assert cs[j].cell == path[j];
    forall i | j < i < |path| ensures Refuses(u, path[i], rs) {
      assert cs[i].cell == path[i];
    }
    assert u.id == moved.id && WellFormed(u);
    ReplaceValid(rs, k, moved);
    var rs1 := rs[k := moved];
    assert Pathfinder.InGrid(path[j], cols, rows);
    var target;
    rs', target := AttackAfterMove(rs1, k, weapons, ammos, second, cols, rows);
    act := Advanced(enemy, path, j, target);
  }

  /** The movement half of `decideUnitAction`: search a path towards the
      enemy at `enemy` and move along it. */
  method Advance(rs: seq<Unit>, k: nat, enemy: nat, weapons: map<string, Weapon>, ammos: map<string, Ammo>,
                 second: Combat.Dice, cols: nat, rows: nat)
    returns (rs': seq<Unit>, act: Action)
    requires k < |rs| && enemy < |rs| && Valid(rs) && OnGrid(rs, cols, rows)
    ensures Valid(rs') && OnGrid(rs', cols, rows)
    ensures (act.Advanced? || act.Stuck?) && act.enemy == enemy
    ensures Advancing(rs, k, weapons, ammos, second, cols, rows, act, rs')
  {
    var u := rs[k];
    var goal := Cell(rs[enemy].col, rs[enemy].row);
    var path, cost := Pathfinder.FindPath(u, goal, rs, cols, rows);
    assert Pathfinder.WalkTo(u, goal, rs, cols, rows, path, Pathfinder.End(Cell(u.col, u.row), path));
    rs', act := MoveAlong(rs, k, enemy, path, weapons, ammos, second, cols, rows);
  }

  /** Everything `decideUnitAction` promises for entry `k` of `rs` ending
      in `rs'` with action `act`: the roster stays valid and on the grid;
      there is no enemy exactly when every unit is friendly, and otherwise
      `act.enemy` is the nearest; the unit attacks it exactly when it has
      not attacked yet, the enemy is within maximum range and the attack
      fires; it holds exactly when it did not attack and has already moved
      or attacked; otherwise it advances or gets stuck as `Advancing`
      says; finding no enemy and holding change nothing. */
  ghost predicate Decided(rs: seq<Unit>, k: nat, weapons: map<string, Weapon>, ammos: map<string, Ammo>,
                          first: Combat.Dice, second: Combat.Dice, cols: nat, rows: nat, rs': seq<Unit>, act: Action)
  {
    && k < |rs| && Valid(rs)
    && Valid(rs') && OnGrid(rs', cols, rows)
    && (act.NoEnemy? <==> forall j :: 0 <= j < |rs| ==> !IsEnemy(rs[k], rs[j]))
    && (!act.NoEnemy? ==> NearestEnemyAt(rs[k], rs, act.enemy))
    && (act.Attacked? <==>
          && !act.NoEnemy? && !rs[k].hasAttacked
          && UnitDist(rs[k], rs[act.enemy]) <= MaxAttackRange(rs[k], weapons)
          && Combat.Resolve(rs, k, act.enemy, weapons, ammos, first).occurred)
    && (act.Attacked? ==> rs' == Combat.Resolve(rs, k, act.enemy, weapons, ammos, first).roster)
    && (act.Held? <==> !act.NoEnemy? && !act.Attacked? && (rs[k].hasAttacked || rs[k].hasMoved))
    && (act.NoEnemy? || act.Held? ==> rs' == rs)
    && (act.Advanced? || act.Stuck? ==> Advancing(rs, k, weapons, ammos, second, cols, rows, act, rs'))
  }

  /** `decideUnitAction` for roster entry `k`. `first` and `second` are the
      random draws of the attack before and after moving. */
  method DecideUnitAction(rs: seq<Unit>, k: nat, weapons: map<string, Weapon>, ammos: map<string, Ammo>,
                          first: Combat.Dice, second: Combat.Dice, cols: nat, rows: nat)
    returns (rs': seq<Unit>, act: Action)
    requires k < |rs| && Valid(rs) && OnGrid(rs, cols, rows)
    ensures Decided(rs, k, weapons, ammos, first, second, cols, rows, rs', act)
  {
    var u := rs[k];
    var e := FindNearestEnemy(u, rs);
    if e.None? {
      return rs, NoEnemy;
    }
    var enemy := e.value;
    assert enemy != k;
    if !u.hasAttacked && UnitDist(u, rs[enemy]) <= MaxAttackRange(u, weapons) {
      ResolveOnGrid(rs, k, enemy, weapons, ammos, first, cols, rows);
      var o := Combat.Resolve(rs, k, enemy, weapons, ammos, first);
      if o.occurred {
        return o.roster, Attacked(enemy);
      }
    }
    if !u.hasAttacked && !u.hasMoved {
      rs', act := Advance(rs, k, enemy, weapons, ammos, second, cols, rows);
      return;
    }
    return rs, Held(enemy);
  }

  /** No unit on the map shares its id with a unit carried by another. */
  ghost predicate NoCarriedOnMap(rs: seq<Unit>)
  {
    forall i, j :: 0 <= i < |rs| && 0 <= j < |rs| && rs[i].carried.Carrying? ==> rs[i].carried.passenger.id != rs[j].id
  }

  /** A unit that attacked is still on the map, found by its id, with its
      attacked flag set; a unit that advanced is found on the cell it moved
      to with its moved flag set. */
  lemma DecidedSpends(rs: seq<Unit>, k: nat, weapons: map<string, Weapon>, ammos: map<string, Ammo>,
                      first: Combat.Dice, second: Combat.Dice, cols: nat, rows: nat, rs': seq<Unit>, act: Action)
    requires Decided(rs, k, weapons, ammos, first, second, cols, rows, rs', act)
    requires act.Attacked? || act.Advanced?
    requires NoCarriedOnMap(rs)
    ensures IndexOfId(rs', rs[k].id).Some?
    ensures var u := rs'[IndexOfId(rs', rs[k].id).value];
      && (act.Attacked? ==> u.hasAttacked)
      && (act.Advanced? ==> u.hasMoved && u.col == act.path[act.step].col && u.row == act.path[act.step].row)
  {
    if act.Attacked? {
      Combat.ResolveKeepsAttacker(rs, k, act.enemy, weapons, ammos, first);
    } else {
      assert MovedAlong(rs, k, weapons, ammos, second, act, rs');
      MovedSpends(rs, k, weapons, ammos, second, act, rs');
    }
  }

  /** After a move, the mover is found by its id on the cell it moved to,
      with its moved flag set. */
  lemma MovedSpends(rs: seq<Unit>, k: nat, weapons: map<string, Weapon>, ammos: map<string, Ammo>,
                    second: Combat.Dice, act: Action, rs': seq<Unit>)
    requires MovedAlong(rs, k, weapons, ammos, second, act, rs') && act.Advanced?
    requires Valid(rs) && NoCarriedOnMap(rs)
    ensures IndexOfId(rs', rs[k].id).Some?
    ensures var u := rs'[IndexOfId(rs', rs[k].id).value];
      u.hasMoved && u.col == act.path[act.step].col && u.row == act.path[act.step].row
  {
    var c := act.path[act.step];
    var moved := Movement.Move(rs[k], c.col, c.row, rs).unit;
    var rs1 := rs[k := moved];
    assert forall i :: 0 <= i < |rs1| ==> rs1[i].id == rs[i].id;
    assert UniqueIds(rs1);
    if act.target.Some? {
      assert rs1[act.target.value] == rs[act.target.value];
      Combat.ResolveKeepsAttacker(rs1, k, act.target.value, weapons, ammos, second);
    } else {
      IndexOfIdIs(rs', k, rs[k].id);
    }
  }

  /** A unit whose attacked flag is set does nothing when asked to decide,
      and one that has moved never advances or gets stuck again. */
  lemma SpentUnitIdles(rs: seq<Unit>, k: nat, weapons: map<string, Weapon>, ammos: map<string, Ammo>,
                       first: Combat.Dice, second: Combat.Dice, cols: nat, rows: nat, rs': seq<Unit>, act: Action)
    requires Decided(rs, k, weapons, ammos, first, second, cols, rows, rs', act)
    ensures rs[k].hasAttacked ==> (act.NoEnemy? || act.Held?) && rs' == rs
    ensures rs[k].hasMoved ==> !act.Advanced? && !act.Stuck?
  {
  }

  /** Ids of the units of faction `f`, in roster order: the snapshot the AI
      turn iterates over. */
  function FactionIds(rs: seq<Unit>, f: string): (ids: seq<int>)
    ensures |ids| <= |rs|
    ensures forall x :: x in ids <==> exists i :: 0 <= i < |rs| && rs[i].faction == f && rs[i].id == x
  {
    if rs == [] then []
    else
      var rest := FactionIds(rs[1..], f);
      assert forall i :: 1 <= i < |rs| ==> rs[i] == rs[1..][i - 1];
      if rs[0].faction == f then [rs[0].id] + rest else rest
  }

  /** The snapshot keeps roster order: that of a roster made of two parts
      is the first part's followed by the second's. */
  lemma {:induction false} FactionIdsAppend(a: seq<Unit>, b: seq<Unit>, f: string)
    ensures FactionIds(a + b, f) == FactionIds(a, f) + FactionIds(b, f)
    decreases |a|
  {
    if a == [] {
      assert a + b == b;
    } else {
      assert (a + b)[1..] == a[1..] + b;
      FactionIdsAppend(a[1..], b, f);
    }
  }

  /** One step of the AI turn over id `id`: a unit no longer on the map is
      skipped with nothing changed; otherwise the unit the id finds decides
      its action `act`. */
  ghost predicate TurnStep(before: seq<Unit>, after: seq<Unit>, id: int, act: Action,
                           weapons: map<string, Weapon>, ammos: map<string, Ammo>,
                           first: Combat.Dice, second: Combat.Dice, cols: nat, rows: nat)
  {
    if HasId(before, id) then Decided(before, IndexOfId(before, id).value, weapons, ammos, first, second, cols, rows, after, act)
    else after == before
  }

  /** The ids among the first `n` of `ids` whose unit was still on the map,
      in `seen[i]`, when its turn came; in the order of `ids`. */
  ghost function Acting(ids: seq<int>, seen: seq<seq<Unit>>, n: nat): seq<int>
    requires n <= |ids| && n <= |seen|
  {
    if n == 0 then []
    else Acting(ids, seen, n - 1) + (if HasId(seen[n - 1], ids[n - 1]) then [ids[n - 1]] else [])
  }

  /** Only the first `n` rosters of the trace matter to `Acting`. */
  lemma {:induction false} ActingPrefix(ids: seq<int>, seen: seq<seq<Unit>>, more: seq<seq<Unit>>, n: nat)
    requires n <= |ids| && n <= |seen|
    ensures Acting(ids, seen + more, n) == Acting(ids, seen, n)
  {
    if n > 0 {
      assert (seen + more)[n - 1] == seen[n - 1];
      ActingPrefix(ids, seen, more, n - 1);
    }
  }

  /** The first `i` steps of the AI turn of `faction` from roster `rs`,
      ending in `rs'`: `seen[j]` is the roster when the `j`-th unit of the
      snapshot gets its turn and `acts[j]` what it did; every step is a
      `TurnStep` with that unit's dice, and `acted` lists, in snapshot
      order, the ids whose unit was still on the map when its turn came. */
  ghost predicate Traced(faction: string, rs: seq<Unit>, weapons: map<string, Weapon>, ammos: map<string, Ammo>,
                         roll: (nat, nat) -> Combat.Dice, cols: nat, rows: nat, i: nat,
                         seen: seq<seq<Unit>>, acts: seq<Action>, rs': seq<Unit>, acted: seq<int>)
  {
    var ids := FactionIds(rs, faction);
    && i <= |ids| && |seen| == i + 1 && |acts| == i
    && seen[0] == rs && seen[i] == rs'
    && (forall j :: 0 <= j < i ==>
          TurnStep(seen[j], seen[j + 1], ids[j], acts[j], weapons, ammos, roll(j, 0), roll(j, 1), cols, rows))
    && acted == Acting(ids, seen, i)
  }

  /** The whole AI turn: every unit of the snapshot has had its step. */
  ghost predicate Played(faction: string, rs: seq<Unit>, weapons: map<string, Weapon>, ammos: map<string, Ammo>,
                         roll: (nat, nat) -> Combat.Dice, cols: nat, rows: nat,
                         seen: seq<seq<Unit>>, acts: seq<Action>, rs': seq<Unit>, acted: seq<int>)
  {
    Traced(faction, rs, weapons, ammos, roll, cols, rows, |FactionIds(rs, faction)|, seen, acts, rs', acted)
  }

  /** One more step extends the trace. */
  lemma TurnTraceStep(faction: string, rs: seq<Unit>, weapons: map<string, Weapon>, ammos: map<string, Ammo>,
                  roll: (nat, nat) -> Combat.Dice, cols: nat, rows: nat, i: nat,
                  seen: seq<seq<Unit>>, acts: seq<Action>, before: seq<Unit>, acted: seq<int>,
                  after: seq<Unit>, act: Action)
    requires Traced(faction, rs, weapons, ammos, roll, cols, rows, i, seen, acts, before, acted)
    requires i < |FactionIds(rs, faction)|
    requires var id := FactionIds(rs, faction)[i];
      TurnStep(before, after, id, act, weapons, ammos, roll(i, 0), roll(i, 1), cols, rows)
    ensures var id := FactionIds(rs, faction)[i];
      Traced(faction, rs, weapons, ammos, roll, cols, rows, i + 1, seen + [after], acts + [act], after,
             acted + (if HasId(before, id) then [id] else []))
  {
    var ids := FactionIds(rs, faction);
    var seen' := seen + [after];
    ActingPrefix(ids, seen, [after], i);
    forall j | 0 <= j < i + 1
      ensures TurnStep(seen'[j], seen'[j + 1], ids[j], (acts + [act])[j], weapons, ammos, roll(j, 0), roll(j, 1), cols, rows)
    {
      if j < i {
        assert seen'[j] == seen[j] && seen'[j + 1] == seen[j + 1] && (acts + [act])[j] == acts[j];
      }
    }
  }

  /** `runAITurn`: each unit of the faction present when the turn starts
      acts in roster order, unless an earlier action removed it. `roll(i, j)`
      is the draw of attack `j` (0 before moving, 1 after) of the `i`-th
      unit. Returns the ids of the units that acted, and as ghost results
      the rosters between the steps and the actions taken. */
  method RunAiTurn(faction: string, rs: seq<Unit>, weapons: map<string, Weapon>, ammos: map<string, Ammo>,
                   roll: (nat, nat) -> Combat.Dice, cols: nat, rows: nat)
    returns (rs': seq<Unit>, acted: seq<int>, ghost seen: seq<seq<Unit>>, ghost acts: seq<Action>)
    requires Valid(rs) && OnGrid(rs, cols, rows)
    ensures Valid(rs') && OnGrid(rs', cols, rows)
    ensures Played(faction, rs, weapons, ammos, roll, cols, rows, seen, acts, rs', acted)
    ensures forall x :: x in acted ==> x in FactionIds(rs, faction)
    ensures |acted| <= |FactionIds(rs, faction)|
    ensures FactionIds(rs, faction) != [] ==> acted != [] && acted[0] == FactionIds(rs, faction)[0]
  {
    var ids := FactionIds(rs, faction);
    rs' := rs;
    acted := [];
    seen := [rs];
    acts := [];
    var i := 0;
    while i < |ids|
      invariant 0 <= i <= |ids|
      invariant Valid(rs') && OnGrid(rs', cols, rows)
      invariant Traced(faction, rs, weapons, ammos, roll, cols, rows, i, seen, acts, rs', acted)
      invariant |acted| <= i && forall x :: x in acted ==> x in ids
      invariant i > 0 ==> acted != [] && acted[0] == ids[0]
    {
      var k := IndexOfId(rs', ids[i]);
      var next := rs';
      var act := NoEnemy;
      if k.Some? {
        next, act := DecideUnitAction(rs', k.value, weapons, ammos, roll(i, 0), roll(i, 1), cols, rows);
      }
      if i == 0 {
        assert ids[0] in ids;
        assert HasId(rs, ids[0]);
      }
      TurnTraceStep(faction, rs, weapons, ammos, roll, cols, rows, i, seen, acts, rs', acted, next, act);
      if k.Some? {
        acted := acted + [ids[i]];
      }
      seen := seen + [next];
      acts := acts + [act];
      rs' := next;
      i := i + 1;
    }
  }
}

=== FILE: base.dfy ===
/** Shared vocabulary of the rules engine: optional values, grid cells and
    Manhattan distance. */
module Base {

  /** A value that may be absent (the source's `null` / `undefined`). */
  datatype Option<+T> = None | Some(value: T)

  /** Outcome of an operation that the source lets fail with an exception. */
  datatype Result<+T, +E> = Ok(value: T) | Err(error: E)

  /** A grid coordinate; `col` is the x axis and `row` the y axis. */
  datatype Cell = Cell(col: int, row: int)

  function Abs(x: int): (r: nat)
    ensures r == x || r == -x
  {
    if x < 0 then -x else x
  }

  /** Manhattan distance between two grid positions, the only metric the
      rules use for ranges, adjacency and AI targeting. */
  function Dist(c1: int, r1: int, c2: int, r2: int): (d: nat)
    ensures d == 0 <==> c1 == c2 && r1 == r2
    ensures d == Abs(c2 - c1) + Abs(r2 - r1)
  {
    Abs(c1 - c2) + Abs(r1 - r2)
  }

  /** Two cells are 4-neighbours. */
  predicate Adjacent(a: Cell, b: Cell)
  {
    Dist(a.col, a.row, b.col, b.row) == 1
  }

  function Min(a: int, b: int): int { if a <= b then a else b }
  function Max(a: int, b: int): int { if a >= b then a else b }

  /** `Math.round` of JavaScript: the nearest integer, halves rounded up. */
  function Round(x: real): (r: int)
    ensures x - 0.5 < r as real <= x + 0.5
  {
    (x + 0.5).Floor
  }
}

=== FILE: combat.dfy ===
/** Attack resolution, `performCombat` (js/core.js): weapon and ammunition
    selection per loadout entry, the infantry anti-tank ban, range,
    distance falloff, terrain cover, the effectiveness matrix, damage,
    destruction and the fate of a carried unit. Random draws are inputs. */
module Combat {
  import opened Base
  import Text
  import Terrain
  import opened Units
  import opened Roster

  /** The random draws of one attack: `shot(i, j)` is the roll in [0, 1) of
      shot `j` of loadout entry `i`; `carriedRoll` decides whether a carried
      unit dies with its transport; `casualtyPct` is the drawn casualty
      percentage of a surviving carried unit. */
  datatype Dice = Dice(shot: (nat, nat) -> real, carriedRoll: real, casualtyPct: nat)

  datatype TargetClass = InfantryTarget | LightVehicle | HeavyArmor

  /** Substrings of a lower-cased unit class that mark a light vehicle. */
  const LightVehicleMarks: seq<string> := ["ifv", "apc", "recon", "vehicle", "spg", "artillery"]

  predicate MarksLightVehicle(uc: string)
  {
    exists i :: 0 <= i < |LightVehicleMarks| && Text.Contains(uc, LightVehicleMarks[i])
  }

  lemma MarksLightVehicleIff(uc: string)
    ensures MarksLightVehicle(uc) <==>
      || Text.Contains(uc, "ifv") || Text.Contains(uc, "apc") || Text.Contains(uc, "recon")
      || Text.Contains(uc, "vehicle") || Text.Contains(uc, "spg") || Text.Contains(uc, "artillery")
  {
    assert LightVehicleMarks[0] == "ifv" && LightVehicleMarks[1] == "apc" && LightVehicleMarks[2] == "recon";
    assert LightVehicleMarks[3] == "vehicle" && LightVehicleMarks[4] == "spg" && LightVehicleMarks[5] == "artillery";
  }

  /** Defender classification by case-insensitive substring search. */
  function TargetClassOf(unitClass: string): (t: TargetClass)
    ensures t == HeavyArmor <==> Text.Contains(Text.Lower(unitClass), "tank")
    ensures t == LightVehicle <==> !Text.Contains(Text.Lower(unitClass), "tank") && MarksLightVehicle(Text.Lower(unitClass))
  {
    var uc := Text.Lower(unitClass);
    MarksLightVehicleIff(uc);
    if Text.Contains(uc, "tank") then HeavyArmor
    else if Text.Contains(uc, "ifv") || Text.Contains(uc, "apc") || Text.Contains(uc, "recon") || Text.Contains(uc, "vehicle")
    then LightVehicle
    else if Text.Contains(uc, "spg") || Text.Contains(uc, "artillery") then LightVehicle
    else InfantryTarget
  }

  /** The fixed ammunition-type by target-class matrix; a missing type reads
      as "Bullet" and an unknown one gets the fallback 0.1. */
  function Effectiveness(kind: string, t: TargetClass): (e: real)
    ensures kind !in {"", "Bullet", "HEAT", "HE", "APFSDS"} ==> e == 0.1
    ensures (kind == "" || kind == "Bullet") && t == InfantryTarget ==> e == 1.0
    ensures 0.05 <= e <= 1.2
  {
    var k := if kind == "" then "Bullet" else kind;
    if k == "Bullet" then (match t case InfantryTarget => 1.0 case LightVehicle => 0.3 case HeavyArmor => 0.05)
    else if k == "HEAT" then (match t case InfantryTarget => 0.7 case LightVehicle => 1.0 case HeavyArmor => 0.8)
    else if k == "HE" then (match t case InfantryTarget => 1.2 case LightVehicle => 0.8 case HeavyArmor => 0.2)
    else if k == "APFSDS" then (match t case InfantryTarget => 0.2 case LightVehicle => 0.7 case HeavyArmor => 1.0)
    else 0.1
  }

  /** An ammunition id with stock left in the store. */
  predicate Usable(store: map<string, int>, a: string)
  {
    a in store && store[a] > 0
  }

  /** The first id of `ids` with stock left. */
  function FirstStocked(store: map<string, int>, ids: seq<string>): (r: Option<string>)
    ensures r.None? <==> forall i :: 0 <= i < |ids| ==> !Usable(store, ids[i])
    ensures r.Some? ==> exists i :: (0 <= i < |ids| && ids[i] == r.value && Usable(store, ids[i])
      && forall j :: 0 <= j < i ==> !Usable(store, ids[j]))
  {
    if ids == [] then None
    else if Usable(store, ids[0]) then Some(ids[0])
    else
      var r := FirstStocked(store, ids[1..]);
      assert forall j :: 1 <= j < |ids| ==> ids[j] == ids[1..][j - 1];
      r
  }

  /** Ammunition choice: the preferred id when it has stock, else the first
      compatible id with stock. An empty preferred id counts as absent. */
  function ChooseAmmo(store: map<string, int>, preferred: string, compatible: seq<string>): (r: Option<string>)
    ensures r.Some? ==> Usable(store, r.value)
    ensures preferred != "" && Usable(store, preferred) ==> r == Some(preferred)
    ensures !(preferred != "" && Usable(store, preferred)) ==> r == FirstStocked(store, compatible)
  {
    if preferred != "" && Usable(store, preferred) then Some(preferred)
    else FirstStocked(store, compatible)
  }

  /** Linear damage falloff with range, clamped to [0, 1]; the range used is
      at least 1. */
  function DistanceFactor(dist: nat, maxDistance: int): (f: real)
    ensures 0.0 <= f <= 1.0
    ensures dist == 0 ==> f == 1.0
    ensures dist <= maxDistance ==> f > 0.0
  {
    var effective := Max(1, maxDistance);
    var raw := 1.0 - dist as real / (effective + 1) as real;
    if raw < 0.0 then 0.0 else if raw > 1.0 then 1.0 else raw
  }

  /** Number of the first `n` shots of entry `i` whose roll is at most the
      hit chance. */
  function CountHits(shot: (nat, nat) -> real, i: nat, n: nat, chance: real): (h: nat)
    ensures h <= n
    ensures (forall j :: 0 <= j < n ==> shot(i, j) <= chance) ==> h == n
    ensures (forall j :: 0 <= j < n ==> shot(i, j) > chance) ==> h == 0
  {
    if n == 0 then 0
    else CountHits(shot, i, n - 1, chance) + (if shot(i, n - 1) <= chance then 1 else 0)
  }

  /** `min(activeCount * fireRate, stock)`: never more than the stock. */
  function ShotsToFire(count: nat, rate: nat, stock: int): (n: nat)
    requires stock > 0
    ensures n <= stock
    ensures n <= count * rate
    ensures n == count * rate || n == stock
  {
    Min(count * rate, stock)
  }

  /** Damage of one hit: base damage scaled by effectiveness against the
      defender's class and by the distance falloff. */
  function DamagePerHit(ammo: Ammo, def: Unit, dist: nat, maxDistance: int): real
  {
    ammo.damage * Effectiveness(ammo.kind, TargetClassOf(def.unitClass)) * DistanceFactor(dist, maxDistance)
  }

  /** Hit chance of one shot: base accuracy reduced by the cover of the
      defender's cell. */
  function HitChance(weapon: Weapon, def: Unit): real
  {
    weapon.baseAccuracy * (1.0 - Terrain.CoverAt(def.col, def.row))
  }

  /** Total damage of a volley: hits times per-hit damage, and exactly zero
      when nothing hit. */
  function VolleyDamage(hits: nat, perHit: real): (d: real)
    ensures hits == 0 ==> d == 0.0
    ensures perHit >= 0.0 ==> d >= 0.0
  {
    if hits > 0 then hits as real * perHit else 0.0
  }

  datatype SkipReason = Inactive | UnknownWeapon | AntiTankBan | OutOfRange | NoAmmo | UnknownAmmo

  /** What one loadout entry does in an attack. */
  datatype Volley =
    | Skipped(reason: SkipReason)
    | Fired(weaponId: string, ammoId: string, shots: nat, hits: nat, damage: real)

  /** The ammunition store of a weapon id, empty when it has none. */
  function StoreOf(u: Unit, w: string): map<string, int>
  {
    if w in u.currentAmmo then u.currentAmmo[w] else map[]
  }

  /** Infantry may not fire anti-tank weapons at infantry. */
  predicate AntiTankBanned(att: Unit, def: Unit, weapon: Weapon)
  {
    IsInfantry(att) && IsInfantry(def) && weapon.category == "Anti-Tank"
  }

  /** The checks made before any ammunition is looked at, in the source's
      order: the entry is active, its weapon is known, not banned, and the
      defender is within range. */
  function Gate(att: Unit, def: Unit, w: string, counts: map<string, nat>, weapons: map<string, Weapon>)
    : (r: Option<SkipReason>)
    ensures r.None? <==>
      && w in counts && counts[w] > 0 && w in weapons
      && !AntiTankBanned(att, def, weapons[w])
      && Dist(def.col, def.row, att.col, att.row) <= weapons[w].maxDistance
    ensures w !in counts || counts[w] == 0 ==> r == Some(Inactive)
    ensures w in counts && counts[w] > 0 && w in weapons && AntiTankBanned(att, def, weapons[w]) ==> r == Some(AntiTankBan)
  {
    if w !in counts || counts[w] == 0 then Some(Inactive)
    else if w !in weapons then Some(UnknownWeapon)
    else if AntiTankBanned(att, def, weapons[w]) then Some(AntiTankBan)
    else if Dist(def.col, def.row, att.col, att.row) > weapons[w].maxDistance then Some(OutOfRange)
    else None
  }

  /** Firing a weapon that passed the gate: choose ammunition, fire
      `min(active * fireRate, stock)` shots, count hits and sum damage. */
  function Shoot(store: map<string, int>, preferred: string, count: nat, weapon: Weapon, w: string, i: nat,
                 def: Unit, dist: nat, ammos: map<string, Ammo>, dice: Dice): (v: Volley)
    ensures v.Fired? ==>
      && v.weaponId == w
      && ChooseAmmo(store, preferred, weapon.compatibleAmmo) == Some(v.ammoId)
      && v.ammoId != "" && v.ammoId in ammos && Usable(store, v.ammoId)
      && v.shots == ShotsToFire(count, weapon.fireRate, store[v.ammoId])
      && v.hits == CountHits(dice.shot, i, v.shots, HitChance(weapon, def))
      && v.damage == VolleyDamage(v.hits, DamagePerHit(ammos[v.ammoId], def, dist, weapon.maxDistance))
    ensures v.Skipped? ==> v.reason in {NoAmmo, UnknownAmmo}
  {
    var choice := ChooseAmmo(store, preferred, weapon.compatibleAmmo);
    if choice.None? || choice.value == "" then Skipped(NoAmmo)
    else if choice.value !in ammos then Skipped(UnknownAmmo)
    else
      var a := choice.value;
      var shots := ShotsToFire(count, weapon.fireRate, store[a]);
      var hits := CountHits(dice.shot, i, shots, HitChance(weapon, def));
      Fired(w, a, shots, hits, VolleyDamage(hits, DamagePerHit(ammos[a], def, dist, weapon.maxDistance)))
  }

  /** One pass of the loop over the attacker's loadout, for entry `i`. */
  function VolleyOf(att: Unit, def: Unit, i: nat, counts: map<string, nat>,
                    weapons: map<string, Weapon>, ammos: map<string, Ammo>, dice: Dice): (v: Volley)
    requires i < |att.loadout|
    ensures var w := att.loadout[i].weaponId;
      var g := Gate(att, def, w, counts, weapons);
      && (g.Some? ==> v == Skipped(g.value))
      && (g.None? ==> v == Shoot(StoreOf(att, w), att.loadout[i].preferredAmmo, counts[w], weapons[w], w, i,
                                 def, Dist(def.col, def.row, att.col, att.row), ammos, dice))
    ensures v.Fired? ==> v.weaponId in att.currentAmmo
  {
    var item := att.loadout[i];
    var w := item.weaponId;
    var g := Gate(att, def, w, counts, weapons);
    if g.Some? then Skipped(g.value)
    else
      var v := Shoot(StoreOf(att, w), item.preferredAmmo, counts[w], weapons[w], w, i,
                     def, Dist(def.col, def.row, att.col, att.row), ammos, dice);
      assert v.Fired? ==> Usable(StoreOf(att, w), v.ammoId);
      v
  }

  /** The attacker after a volley: stock drops by the shots fired, but only
      when at least one shot hit. */
  function Spend(att: Unit, v: Volley): (r: Unit)
    ensures r == att.(currentAmmo := r.currentAmmo)
    ensures !(v.Fired? && v.hits > 0) ==> r == att
    ensures r.currentAmmo.Keys == att.currentAmmo.Keys
    ensures v.Fired? && v.hits > 0 && v.weaponId in att.currentAmmo && v.ammoId in att.currentAmmo[v.weaponId] ==>
      && r.currentAmmo[v.weaponId].Keys == att.currentAmmo[v.weaponId].Keys
      && r.currentAmmo[v.weaponId][v.ammoId] == att.currentAmmo[v.weaponId][v.ammoId] - v.shots
    ensures forall w, a :: (w in att.currentAmmo && a in att.currentAmmo[w] && !(v.Fired? && w == v.weaponId && a == v.ammoId)
      ==> a in r.currentAmmo[w] && r.currentAmmo[w][a] == att.currentAmmo[w][a])
  {
    if v.Fired? && v.hits > 0 && v.weaponId in att.currentAmmo && v.ammoId in att.currentAmmo[v.weaponId] then
      var store := att.currentAmmo[v.weaponId];
      att.(currentAmmo := att.currentAmmo[v.weaponId := store[v.ammoId := store[v.ammoId] - v.shots]])
    else att
  }

  /** Every bucket of `after` exists in `before` and holds between 0 and
      its earlier count. */
  ghost predicate AmmoSpentFrom(before: map<string, map<string, int>>, after: map<string, map<string, int>>)
  {
    && before.Keys == after.Keys
    && (forall w :: w in after ==> after[w].Keys == before[w].Keys)
    && (forall w, a :: w in after && a in after[w] ==> 0 <= after[w][a] <= before[w][a])
  }

  lemma SpendKeepsAmmo(att: Unit, def: Unit, i: nat, counts: map<string, nat>,
                       weapons: map<string, Weapon>, ammos: map<string, Ammo>, dice: Dice)
    requires i < |att.loadout| && AmmoNonNegative(att.currentAmmo)
    ensures AmmoSpentFrom(att.currentAmmo, Spend(att, VolleyOf(att, def, i, counts, weapons, ammos, dice)).currentAmmo)
  {
  }

  /** Accumulated state of the loadout loop. */
  datatype Barrage = Barrage(attacker: Unit, fired: bool, total: real)

  lemma AmmoSpentTransitive(a: map<string, map<string, int>>, b: map<string, map<string, int>>, c: map<string, map<string, int>>)
    requires AmmoSpentFrom(a, b) && AmmoSpentFrom(b, c)
    ensures AmmoSpentFrom(a, c)
  {
    forall w, x | w in c && x in c[w] ensures 0 <= c[w][x] <= a[w][x] {
      assert x in b[w];
    }
  }

  /** The loadout loop from entry `i` on. */
  function FireFrom(att: Unit, def: Unit, i: nat, counts: map<string, nat>,
                    weapons: map<string, Weapon>, ammos: map<string, Ammo>, dice: Dice): (b: Barrage)
    requires i <= |att.loadout|
    requires AmmoNonNegative(att.currentAmmo)
    ensures b.attacker == att.(currentAmmo := b.attacker.currentAmmo)
    ensures AmmoSpentFrom(att.currentAmmo, b.attacker.currentAmmo)
    ensures !b.fired <==> forall j :: i <= j < |att.loadout| ==> VolleyOf(att, def, j, counts, weapons, ammos, dice).Skipped?
    ensures !b.fired ==> b.attacker == att && b.total == 0.0
    decreases |att.loadout| - i
  {
    if i == |att.loadout| then Barrage(att, false, 0.0)
    else
      var v := VolleyOf(att, def, i, counts, weapons, ammos, dice);
      var att' := Spend(att, v);
      SpendKeepsAmmo(att, def, i, counts, weapons, ammos, dice);
      assert AmmoNonNegative(att'.currentAmmo);
      var rest := FireFrom(att', def, i + 1, counts, weapons, ammos, dice);
      AmmoSpentTransitive(att.currentAmmo, att'.currentAmmo, rest.attacker.currentAmmo);
      Barrage(rest.attacker, v.Fired? || rest.fired, (if v.Fired? then v.damage else 0.0) + rest.total)
  }

  /** The result of `performCombat`: whether any weapon fired, the rounded
      damage, the new roster, and a carried unit that survived its
      transport's destruction (which the source never puts back on the
      roster). */
  datatype Outcome = Outcome(occurred: bool, damage: int, roster: seq<Unit>, ejected: Option<Unit>)

  /** Some loadout entry of the attacker fires at the defender. */
  predicate AnyFires(att: Unit, def: Unit, weapons: map<string, Weapon>, ammos: map<string, Ammo>, dice: Dice)
    requires att.maxHealth > 0
  {
    exists j :: 0 <= j < |att.loadout| && VolleyOf(att, def, j, ActiveCounts(att), weapons, ammos, dice).Fired?
  }

  /** A carried unit that survives: on its transport's cell, having lost the
      drawn percentage of its maximum health, but never below 1. */
  function Survivor(p: Unit, col: int, row: int, pct: nat): (s: Unit)
    ensures s.col == col && s.row == row
    ensures s.health >= 1
    ensures p.health >= 1 && p.maxHealth >= 0 ==> s.health <= p.health
    ensures s == p.(col := col, row := row, health := s.health)
  {
    var loss := Round(p.maxHealth as real * (pct as real / 100.0));
    p.(col := col, row := row, health := Max(1, p.health - loss))
  }

  /** The defender's fate once the damage is known, applied to roster `rs`
      in which the defender is entry `d`: damage that does not destroy it is
      subtracted from its health; a destroyed defender is removed, and its
      carried unit either dies with it (`carriedRoll` below 0.6) or
      survives, off the roster. */
  function Aftermath(rs: seq<Unit>, d: nat, damage: int, dice: Dice): (o: (seq<Unit>, Option<Unit>))
    requires d < |rs|
    ensures damage <= 0 ==> o == (rs, None)
    ensures 0 < damage < rs[d].health ==> o == (rs[d := rs[d].(health := rs[d].health - damage)], None)
    ensures 0 < damage && rs[d].health <= damage && UniqueIds(rs) ==> !HasId(o.0, rs[d].id)
    ensures 0 < damage && rs[d].health <= damage && rs[d].carried.Carrying? && dice.carriedRoll < 0.6 && UniqueIds(rs)
      ==> !HasId(o.0, rs[d].carried.passenger.id)
    ensures o.1.Some? <==> 0 < damage && rs[d].health <= damage && rs[d].carried.Carrying? && dice.carriedRoll >= 0.6
    ensures o.1.Some? ==> o.1.value == Survivor(rs[d].carried.passenger, rs[d].col, rs[d].row, dice.casualtyPct)
    ensures forall x :: x in o.0 ==> x in rs || (x == rs[d].(health := x.health) && 0 < x.health < rs[d].health)
    ensures 0 < damage && rs[d].health <= damage ==>
      forall i :: 0 <= i < |rs| && rs[i].id != rs[d].id
        && !(rs[d].carried.Carrying? && dice.carriedRoll < 0.6 && rs[i].id == rs[d].carried.passenger.id)
        ==> rs[i] in o.0
  {
    var def := rs[d];
    if damage <= 0 then (rs, None)
    else if def.health - damage > 0 then (rs[d := def.(health := def.health - damage)], None)
    else if def.carried.Empty? then (RemoveById(rs, def.id), None)
    else
      var p := def.carried.passenger;
      if dice.carriedRoll < 0.6 then
        var r0 := RemoveById(rs, p.id);
        assert UniqueIds(rs) ==> UniqueIds(r0) by {
          if UniqueIds(rs) {
            RemoveByIdUnique(rs, p.id);
          }
        }
        var r1 := RemoveById(r0, def.id);
        assert UniqueIds(rs) ==> !HasId(r1, p.id) by {
          if UniqueIds(rs) {
            assert !HasId(r0, p.id);
            forall i | 0 <= i < |r1| ensures r1[i].id != p.id {
              assert r1[i] in r0;
            }
          }
        }
        (r1, None)
      else (RemoveById(rs, def.id), Some(Survivor(p, def.col, def.row, dice.casualtyPct)))
  }

  /** `performCombat`. Attacker and defender are roster entries `a` and `d`;
      the attacker is marked as having attacked and pays for its hits
      whatever happens to the defender. */
  function Resolve(roster: seq<Unit>, a: nat, d: nat, weapons: map<string, Weapon>, ammos: map<string, Ammo>, dice: Dice)
    : (o: Outcome)
    requires a < |roster| && d < |roster| && a != d
    requires roster[a].maxHealth > 0 && AmmoNonNegative(roster[a].currentAmmo)
    ensures !o.occurred <==> !AnyFires(roster[a], roster[d], weapons, ammos, dice)
    ensures !o.occurred ==> o.roster == roster && o.ejected.None? && o.damage == 0
    ensures o.occurred ==>
      var b := FireFrom(roster[a], roster[d], 0, ActiveCounts(roster[a]), weapons, ammos, dice);
      && o.damage == Round(b.total)
      && (o.roster, o.ejected) == Aftermath(roster[a := b.attacker.(hasAttacked := true)], d, o.damage, dice)
  {
    var att := roster[a];
    var b := FireFrom(att, roster[d], 0, ActiveCounts(att), weapons, ammos, dice);
    if !b.fired then Outcome(false, 0, roster, None)
    else
      var damage := Round(b.total);
      var after := Aftermath(roster[a := b.attacker.(hasAttacked := true)], d, damage, dice);
      Outcome(true, damage, after.0, after.1)
  }

  /** A volley that fires passed every check of the source: the entry is
      active, its weapon known and allowed and in range, and the chosen
      ammunition has stock; no more shots than stock, no more hits than
      shots. */
  lemma FiredVolleyFacts(att: Unit, def: Unit, i: nat, counts: map<string, nat>,
                         weapons: map<string, Weapon>, ammos: map<string, Ammo>, dice: Dice)
    requires i < |att.loadout|
    ensures var v := VolleyOf(att, def, i, counts, weapons, ammos, dice);
      var w := att.loadout[i].weaponId;
      v.Fired? ==>
        && w in counts && counts[w] > 0 && w in weapons && w in att.currentAmmo
        && !AntiTankBanned(att, def, weapons[w])
        && Dist(def.col, def.row, att.col, att.row) <= weapons[w].maxDistance
        && Usable(att.currentAmmo[w], v.ammoId)
        && v.hits <= v.shots <= att.currentAmmo[w][v.ammoId]
  {
    var v := VolleyOf(att, def, i, counts, weapons, ammos, dice);
    var w := att.loadout[i].weaponId;
    if v.Fired? {
      assert Gate(att, def, w, counts, weapons).None?;
      assert StoreOf(att, w) == att.currentAmmo[w];
    }
  }

  /** Infantry never fires an anti-tank weapon at infantry. */
  lemma InfantryNeverFiresAntiTank(att: Unit, def: Unit, i: nat, counts: map<string, nat>,
                                   weapons: map<string, Weapon>, ammos: map<string, Ammo>, dice: Dice)
    requires i < |att.loadout| && IsInfantry(att) && IsInfantry(def)
    ensures var v := VolleyOf(att, def, i, counts, weapons, ammos, dice);
      v.Fired? ==> weapons[v.weaponId].category != "Anti-Tank"
  {
    FiredVolleyFacts(att, def, i, counts, weapons, ammos, dice);
  }

  /** Beyond `getMaxAttackRange` no weapon fires, so the attack does not
      occur. (The converse fails: a weapon without any ammunition
      definition counts for the range but never fires.) */
  lemma OutOfRangeNeverFires(att: Unit, def: Unit, weapons: map<string, Weapon>, ammos: map<string, Ammo>, dice: Dice)
    requires att.maxHealth > 0
    requires Dist(def.col, def.row, att.col, att.row) > MaxAttackRange(att, weapons)
    ensures !AnyFires(att, def, weapons, ammos, dice)
  {
    var counts := ActiveCounts(att);
    forall j | 0 <= j < |att.loadout| ensures VolleyOf(att, def, j, counts, weapons, ammos, dice).Skipped? {
      FiredVolleyFacts(att, def, j, counts, weapons, ammos, dice);
    }
  }

  /** A surviving carried unit is a well-formed unit again. */
  lemma SurvivorWellFormed(p: Unit, col: int, row: int, pct: nat)
    requires WellFormed(p)
    ensures WellFormed(Survivor(p, col, row, pct))
  {
    var loss := Round(p.maxHealth as real * (pct as real / 100.0));
    assert loss >= 0;
  }

  /** The aftermath keeps the roster invariant, and an ejected carried unit
      is well-formed. */
  lemma AftermathValid(rs: seq<Unit>, d: nat, damage: int, dice: Dice)
    requires d < |rs| && Valid(rs)
    ensures Valid(Aftermath(rs, d, damage, dice).0)
    ensures Aftermath(rs, d, damage, dice).1.Some? ==> WellFormed(Aftermath(rs, d, damage, dice).1.value)
  {
    var def := rs[d];
    assert WellFormed(def);
    if damage <= 0 {
    } else if def.health - damage > 0 {
      ReplaceValid(rs, d, def.(health := def.health - damage));
    } else if def.carried.Empty? {
      RemoveByIdValid(rs, def.id);
    } else if dice.carriedRoll < 0.6 {
      RemoveByIdValid(rs, def.carried.passenger.id);
      RemoveByIdValid(RemoveById(rs, def.carried.passenger.id), def.id);
    } else {
      RemoveByIdValid(rs, def.id);
      SurvivorWellFormed(def.carried.passenger, def.col, def.row, dice.casualtyPct);
    }
  }

  /** An attack keeps the roster invariant. */
  lemma ResolveValid(roster: seq<Unit>, a: nat, d: nat, weapons: map<string, Weapon>, ammos: map<string, Ammo>, dice: Dice)
    requires a < |roster| && d < |roster| && a != d && Valid(roster)
    ensures roster[a].maxHealth > 0 && AmmoNonNegative(roster[a].currentAmmo)
    ensures var o := Resolve(roster, a, d, weapons, ammos, dice);
      Valid(o.roster) && (o.ejected.Some? ==> WellFormed(o.ejected.value))
  {
    var att := roster[a];
    assert WellFormed(att);
    var b := FireFrom(att, roster[d], 0, ActiveCounts(att), weapons, ammos, dice);
    if b.fired {
      var att' := b.attacker.(hasAttacked := true);
      assert AmmoNonNegative(att'.currentAmmo) by {
        forall w, x | w in att'.currentAmmo && x in att'.currentAmmo[w] ensures att'.currentAmmo[w][x] >= 0 {
        }
      }
      assert WellFormed(att');
      ReplaceValid(roster, a, att');
      AftermathValid(roster[a := att'], d, Round(b.total), dice);
    }
  }

  /** Every unit left after an attack was already on the roster, or is the
      attacker with only its ammunition and attack flag changed, or the
      defender with only its health lowered. */
  lemma ResolveKeepsUnits(roster: seq<Unit>, a: nat, d: nat, weapons: map<string, Weapon>, ammos: map<string, Ammo>, dice: Dice)
    requires a < |roster| && d < |roster| && a != d
    requires roster[a].maxHealth > 0 && AmmoNonNegative(roster[a].currentAmmo)
    ensures var o := Resolve(roster, a, d, weapons, ammos, dice);
      forall x :: (x in o.roster ==> (x in roster
        || x == roster[a].(currentAmmo := x.currentAmmo, hasAttacked := true)
        || (x == roster[d].(health := x.health) && 0 < x.health < roster[d].health)))
  {
    var att := roster[a];
    var b := FireFrom(att, roster[d], 0, ActiveCounts(att), weapons, ammos, dice);
    if b.fired {
      var r1 := roster[a := b.attacker.(hasAttacked := true)];
      assert r1[d] == roster[d];
      UpdateMembers(roster, a, b.attacker.(hasAttacked := true));
    }
  }

  /** Damage dealt to entry `d` leaves every other entry `a` on the map, as
      the unit its id finds, unless it is the destroyed defender's passenger. */
  lemma AftermathKeepsOthers(rs: seq<Unit>, a: nat, d: nat, damage: int, dice: Dice)
    requires a < |rs| && d < |rs| && a != d && UniqueIds(rs)
    requires rs[d].carried.Carrying? ==> rs[d].carried.passenger.id != rs[a].id
    ensures var o := Aftermath(rs, d, damage, dice);
      IndexOfId(o.0, rs[a].id).Some? && o.0[IndexOfId(o.0, rs[a].id).value] == rs[a]
  {
    var o := Aftermath(rs, d, damage, dice);
    var id := rs[a].id;
    if damage <= 0 || damage < rs[d].health {
      assert |o.0| == |rs| && o.0[a] == rs[a];
      assert forall j :: 0 <= j < |rs| ==> o.0[j].id == rs[j].id;
      IndexOfIdIs(o.0, a, id);
    } else {
      FoundIsOriginal(rs, o.0, a);
    }
  }

  /** The same after entry `a` has been replaced by `u` with the same id. */
  lemma AftermathKeepsReplaced(rs: seq<Unit>, a: nat, d: nat, u: Unit, damage: int, dice: Dice)
    requires a < |rs| && d < |rs| && a != d && UniqueIds(rs) && u.id == rs[a].id
    requires rs[d].carried.Carrying? ==> rs[d].carried.passenger.id != rs[a].id
    ensures var r := Aftermath(rs[a := u], d, damage, dice).0;
      IndexOfId(r, u.id).Some? && r[IndexOfId(r, u.id).value] == u
  {
    var r1 := rs[a := u];
    assert forall i :: 0 <= i < |r1| ==> r1[i].id == rs[i].id;
    assert r1[d] == rs[d];
    AftermathKeepsOthers(r1, a, d, damage, dice);
  }

  /** In a roster whose entries all come from `rs` (with distinct ids) and
      that still holds `rs[a]`, the id of `rs[a]` finds exactly that unit. */
  lemma FoundIsOriginal(rs: seq<Unit>, r: seq<Unit>, a: nat)
    requires a < |rs| && UniqueIds(rs)
    requires forall x :: x in r ==> x in rs
    requires rs[a] in r
    ensures IndexOfId(r, rs[a].id).Some? && r[IndexOfId(r, rs[a].id).value] == rs[a]
  {
    assert HasId(r, rs[a].id);
    var k := IndexOfId(r, rs[a].id).value;
    assert r[k] in r;
    var j :| 0 <= j < |rs| && rs[j] == r[k];
  }

  /** After an attack that fires, for ids that do not clash (which the
      source takes for granted), the attacker is still on the map with its
      attacked flag set and nothing changed but spent ammunition. */
  lemma ResolveKeepsAttacker(roster: seq<Unit>, a: nat, d: nat, weapons: map<string, Weapon>, ammos: map<string, Ammo>,
                             dice: Dice)
    requires a < |roster| && d < |roster| && a != d
    requires roster[a].maxHealth > 0 && AmmoNonNegative(roster[a].currentAmmo)
    requires UniqueIds(roster)
    requires roster[d].carried.Carrying? ==> roster[d].carried.passenger.id != roster[a].id
    ensures var o := Resolve(roster, a, d, weapons, ammos, dice);
      o.occurred ==>
        && IndexOfId(o.roster, roster[a].id).Some?
        && var u := o.roster[IndexOfId(o.roster, roster[a].id).value];
           && u == roster[a].(currentAmmo := u.currentAmmo, hasAttacked := true)
           && AmmoSpentFrom(roster[a].currentAmmo, u.currentAmmo)
  {
    var att := roster[a];
    var b := FireFrom(att, roster[d], 0, ActiveCounts(att), weapons, ammos, dice);
    if b.fired {
      AftermathKeepsReplaced(roster, a, d, b.attacker.(hasAttacked := true), Round(b.total), dice);
    }
  }

  /** After an attack that fires, a defender damaged short of destruction
      keeps its place with its health lowered by the damage. */
  lemma ResolveWounds(roster: seq<Unit>, a: nat, d: nat, weapons: map<string, Weapon>, ammos: map<string, Ammo>,
                      dice: Dice)
    requires a < |roster| && d < |roster| && a != d
    requires roster[a].maxHealth > 0 && AmmoNonNegative(roster[a].currentAmmo)
    ensures var o := Resolve(roster, a, d, weapons, ammos, dice);
      o.occurred && o.damage < roster[d].health ==> o.roster[d] == roster[d].(health := roster[d].health - Max(0, o.damage))
  {
    var b := FireFrom(roster[a], roster[d], 0, ActiveCounts(roster[a]), weapons, ammos, dice);
    var r1 := roster[a := b.attacker.(hasAttacked := true)];
    assert r1[d] == roster[d];
  }

  /** After an attack that fires, a destroyed defender is gone from the
      map (ids being distinct). */
  lemma ResolveDestroys(roster: seq<Unit>, a: nat, d: nat, weapons: map<string, Weapon>, ammos: map<string, Ammo>,
                        dice: Dice)
    requires a < |roster| && d < |roster| && a != d
    requires roster[a].maxHealth > 0 && AmmoNonNegative(roster[a].currentAmmo)
    requires UniqueIds(roster)
    ensures var o := Resolve(roster, a, d, weapons, ammos, dice);
      o.occurred && 0 < o.damage && roster[d].health <= o.damage ==> !HasId(o.roster, roster[d].id)
  {
    var b := FireFrom(roster[a], roster[d], 0, ActiveCounts(roster[a]), weapons, ammos, dice);
    var r1 := roster[a := b.attacker.(hasAttacked := true)];
    assert r1[d] == roster[d];
    assert forall i :: 0 <= i < |r1| ==> r1[i].id == roster[i].id;
    assert UniqueIds(r1);
  }

  /** The attacker of the worked example below, one cell east of `(col, row)`. */
  function ExampleAttacker(col: int, row: int): Unit
  {
    Unit(1, "squad", "Squad", "RifleSquad", "A", 100, 100, col + 1, row, 3, 3, [], false,
         [LoadoutItem("rifle", 4, 1, "", Some(map["ball" := 120]))], map["rifle" := map["ball" := 120]],
         false, false, "Default", Empty)
  }

  const ExampleWeapons: map<string, Weapon> := map["rifle" := Weapon("Rifle", "Rifle", ["ball"], 1.0, 5, 1)]
  const ExampleAmmos: map<string, Ammo> := map["ball" := Ammo("Ball", 10.0, "Bullet", 0)]

  /** At full health all four instances of the example's entry are active. */
  lemma ExampleCounts(col: int, row: int)
    ensures ActiveCounts(ExampleAttacker(col, row)) == map["rifle" := 4]
  {
    var att := ExampleAttacker(col, row);
    var item := att.loadout[0];
    assert ActiveCount(100, 100, 4) == 4;
    assert Usable(att.currentAmmo["rifle"], "ball");
    assert Counted(100, 100, att.currentAmmo, item);
  }

  /** The example's one volley: four shots, all hitting, for 10 * (1 - 1/6)
      each. */
  lemma ExampleVolley(def: Unit, dice: Dice)
    requires TargetClassOf(def.unitClass) == InfantryTarget
    requires Terrain.CoverAt(def.col, def.row) == 0.0
    requires forall i, j :: 0.0 <= dice.shot(i, j) < 1.0
    ensures var att := ExampleAttacker(def.col, def.row);
      VolleyOf(att, def, 0, map["rifle" := 4], ExampleWeapons, ExampleAmmos, dice)
        == Fired("rifle", "ball", 4, 4, 4.0 * (10.0 * (1.0 - 1.0 / 6.0)))
  {
    var att := ExampleAttacker(def.col, def.row);
    var weapon := ExampleWeapons["rifle"];
    assert Dist(def.col, def.row, att.col, att.row) == 1;
    assert Gate(att, def, "rifle", map["rifle" := 4], ExampleWeapons).None?;
    assert ChooseAmmo(att.currentAmmo["rifle"], "", ["ball"]) == Some("ball");
    assert HitChance(weapon, def) == 1.0;
    assert CountHits(dice.shot, 0, 4, 1.0) == 4;
    assert DistanceFactor(1, 5) == 1.0 - 1.0 / 6.0;
    assert DamagePerHit(ExampleAmmos["ball"], def, 1, 5) == 10.0 * (1.0 - 1.0 / 6.0);
  }

  /** The worked example of the rules: a full-strength attacker with one
      weapon entry of four instances (accuracy 1.0, range 5, one shot each)
      loaded with 10-damage Bullet rounds, firing at an infantry-class
      defender without cover one cell away. All four shots hit for
      10 * (1 - 1/6) each, 33 after rounding, and the defender drops from
      100 to 67 health. */
  lemma WorkedExample(def: Unit, dice: Dice)
    requires def.health == 100
    requires TargetClassOf(def.unitClass) == InfantryTarget
    requires Terrain.CoverAt(def.col, def.row) == 0.0
    requires forall i, j :: 0.0 <= dice.shot(i, j) < 1.0
    ensures var o := Resolve([ExampleAttacker(def.col, def.row), def], 0, 1, ExampleWeapons, ExampleAmmos, dice);
      o.occurred && o.damage == 33 && o.roster[1].health == 67
  {
    var att := ExampleAttacker(def.col, def.row);
    ExampleCounts(def.col, def.row);
    ExampleVolley(def, dice);
    SingleVolley(att, def, map["rifle" := 4], ExampleWeapons, ExampleAmmos, dice);
    assert Round(4.0 * (10.0 * (1.0 - 1.0 / 6.0))) == 33;
    ResolveWounds([att, def], 0, 1, ExampleWeapons, ExampleAmmos, dice);
  }

  /** A one-entry loadout fires exactly its one volley. */
  lemma SingleVolley(att: Unit, def: Unit, counts: map<string, nat>,
                     weapons: map<string, Weapon>, ammos: map<string, Ammo>, dice: Dice)
    requires |att.loadout| == 1 && AmmoNonNegative(att.currentAmmo)
    ensures var v := VolleyOf(att, def, 0, counts, weapons, ammos, dice);
      var b := FireFrom(att, def, 0, counts, weapons, ammos, dice);
      b.fired == v.Fired? && b.total == (if v.Fired? then v.damage else 0.0)
  {
    var v := VolleyOf(att, def, 0, counts, weapons, ammos, dice);
    SpendKeepsAmmo(att, def, 0, counts, weapons, ammos, dice);
    assert |Spend(att, v).loadout| == 1;
  }
}

=== FILE: groups.dfy ===
/** Scenario set-up (js/main.js): `expandGroup` unfolds a group template,
    recursively and at most ten levels deep, into placed units and transport
    placeholders along one row, drawing ids from a shared counter; placing a
    deployment-pool entry then creates the unit, or a transport with its
    passenger already aboard. */
module Groups {
  import opened Base
  import opened Units
  import opened Roster
  import Transport

  /** One line of a group template: a unit template id or a group id, and a
      count where 0 stands for a missing count. */
  datatype GroupEntry = GroupEntry(kind: string, count: int)

  datatype GroupTemplate = GroupTemplate(name: string, units: seq<GroupEntry>)

  /** The catalogs expansion reads, and the grid width it lays units out in. */
  datatype Catalog = Catalog(templates: map<string, Template>, groups: map<string, GroupTemplate>, gridCols: int)

  /** An expansion item: a unit built from its template, or a placeholder
      for a transport that will carry a unit of type `passengerTypeId`. */
  datatype Placed =
    | Built(unit: Unit, origin: string)
    | Placeholder(id: int, templateId: string, name: string, unitClass: string, faction: string,
                  origin: string, passengerTypeId: string, passengerName: string, col: int, row: int)

  function IdOf(p: Placed): int
  {
    match p
    case Built(u, _) => u.id
    case Placeholder(id, _, _, _, _, _, _, _, _, _) => id
  }

  function ColOf(p: Placed): int
  {
    if p.Built? then p.unit.col else p.col
  }

  function RowOf(p: Placed): int
  {
    if p.Built? then p.unit.row else p.row
  }

  /** The items produced and the id counter after producing them. */
  datatype Expansion = Expansion(items: seq<Placed>, next: int)

  /** `item.count || 1`: a missing or zero count means one copy; a negative
      count means none. */
  function Copies(e: GroupEntry): (n: int)
    ensures e.count == 0 ==> n == 1
    ensures e.count != 0 ==> n == e.count
  {
    if e.count == 0 then 1 else e.count
  }

  /** Copies of entry `i` still to lay out after `done` of them. */
  function Left(es: seq<GroupEntry>, i: nat, done: nat): nat
  {
    if i < |es| && done < Copies(es[i]) then Copies(es[i]) - done else 0
  }

  /** The ids are the counter values in order, one per item. */
  predicate Numbered(r: Expansion, next: int)
  {
    && r.next == next + |r.items|
    && forall k :: 0 <= k < |r.items| ==> IdOf(r.items[k]) == next + k
  }

  /** Every item lies on row `row`, at or right of column `col` and left of
      column `gridCols`. */
  predicate Laid(r: Expansion, col: int, row: int, gridCols: int)
  {
    forall k :: 0 <= k < |r.items| ==> RowOf(r.items[k]) == row && col <= ColOf(r.items[k]) < gridCols
  }

  /** Units come from their templates (so carry the template's faction);
      placeholders carry the group's faction and the origin group. */
  predicate Made(r: Expansion, cat: Catalog, faction: string, origin: string)
  {
    forall k :: 0 <= k < |r.items| ==>
      match r.items[k]
      case Built(u, o) =>
        && (origin != "" ==> o == origin)
        && u.templateId in cat.templates
        && NewUnit(u.templateId, u.col, u.row, cat.templates, u.id) == Ok(u)
      case Placeholder(_, tid, _, _, f, o, pid, _, _, _) =>
        && (origin != "" ==> o == origin)
        && f == faction && tid in cat.templates && pid in cat.templates
        && cat.templates[pid].transport == Some(tid)
  }

  /** The item one copy of unit template `kind` makes with id `id` in
      column `col`: a placeholder when the template names a known transport,
      otherwise the unit itself. */
  function Item(cat: Catalog, kind: string, faction: string, origin: string, id: int, col: int, row: int): (p: Placed)
    requires kind in cat.templates
    ensures IdOf(p) == id && ColOf(p) == col && RowOf(p) == row
    ensures p.Placeholder? <==> (cat.templates[kind].transport.Some? && cat.templates[kind].transport.value != ""
                                 && cat.templates[kind].transport.value in cat.templates)
    ensures p.Placeholder? ==> p.passengerTypeId == kind && p.templateId == cat.templates[kind].transport.value
    ensures p.Built? ==> p.unit.templateId == kind
  {
    var t := cat.templates[kind];
    if t.transport.Some? && t.transport.value != "" && t.transport.value in cat.templates then
      var tt := cat.templates[t.transport.value];
      Placeholder(id, t.transport.value, tt.name, tt.unitClass, faction, origin, kind, t.name, col, row)
    else
      Built(NewUnit(kind, col, row, cat.templates, id).value, origin)
  }

  /** `expandGroup`: nothing beyond depth 10 or for an unknown group;
      otherwise the group's entries in order, every item tagged with the
      top-level group id (or this group's id at the top). */
  function ExpandGroup(cat: Catalog, gid: string, faction: string, col: int, row: int, next: int, depth: nat, top: string)
    : (r: Expansion)
    ensures depth > 10 || gid !in cat.groups ==> r == Expansion([], next)
    ensures Numbered(r, next)
    ensures forall j, k :: 0 <= j < k < |r.items| ==> IdOf(r.items[j]) < IdOf(r.items[k])
    ensures Laid(r, col, row, cat.gridCols)
    ensures Made(r, cat, faction, if top != "" then top else gid)
    decreases 11 - depth, 1, 0, 0
  {
    if depth > 10 || gid !in cat.groups then Expansion([], next)
    else ExpandFrom(cat, cat.groups[gid].units, 0, 0, faction, col, row, 0, next, depth, if top != "" then top else gid)
  }

  /** The `forEach` over entries and the inner `for` over copies, from copy
      `done` of entry `i` on, with the column offset reached so far. A copy
      whose column falls off the grid is skipped and does not advance the
      offset; so is an entry naming neither a group nor a unit template. */
  function ExpandFrom(cat: Catalog, es: seq<GroupEntry>, i: nat, done: nat, faction: string, col: int, row: int,
                      offset: nat, next: int, depth: nat, origin: string): (r: Expansion)
    requires depth <= 10 && i <= |es|
    ensures Numbered(r, next)
    ensures Laid(r, col + offset, row, cat.gridCols)
    ensures Made(r, cat, faction, origin)
    decreases 11 - depth, 0, |es| - i, Left(es, i, done)
  {
    if i == |es| then Expansion([], next)
    else if done >= Copies(es[i]) then ExpandFrom(cat, es, i + 1, 0, faction, col, row, offset, next, depth, origin)
    else
      var c := col + offset;
      var kind := es[i].kind;
      if c >= cat.gridCols then
        ExpandFrom(cat, es, i, done + 1, faction, col, row, offset, next, depth, origin)
      else if kind in cat.groups then
        var sub := ExpandGroup(cat, kind, faction, c, row, next, depth + 1, origin);
        var rest := ExpandFrom(cat, es, i, done + 1, faction, col, row, offset + 1, sub.next, depth, origin);
        Join(sub, rest, next, col + offset, row, cat, faction, origin)
      else if kind in cat.templates then
        var item := Item(cat, kind, faction, origin, next, c, row);
        var rest := ExpandFrom(cat, es, i, done + 1, faction, col, row, offset + 1, next + 1, depth, origin);
        Join(Expansion([item], next + 1), rest, next, col + offset, row, cat, faction, origin)
      else
        ExpandFrom(cat, es, i, done + 1, faction, col, row, offset, next, depth, origin)
  }

  /** Concatenating two consecutive expansions. */
  function Join(a: Expansion, b: Expansion, next: int, col: int, row: int, cat: Catalog, faction: string, origin: string)
    : (r: Expansion)
    requires Numbered(a, next) && Numbered(b, a.next)
    requires Laid(a, col, row, cat.gridCols) && Laid(b, col + 1, row, cat.gridCols)
    requires Made(a, cat, faction, origin) && Made(b, cat, faction, origin)
    ensures r.items == a.items + b.items && r.next == b.next
    ensures Numbered(r, next) && Laid(r, col, row, cat.gridCols) && Made(r, cat, faction, origin)
  {
    var r := Expansion(a.items + b.items, b.next);
    assert forall k :: |a.items| <= k < |r.items| ==> r.items[k] == b.items[k - |a.items|];
    r
  }

  /** The unit template ids a group without subgroups asks for, from copy
      `done` of entry `i` on, with no regard to the grid: each entry naming
      a unit template contributes its id once per remaining copy, and any
      other entry contributes nothing. */
  function Wanted(cat: Catalog, es: seq<GroupEntry>, i: nat, done: nat): (w: seq<string>)
    ensures forall k :: 0 <= k < |w| ==> w[k] in cat.templates
    decreases |es| - i
  {
    if i >= |es| then []
    else
      var own := if es[i].kind in cat.templates then seq(Left(es, i, done), _ => es[i].kind) else [];
      own + Wanted(cat, es, i + 1, 0)
  }

  /** Free columns from `col` to the right edge of a grid `gridCols` wide. */
  function Room(gridCols: int, col: int): nat
  {
    if col < gridCols then gridCols - col else 0
  }

  /** `items` are the items of the first `Min(|w|, room)` wanted templates,
      the `k`-th with id `next + k` in column `col + k`. */
  predicate Lists(items: seq<Placed>, w: seq<string>, room: nat, cat: Catalog, faction: string, origin: string,
                  next: int, col: int, row: int)
  {
    && |items| == Min(|w|, room)
    && forall k :: 0 <= k < |items| ==>
         w[k] in cat.templates && items[k] == Item(cat, w[k], faction, origin, next + k, col + k, row)
  }

  /** A group whose remaining entries name no subgroup expands to the
      wanted unit templates in order, cut off at the right edge of the
      grid: item `k` is the item of the `k`-th wanted template, with the
      `k`-th id from the counter, `k` columns after the current offset. */
  lemma FlatItems(cat: Catalog, es: seq<GroupEntry>, i: nat, done: nat, faction: string, col: int,
                  row: int, offset: nat, next: int, depth: nat, origin: string)
    requires depth <= 10 && i <= |es|
    requires forall j :: i <= j < |es| ==> es[j].kind !in cat.groups
    ensures Lists(ExpandFrom(cat, es, i, done, faction, col, row, offset, next, depth, origin).items,
                  Wanted(cat, es, i, done), Room(cat.gridCols, col + offset), cat, faction, origin, next, col + offset, row)
  {
    var r := ExpandFrom(cat, es, i, done, faction, col, row, offset, next, depth, origin);
    FlatCount(cat, es, i, done, faction, col, row, offset, next, depth, origin);
    forall k | 0 <= k < |r.items|
      ensures var w := Wanted(cat, es, i, done);
        w[k] in cat.templates && r.items[k] == Item(cat, w[k], faction, origin, next + k, col + offset + k, row)
    {
      FlatAt(cat, es, i, done, faction, col, row, offset, next, depth, origin, k);
    }
  }

  /** How many items a group without subgroups expands to: as many wanted
      templates as there are free columns. */
  lemma {:induction false} FlatCount(cat: Catalog, es: seq<GroupEntry>, i: nat, done: nat, faction: string, col: int,
                                     row: int, offset: nat, next: int, depth: nat, origin: string)
    requires depth <= 10 && i <= |es|
    requires forall j :: i <= j < |es| ==> es[j].kind !in cat.groups
    ensures |ExpandFrom(cat, es, i, done, faction, col, row, offset, next, depth, origin).items|
      == Min(|Wanted(cat, es, i, done)|, Room(cat.gridCols, col + offset))
    decreases |es| - i, Left(es, i, done)
  {
    if i < |es| {
      var kind := es[i].kind;
      if done >= Copies(es[i]) {
        FlatCount(cat, es, i + 1, 0, faction, col, row, offset, next, depth, origin);
        assert Wanted(cat, es, i, done) == Wanted(cat, es, i + 1, 0);
      } else if col + offset >= cat.gridCols {
        FlatCount(cat, es, i, done + 1, faction, col, row, offset, next, depth, origin);
      } else if kind !in cat.templates {
        FlatCount(cat, es, i, done + 1, faction, col, row, offset, next, depth, origin);
        assert Wanted(cat, es, i, done) == Wanted(cat, es, i, done + 1);
      } else {
        FlatCount(cat, es, i, done + 1, faction, col, row, offset + 1, next + 1, depth, origin);
        WantedStep(cat, es, i, done);
        ExpandOne(cat, es, i, done, faction, col, row, offset, next, depth, origin);
      }
    }
  }

  /** Item `k` of the expansion of a group without subgroups is the item
      of the `k`-th wanted template. */
  lemma {:induction false} FlatAt(cat: Catalog, es: seq<GroupEntry>, i: nat, done: nat, faction: string, col: int,
                                  row: int, offset: nat, next: int, depth: nat, origin: string, k: nat)
    requires depth <= 10 && i <= |es|
    requires forall j :: i <= j < |es| ==> es[j].kind !in cat.groups
    requires k < |ExpandFrom(cat, es, i, done, faction, col, row, offset, next, depth, origin).items|
    ensures var w := Wanted(cat, es, i, done);
      && k < |w| && w[k] in cat.templates
      && ExpandFrom(cat, es, i, done, faction, col, row, offset, next, depth, origin).items[k]
         == Item(cat, w[k], faction, origin, next + k, col + offset + k, row)
    decreases |es| - i, Left(es, i, done), 1
  {
    var kind := es[i].kind;
    if done >= Copies(es[i]) {
      FlatAt(cat, es, i + 1, 0, faction, col, row, offset, next, depth, origin, k);
      assert Wanted(cat, es, i, done) == Wanted(cat, es, i + 1, 0);
    } else if col + offset < cat.gridCols && kind in cat.templates {
      FlatAtMade(cat, es, i, done, faction, col, row, offset, next, depth, origin, k);
    } else {
      // Off the grid, or naming nothing known: the copy is skipped.
      FlatAt(cat, es, i, done + 1, faction, col, row, offset, next, depth, origin, k);
      if kind !in cat.templates {
        assert Wanted(cat, es, i, done) == Wanted(cat, es, i, done + 1);
      }
    }
  }

  /** `FlatAt` for a copy of a unit template that fits on the grid: item 0
      is that copy's item, and the rest follow from the next copy on. */
  lemma {:induction false} FlatAtMade(cat: Catalog, es: seq<GroupEntry>, i: nat, done: nat, faction: string, col: int,
                                      row: int, offset: nat, next: int, depth: nat, origin: string, k: nat)
    requires depth <= 10 && i < |es| && done < Copies(es[i])
    requires col + offset < cat.gridCols && es[i].kind in cat.templates
    requires forall j :: i <= j < |es| ==> es[j].kind !in cat.groups
    requires k < |ExpandFrom(cat, es, i, done, faction, col, row, offset, next, depth, origin).items|
    ensures var w := Wanted(cat, es, i, done);
      && k < |w| && w[k] in cat.templates
      && ExpandFrom(cat, es, i, done, faction, col, row, offset, next, depth, origin).items[k]
         == Item(cat, w[k], faction, origin, next + k, col + offset + k, row)
    decreases |es| - i, Left(es, i, done), 0
  {
    WantedStep(cat, es, i, done);
    ExpandOne(cat, es, i, done, faction, col, row, offset, next, depth, origin);
    var items := ExpandFrom(cat, es, i, done, faction, col, row, offset, next, depth, origin).items;
    var rest := ExpandFrom(cat, es, i, done + 1, faction, col, row, offset + 1, next + 1, depth, origin).items;
    var w, w' := Wanted(cat, es, i, done), Wanted(cat, es, i, done + 1);
    if k > 0 {
      FlatAt(cat, es, i, done + 1, faction, col, row, offset + 1, next + 1, depth, origin, k - 1);
      assert items[k] == rest[k - 1] && w[k] == w'[k - 1];
      assert next + 1 + (k - 1) == next + k && col + (offset + 1) + (k - 1) == col + offset + k;
    } else {
      assert items[0] == Item(cat, es[i].kind, faction, origin, next, col + offset, row) && w[0] == es[i].kind;
      assert next + k == next && col + offset + k == col + offset;
    }
  }

  /** Wanting one more copy of a unit template puts its id in front. */
  lemma WantedStep(cat: Catalog, es: seq<GroupEntry>, i: nat, done: nat)
    requires i < |es| && done < Copies(es[i]) && es[i].kind in cat.templates
    ensures Wanted(cat, es, i, done) == [es[i].kind] + Wanted(cat, es, i, done + 1)
  {
    var kind := es[i].kind;
    assert seq(Left(es, i, done), _ => kind) == [kind] + seq(Left(es, i, done + 1), _ => kind);
  }

  /** A copy of a unit template that fits on the grid makes one item and
      moves the offset and the counter on by one. */
  lemma ExpandOne(cat: Catalog, es: seq<GroupEntry>, i: nat, done: nat, faction: string, col: int,
                  row: int, offset: nat, next: int, depth: nat, origin: string)
    requires depth <= 10 && i < |es| && done < Copies(es[i]) && col + offset < cat.gridCols
    requires es[i].kind !in cat.groups && es[i].kind in cat.templates
    ensures ExpandFrom(cat, es, i, done, faction, col, row, offset, next, depth, origin).items
      == [Item(cat, es[i].kind, faction, origin, next, col + offset, row)]
         + ExpandFrom(cat, es, i, done + 1, faction, col, row, offset + 1, next + 1, depth, origin).items
  {
  }

  /** `expandGroup` on a known group without subgroups, within the depth
      limit: its items are the items of the unit templates its entries ask
      for, copy by copy in entry order, numbered from the counter and laid
      out from the start column, as many as fit in the grid. */
  lemma FlatGroup(cat: Catalog, gid: string, faction: string, col: int, row: int, next: int, depth: nat, top: string)
    requires depth <= 10 && gid in cat.groups
    requires forall e :: e in cat.groups[gid].units ==> e.kind !in cat.groups
    ensures Lists(ExpandGroup(cat, gid, faction, col, row, next, depth, top).items,
                  Wanted(cat, cat.groups[gid].units, 0, 0), Room(cat.gridCols, col),
                  cat, faction, if top != "" then top else gid, next, col, row)
  {
    var es := cat.groups[gid].units;
    forall j | 0 <= j < |es| ensures es[j].kind !in cat.groups {
      assert es[j] in es;
    }
    FlatItems(cat, es, 0, 0, faction, col, row, 0, next, depth, if top != "" then top else gid);
  }

  /** A deployment-pool entry (js/main.js, the pool built at set-up): the
      unit's pre-assigned id and template, and the passenger's template for
      a transport placeholder ("" for none). */
  datatype PoolEntry = PoolEntry(id: int, typeId: string, passengerTypeId: string)

  /** The pool entry recorded for an expansion item. */
  function PoolEntryOf(p: Placed): (e: PoolEntry)
    ensures e.id == IdOf(p)
    ensures p.Placeholder? ==> e.typeId == p.templateId && e.passengerTypeId == p.passengerTypeId
    ensures p.Built? ==> e.typeId == p.unit.templateId && e.passengerTypeId == ""
  {
    match p
    case Built(u, _) => PoolEntry(u.id, u.templateId, "")
    case Placeholder(id, tid, _, _, _, _, pid, _, _, _) => PoolEntry(id, tid, pid)
  }

  /** The roster and the id counter after a placement click. */
  datatype Deployed = Deployed(roster: seq<Unit>, next: int)

  /** Placing a pool entry on a clicked cell during deployment. The click
      must be on the grid and on an empty cell. A plain entry becomes a unit
      with its pre-assigned id. A transport entry becomes the transport, with
      a passenger built off-map at (-1, -1) under a fresh id from the
      counter already aboard; only the transport joins the roster. The
      counter is advanced as soon as the passenger is attempted, so it
      moves on even when the passenger's template is unknown; a failed
      construction places nothing. */
  function Place(rs: seq<Unit>, e: PoolEntry, col: int, row: int, cols: int, rows: int,
                 templates: map<string, Template>, next: int): (r: Deployed)
    ensures r.roster == rs || (|r.roster| == |rs| + 1 && r.roster[..|rs|] == rs)
    ensures r.roster != rs ==>
      var u := r.roster[|rs|];
      && 0 <= col < cols && 0 <= row < rows && !Occupied(rs, col, row)
      && u.id == e.id && u.templateId == e.typeId && At(u, col, row)
      && !u.hasMoved && !u.hasAttacked && u.health == u.maxHealth
      && (e.passengerTypeId == "" <==> u.carried.Empty?)
      && (u.carried.Carrying? ==>
        var p := u.carried.passenger;
        && p.id == next && p.templateId == e.passengerTypeId && At(p, -1, -1) && p.carried.Empty?)
    ensures r.roster != rs <==>
      && 0 <= col < cols && 0 <= row < rows && !Occupied(rs, col, row)
      && e.typeId in templates
      && (e.passengerTypeId != "" ==> e.passengerTypeId in templates)
    ensures r.next == if 0 <= col < cols && 0 <= row < rows && !Occupied(rs, col, row)
                         && e.passengerTypeId != "" && e.typeId in templates
                      then next + 1 else next
  {
    if !(0 <= col < cols && 0 <= row < rows) || Occupied(rs, col, row) then Deployed(rs, next)
    else if e.passengerTypeId != "" then
      match NewUnit(e.typeId, col, row, templates, e.id)
      case Err(_) => Deployed(rs, next)
      case Ok(transport) =>
        match NewUnit(e.passengerTypeId, -1, -1, templates, next)
        case Err(_) => Deployed(rs, next + 1)
        case Ok(passenger) =>
          var placed := rs + [transport.(carried := Carrying(passenger))];
          assert placed[..|rs|] == rs;
          Deployed(placed, next + 1)
    else
      match NewUnit(e.typeId, col, row, templates, e.id)
      case Err(_) => Deployed(rs, next)
      case Ok(u) =>
        var placed := rs + [u];
        assert placed[..|rs|] == rs;
        Deployed(placed, next)
  }

  /** A placement adds exactly the placed unit's id and, for a transport,
      its passenger's; with fresh ids and valid templates the roster stays
      valid and the force's ids stay distinct. */
  lemma PlaceKeeps(rs: seq<Unit>, e: PoolEntry, col: int, row: int, cols: int, rows: int,
                   templates: map<string, Template>, next: int)
    ensures var r := Place(rs, e, col, row, cols, rows, templates, next);
      r.roster != rs ==> forall x ::
        Transport.Count(r.roster, x) == Transport.Count(rs, x) + (if x == e.id then 1 else 0)
          + (if e.passengerTypeId != "" && x == next then 1 else 0)
    ensures var r := Place(rs, e, col, row, cols, rows, templates, next);
      (&& Valid(rs) && Transport.ForceDistinct(rs)
       && Transport.Count(rs, e.id) == 0 && Transport.Count(rs, next) == 0 && e.id != next
       && (forall k :: k in templates ==> ValidTemplate(templates[k])))
      ==> Valid(r.roster) && Transport.ForceDistinct(r.roster)
  {
    var r := Place(rs, e, col, row, cols, rows, templates, next);
    if r.roster != rs {
      var u := r.roster[|rs|];
      assert r.roster == rs + [u];
      forall x ensures Transport.Count(r.roster, x) == Transport.Count(rs, x) + (if x == e.id then 1 else 0)
                         + (if e.passengerTypeId != "" && x == next then 1 else 0) {
        Transport.CountAppend(rs, u, x);
      }
      if Valid(rs) && Transport.ForceDistinct(rs) && Transport.Count(rs, e.id) == 0 && Transport.Count(rs, next) == 0
         && e.id != next && (forall k :: k in templates ==> ValidTemplate(templates[k])) {
        Transport.ForceDistinctUnique(r.roster);
        assert WellFormed(u);
      }
    }
  }

}

=== FILE: movement.dfy ===
/** The all-or-nothing move primitive `performMove` (js/core.js). It walks a
    naive axis-aligned line, every column step before any row step, and
    sums terrain costs along it. */
module Movement {
  import opened Base
  import Terrain
  import opened Units
  import opened Roster

  /** One unit step from `x` towards `t` (`x` itself once there). */
  function StepTowards(x: int, t: int): int
  {
    if t > x then x + 1 else if t < x then x - 1 else x
  }

  /** `k` unit steps from `x` towards `t`. */
  function Advance(x: int, t: int, k: nat): int
  {
    if t >= x then x + k else x - k
  }

  /** Closed form of the walk: the cell reached after `k` steps from
      (c, r) towards (tc, tr), all column steps first. */
  function WalkPosition(c: int, r: int, tc: int, tr: int, k: nat): Cell
  {
    var cs := Abs(tc - c);
    if k <= cs then Cell(Advance(c, tc, k), r)
    else Cell(tc, Advance(r, tr, k - cs))
  }

  lemma WalkPositionShift(c: int, r: int, tc: int, tr: int, k: nat)
    requires k < Dist(c, r, tc, tr)
    ensures c != tc ==> WalkPosition(StepTowards(c, tc), r, tc, tr, k) == WalkPosition(c, r, tc, tr, k + 1)
    ensures c == tc ==> WalkPosition(c, StepTowards(r, tr), tc, tr, k) == WalkPosition(c, r, tc, tr, k + 1)
  {
  }

  /** The cells entered by the source's step loop, in order, excluding the
      starting cell. */
  function WalkCells(c: int, r: int, tc: int, tr: int): (cells: seq<Cell>)
    ensures |cells| == Dist(c, r, tc, tr)
    ensures forall k :: 0 <= k < |cells| ==> cells[k] == WalkPosition(c, r, tc, tr, k + 1)
    decreases Dist(c, r, tc, tr)
  {
    if c != tc || r != tr then
      var nc := if c != tc then StepTowards(c, tc) else c;
      var nr := if c != tc then r else StepTowards(r, tr);
      var rest := WalkCells(nc, nr, tc, tr);
      var cells := [Cell(nc, nr)] + rest;
      assert forall k :: 1 <= k < |cells| ==> cells[k] == WalkPosition(c, r, tc, tr, k + 1) by {
        forall k | 1 <= k < |cells| ensures cells[k] == WalkPosition(c, r, tc, tr, k + 1) {
          assert cells[k] == rest[k - 1];
          WalkPositionShift(c, r, tc, tr, k);
        }
      }
      cells
    else []
  }

  lemma WalkStepAdjacent(c: int, r: int, tc: int, tr: int, k: nat)
    requires k < Dist(c, r, tc, tr)
    ensures Adjacent(WalkPosition(c, r, tc, tr, k), WalkPosition(c, r, tc, tr, k + 1))
  {
  }

  /** The walk ends on the target and every step is to a 4-neighbour. */
  lemma WalkShape(c: int, r: int, tc: int, tr: int)
    ensures var cells := WalkCells(c, r, tc, tr);
      && (|cells| > 0 ==> cells[|cells| - 1] == Cell(tc, tr) && Adjacent(Cell(c, r), cells[0]))
      && (forall k :: 0 < k < |cells| ==> Adjacent(cells[k - 1], cells[k]))
  {
    var cells := WalkCells(c, r, tc, tr);
    if |cells| > 0 {
      WalkStepAdjacent(c, r, tc, tr, 0);
    }
    forall k | 0 < k < |cells| ensures Adjacent(cells[k - 1], cells[k]) {
      WalkStepAdjacent(c, r, tc, tr, k);
    }
  }

  /** All column steps come before any row step: the walk stays on the
      starting row until it reaches the target column, then stays on that
      column. */
  lemma WalkOrder(c: int, r: int, tc: int, tr: int)
    ensures var cells := WalkCells(c, r, tc, tr);
      && (forall k :: 0 <= k < Abs(tc - c) && k < |cells| ==> cells[k].row == r)
      && (forall k :: Abs(tc - c) <= k < |cells| ==> cells[k].col == tc)
  {
  }

  /** Summed terrain cost of a walk; impassable if any cell is. */
  function WalkCost(cells: seq<Cell>): (cost: Terrain.MoveCost)
    ensures cost.Impassable? <==> exists k :: 0 <= k < |cells| && Terrain.CostAt(cells[k].col, cells[k].row).Impassable?
    ensures cost.Passable? ==> cost.points >= |cells|
  {
    if cells == [] then Terrain.Passable(0)
    else
      var rest := WalkCost(cells[1..]);
      assert forall k :: 1 <= k < |cells| ==> cells[k] == cells[1..][k - 1];
      match Terrain.CostAt(cells[0].col, cells[0].row)
      case Impassable => Terrain.Impassable
      case Passable(n) => if rest.Impassable? then Terrain.Impassable else Terrain.Passable(n + rest.points)
  }

  /** The walk can be paid for out of `budget` movement points. */
  predicate Affords(cells: seq<Cell>, budget: nat)
  {
    WalkCost(cells).Passable? && WalkCost(cells).points <= budget
  }

  datatype MoveError = AlreadyMoved | SameCell | ImpassableTerrain | OverBudget | TargetOccupied

  datatype MoveResult = Moved(unit: Unit) | Refused(error: MoveError)

  /** Cost of the direct walk from the unit's cell to the target. */
  function DirectCost(u: Unit, tc: int, tr: int): Terrain.MoveCost
  {
    WalkCost(WalkCells(u.col, u.row, tc, tr))
  }

  /** `performMove`: the checks short-circuit in the source's order; on
      success only position, budget and the moved flag change. */
  function Move(u: Unit, tc: int, tr: int, roster: seq<Unit>): (r: MoveResult)
    ensures u.hasMoved ==> r == Refused(AlreadyMoved)
    ensures !u.hasMoved && tc == u.col && tr == u.row ==> r == Refused(SameCell)
    ensures r.Moved? <==>
      && !u.hasMoved
      && (tc != u.col || tr != u.row)
      && DirectCost(u, tc, tr).Passable?
      && DirectCost(u, tc, tr).points <= u.movementRemaining
      && !Occupied(roster, tc, tr)
    ensures r.Moved? ==>
      var cost := DirectCost(u, tc, tr).points;
      && cost >= Dist(u.col, u.row, tc, tr)
      && r.unit == u.(col := tc, row := tr, movementRemaining := u.movementRemaining - cost, hasMoved := true)
    ensures r.Moved? && WellFormed(u) ==> WellFormed(r.unit)
  {
    if u.hasMoved then Refused(AlreadyMoved)
    else if tc == u.col && tr == u.row then Refused(SameCell)
    else
      var cost := DirectCost(u, tc, tr);
      if cost.Impassable? then Refused(ImpassableTerrain)
      else if cost.points > u.movementRemaining then Refused(OverBudget)
      else if Occupied(roster, tc, tr) then Refused(TargetOccupied)
      else Moved(u.(col := tc, row := tr, movementRemaining := u.movementRemaining - cost.points, hasMoved := true))
  }

  /** A unit that has moved once is refused every further move, wherever it
      tries to go, until its faction's next turn resets it. */
  lemma MoveOnce(u: Unit, tc: int, tr: int, roster: seq<Unit>, tc2: int, tr2: int, roster2: seq<Unit>)
    requires Move(u, tc, tr, roster).Moved?
    ensures Move(Move(u, tc, tr, roster).unit, tc2, tr2, roster2) == Refused(AlreadyMoved)
  {
  }
}

=== FILE: pathfinder.dfy ===
/** The AI's path search `findPathTowards` (js/ai.js): a FIFO relaxation
    over the grid with terrain move costs, bounded by the unit's remaining
    movement, followed by a column-major scan for the reachable cell
    closest to the target and a walk back along the predecessor links. */
module Pathfinder {
  import opened Base
  import Terrain
  import opened Units
  import opened Roster
  import Movement

  /** An entry of the cost map: the source's `Infinity` is `Unreached`. */
  datatype Cost = Finite(n: nat) | Unreached

  /** A queue entry: a cell and the cost with which it was queued. */
  datatype Entry = Entry(cell: Cell, cost: nat)

  /** The four neighbour offsets in the source's order: (col, row + 1),
      (col + 1, row), (col, row - 1), (col - 1, row). */
  const Directions: seq<(int, int)> := [(0, 1), (1, 0), (0, -1), (-1, 0)]

  predicate InGrid(c: Cell, cols: nat, rows: nat)
  {
    0 <= c.col < cols && 0 <= c.row < rows
  }

  /** A column-indexed grid of `cols` columns of `rows` entries. */
  predicate Shaped<T>(g: seq<seq<T>>, cols: nat, rows: nat)
  {
    |g| == cols && forall q :: 0 <= q < cols ==> |g[q]| == rows
  }

  function Fill<T>(cols: nat, rows: nat, v: T): (g: seq<seq<T>>)
    ensures Shaped(g, cols, rows)
    ensures forall q, r :: 0 <= q < cols && 0 <= r < rows ==> g[q][r] == v
  {
    seq(cols, _ => seq(rows, _ => v))
  }

  function Set<T>(g: seq<seq<T>>, c: Cell, v: T): (h: seq<seq<T>>)
    requires 0 <= c.col < |g| && 0 <= c.row < |g[c.col]|
    ensures |h| == |g|
    ensures forall q :: 0 <= q < |g| ==> |h[q]| == |g[q]|
    ensures h[c.col][c.row] == v
    ensures forall q, r :: (0 <= q < |g| && 0 <= r < |g[q]| && (q != c.col || r != c.row) ==> h[q][r] == g[q][r])
  {
    g[c.col := g[c.col][c.row := v]]
  }

  /** A cell the search may step onto: passable terrain, and either free of
      units or the target's own cell. */
  predicate Enterable(rs: seq<Unit>, target: Cell, n: Cell)
  {
    Terrain.CostAt(n.col, n.row).Passable? && (!Occupied(rs, n.col, n.row) || n == target)
  }

  /** Move points spent entering a cell. */
  function EnterCost(n: Cell): nat
  {
    match Terrain.CostAt(n.col, n.row)
    case Passable(k) => k
    case Impassable => 0
  }

  /** `p` is a legal predecessor of `n`: a grid neighbour from which `n` is
      entered, with both costs known and the entry paid for. */
  ghost predicate Link(cost: seq<seq<Cost>>, cols: nat, rows: nat, rs: seq<Unit>, target: Cell, n: Cell, p: Cell)
    requires Shaped(cost, cols, rows) && InGrid(n, cols, rows)
  {
    && InGrid(p, cols, rows) && Adjacent(p, n) && Enterable(rs, target, n)
    && cost[p.col][p.row].Finite? && cost[n.col][n.row].Finite?
    && cost[p.col][p.row].n + EnterCost(n) <= cost[n.col][n.row].n
  }

  /** What the search state keeps: the start costs 0 and has no
      predecessor, no known cost exceeds the budget, and every other cell
      with a known cost has a legal predecessor. */
  ghost predicate Sound(cost: seq<seq<Cost>>, prev: seq<seq<Option<Cell>>>, cols: nat, rows: nat,
                        start: Cell, budget: nat, rs: seq<Unit>, target: Cell)
  {
    && Shaped(cost, cols, rows) && Shaped(prev, cols, rows) && InGrid(start, cols, rows)
    && cost[start.col][start.row] == Finite(0) && prev[start.col][start.row].None?
    && (forall q, r :: 0 <= q < cols && 0 <= r < rows && cost[q][r].Finite? ==> cost[q][r].n <= budget)
    && (forall q, r :: (0 <= q < cols && 0 <= r < rows && cost[q][r].Finite? && Cell(q, r) != start
          ==> prev[q][r].Some?))
    && (forall q, r :: (0 <= q < cols && 0 <= r < rows && prev[q][r].Some?
          ==> Link(cost, cols, rows, rs, target, Cell(q, r), prev[q][r].value)))
  }

  /** Every queued entry is a grid cell whose known cost is at most the
      cost it was queued with, itself within the budget. */
  ghost predicate QueueOk(queue: seq<Entry>, cost: seq<seq<Cost>>, cols: nat, rows: nat, budget: nat)
    requires Shaped(cost, cols, rows)
  {
    forall i :: (0 <= i < |queue| ==>
      && InGrid(queue[i].cell, cols, rows) && queue[i].cost <= budget
      && cost[queue[i].cell.col][queue[i].cell.row].Finite?
      && cost[queue[i].cell.col][queue[i].cell.row].n <= queue[i].cost)
  }

  /** The (cell, cost) pairs within budget that the cost map could still be
      lowered to; each improvement removes at least one, which bounds the
      search. */
  ghost function Slack(cost: seq<seq<Cost>>, cols: nat, rows: nat, budget: nat): set<(int, int, int)>
    requires Shaped(cost, cols, rows)
  {
    set q, r, k | 0 <= q < cols && 0 <= r < rows && 0 <= k <= budget && Above(cost[q][r], k) :: (q, r, k)
  }

  predicate Above(c: Cost, k: int)
  {
    c.Unreached? || c.n > k
  }

  lemma SlackShrinks(cost: seq<seq<Cost>>, cols: nat, rows: nat, budget: nat, n: Cell, k: nat)
    requires Shaped(cost, cols, rows) && InGrid(n, cols, rows) && k <= budget && Above(cost[n.col][n.row], k)
    ensures Shaped(Set(cost, n, Finite(k)), cols, rows)
    ensures Slack(Set(cost, n, Finite(k)), cols, rows, budget) < Slack(cost, cols, rows, budget)
  {
    var cost': seq<seq<Cost>> := Set(cost, n, Finite(k));
    var before := Slack(cost, cols, rows, budget);
    var after := Slack(cost', cols, rows, budget);
    forall x | x in after ensures x in before {
      var (q, r, j) := x;
      if q == n.col && r == n.row {
        assert Above(cost[q][r], j);
      }
    }
    assert (n.col, n.row, k) in before;
    assert (n.col, n.row, k) !in after;
  }

  /** Lowering the cost of `n` to `k`, entered from the queued cell `p`,
      keeps the search state sound. */
  lemma RelaxSound(cost: seq<seq<Cost>>, prev: seq<seq<Option<Cell>>>, cols: nat, rows: nat,
                   start: Cell, budget: nat, rs: seq<Unit>, target: Cell, p: Cell, pc: nat, n: Cell, k: nat)
    requires Sound(cost, prev, cols, rows, start, budget, rs, target)
    requires InGrid(p, cols, rows) && cost[p.col][p.row].Finite? && cost[p.col][p.row].n <= pc
    requires InGrid(n, cols, rows) && Adjacent(p, n) && Enterable(rs, target, n)
    requires k == pc + EnterCost(n) && k <= budget && Above(cost[n.col][n.row], k)
    ensures Sound(Set(cost, n, Finite(k)), Set(prev, n, Some(p)), cols, rows, start, budget, rs, target)
  {
    var cost': seq<seq<Cost>> := Set(cost, n, Finite(k));
    var prev': seq<seq<Option<Cell>>> := Set(prev, n, Some(p));
    assert Terrain.CostAt(n.col, n.row).Passable?;
    assert n != start;
    forall q, r | 0 <= q < cols && 0 <= r < rows && prev'[q][r].Some?
      ensures Link(cost', cols, rows, rs, target, Cell(q, r), prev'[q][r].value)
    {
      if q != n.col || r != n.row {
        assert Link(cost, cols, rows, rs, target, Cell(q, r), prev[q][r].value);
      }
    }
  }

  /** Lowering a cost keeps every queued entry valid. */
  lemma RelaxQueue(queue: seq<Entry>, cost: seq<seq<Cost>>, cols: nat, rows: nat, budget: nat, n: Cell, k: nat)
    requires Shaped(cost, cols, rows) && QueueOk(queue, cost, cols, rows, budget)
    requires InGrid(n, cols, rows) && k <= budget && Above(cost[n.col][n.row], k)
    ensures QueueOk(queue + [Entry(n, k)], Set(cost, n, Finite(k)), cols, rows, budget)
  {
    var cost': seq<seq<Cost>> := Set(cost, n, Finite(k));
    var queue' := queue + [Entry(n, k)];
    forall i | 0 <= i < |queue'|
      ensures cost'[queue'[i].cell.col][queue'[i].cell.row].Finite?
      ensures cost'[queue'[i].cell.col][queue'[i].cell.row].n <= queue'[i].cost
    {
      if i < |queue| {
        assert queue'[i] == queue[i];
      }
    }
  }

  /** The neighbour of `p` in direction `d`. */
  function Neighbour(p: Cell, d: nat): Cell
    requires d < |Directions|
  {
    Cell(p.col + Directions[d].0, p.row + Directions[d].1)
  }

  lemma NeighbourAdjacent(p: Cell, d: nat)
    requires d < |Directions|
    ensures Adjacent(p, Neighbour(p, d))
  {
  }

  /** Every 4-neighbour is the neighbour in one of the four directions. */
  lemma AdjacentIsNeighbour(p: Cell, n: Cell) returns (d: nat)
    requires Adjacent(p, n)
    ensures d < |Directions| && Neighbour(p, d) == n
  {
    if n.col == p.col && n.row == p.row + 1 {
      d := 0;
    } else if n.col == p.col + 1 && n.row == p.row {
      d := 1;
    } else if n.col == p.col && n.row == p.row - 1 {
      d := 2;
    } else {
      d := 3;
    }
  }

  /** Neighbour `n` of a cell known at cost `c` is no dearer than `c` plus
      the cost of entering it, whenever it may be entered within budget. */
  ghost predicate RelaxedTo(cost: seq<seq<Cost>>, cols: nat, rows: nat, budget: nat, rs: seq<Unit>, target: Cell,
                            n: Cell, c: nat)
    requires Shaped(cost, cols, rows)
  {
    InGrid(n, cols, rows) && Enterable(rs, target, n) && c + EnterCost(n) <= budget ==>
      cost[n.col][n.row].Finite? && cost[n.col][n.row].n <= c + EnterCost(n)
  }

  /** A reached cell all of whose neighbours are relaxed from its cost. */
  ghost predicate Settled(cost: seq<seq<Cost>>, cols: nat, rows: nat, budget: nat, rs: seq<Unit>, target: Cell, p: Cell)
    requires Shaped(cost, cols, rows) && InGrid(p, cols, rows)
  {
    cost[p.col][p.row].Finite? ==>
      forall d :: 0 <= d < |Directions| ==> RelaxedTo(cost, cols, rows, budget, rs, target, Neighbour(p, d), cost[p.col][p.row].n)
  }

  /** Every reached cell is settled: no step from it can lower a cost. */
  ghost predicate AllSettled(cost: seq<seq<Cost>>, cols: nat, rows: nat, budget: nat, rs: seq<Unit>, target: Cell)
    requires Shaped(cost, cols, rows)
  {
    forall q, r :: 0 <= q < cols && 0 <= r < rows ==> Settled(cost, cols, rows, budget, rs, target, Cell(q, r))
  }

  /** Every reached cell is settled or still queued with its current cost. */
  ghost predicate Covered(cost: seq<seq<Cost>>, queue: seq<Entry>, cols: nat, rows: nat, budget: nat, rs: seq<Unit>,
                          target: Cell)
    requires Shaped(cost, cols, rows)
  {
    forall q, r :: (0 <= q < cols && 0 <= r < rows && cost[q][r].Finite? ==>
      Settled(cost, cols, rows, budget, rs, target, Cell(q, r)) || Entry(Cell(q, r), cost[q][r].n) in queue)
  }

  /** Costs only went down: every cost known before is still known and no
      higher. */
  ghost predicate Lowered(cost': seq<seq<Cost>>, cost: seq<seq<Cost>>, cols: nat, rows: nat)
  {
    && Shaped(cost', cols, rows) && Shaped(cost, cols, rows)
    && forall q, r :: (0 <= q < cols && 0 <= r < rows && cost[q][r].Finite? ==>
         cost'[q][r].Finite? && cost'[q][r].n <= cost[q][r].n)
  }

  /** Every cost that changed is queued with its new value. */
  ghost predicate ChangesQueued(cost': seq<seq<Cost>>, cost: seq<seq<Cost>>, queue: seq<Entry>, cols: nat, rows: nat)
    requires Shaped(cost', cols, rows) && Shaped(cost, cols, rows)
  {
    forall q, r :: (0 <= q < cols && 0 <= r < rows && cost'[q][r] != cost[q][r] && cost'[q][r].Finite? ==>
      Entry(Cell(q, r), cost'[q][r].n) in queue)
  }

  /** Lowering costs keeps a cell settled as long as its own cost stays. */
  lemma SettledLowered(cost': seq<seq<Cost>>, cost: seq<seq<Cost>>, cols: nat, rows: nat, budget: nat, rs: seq<Unit>,
                       target: Cell, p: Cell)
    requires Lowered(cost', cost, cols, rows) && InGrid(p, cols, rows)
    requires cost'[p.col][p.row] == cost[p.col][p.row]
    requires Settled(cost, cols, rows, budget, rs, target, p)
    ensures Settled(cost', cols, rows, budget, rs, target, p)
  {
    if cost[p.col][p.row].Finite? {
      forall d | 0 <= d < |Directions|
        ensures RelaxedTo(cost', cols, rows, budget, rs, target, Neighbour(p, d), cost[p.col][p.row].n)
      {
        assert RelaxedTo(cost, cols, rows, budget, rs, target, Neighbour(p, d), cost[p.col][p.row].n);
      }
    }
  }

  /** Dequeuing an entry and relaxing its four neighbours keeps every
      reached cell settled or queued. */
  lemma CoveredStep(cost: seq<seq<Cost>>, queue: seq<Entry>, cost': seq<seq<Cost>>, queue': seq<Entry>,
                    cols: nat, rows: nat, budget: nat, rs: seq<Unit>, target: Cell)
    requires Shaped(cost, cols, rows) && Covered(cost, queue, cols, rows, budget, rs, target) && queue != []
    requires InGrid(queue[0].cell, cols, rows)
    requires RelaxedFirst(cost, queue[1..], cost', queue', cols, rows, budget, rs, target, queue[0], |Directions|)
    ensures Covered(cost', queue', cols, rows, budget, rs, target)
  {
    forall q, r | 0 <= q < cols && 0 <= r < rows && cost'[q][r].Finite?
      ensures Settled(cost', cols, rows, budget, rs, target, Cell(q, r)) || Entry(Cell(q, r), cost'[q][r].n) in queue'
    {
      var p := Cell(q, r);
      if cost'[q][r] == cost[q][r] {
        var x := Entry(p, cost[q][r].n);
        if Settled(cost, cols, rows, budget, rs, target, p) {
          SettledLowered(cost', cost, cols, rows, budget, rs, target, p);
        } else if x == queue[0] {
          assert Settled(cost', cols, rows, budget, rs, target, p);
        } else {
          assert x in queue;
          var i :| 0 <= i < |queue| && queue[i] == x;
          assert queue'[i - 1] == x;
        }
      }
    }
  }

  /** Before the loop only the start is reached, and it is queued. */
  lemma InitialCovered(cols: nat, rows: nat, start: Cell, budget: nat, rs: seq<Unit>, target: Cell)
    requires InGrid(start, cols, rows)
    ensures Covered(Set(Fill(cols, rows, Unreached), start, Finite(0)), [Entry(start, 0)], cols, rows, budget, rs, target)
  {
  }

  /** When the queue runs out, every reached cell is settled. */
  lemma CoveredEmpty(cost: seq<seq<Cost>>, cols: nat, rows: nat, budget: nat, rs: seq<Unit>, target: Cell)
    requires Shaped(cost, cols, rows) && Covered(cost, [], cols, rows, budget, rs, target)
    ensures AllSettled(cost, cols, rows, budget, rs, target)
  {
    forall q, r | 0 <= q < cols && 0 <= r < rows ensures Settled(cost, cols, rows, budget, rs, target, Cell(q, r)) {
    }
  }

  /** Stepping from a cell known at cost `c` onto `n` would lower `n`'s
      cost without exceeding the budget. */
  predicate Improves(cost: seq<seq<Cost>>, cols: nat, rows: nat, budget: nat, rs: seq<Unit>, target: Cell, n: Cell, c: nat)
    requires Shaped(cost, cols, rows)
  {
    && InGrid(n, cols, rows) && Enterable(rs, target, n)
    && Above(cost[n.col][n.row], c + EnterCost(n)) && c + EnterCost(n) <= budget
  }

  /** Lowering one cost and queueing it lowers the map, queues the change
      and relaxes that cell. */
  lemma ImproveLowers(cost: seq<seq<Cost>>, queue: seq<Entry>, cols: nat, rows: nat, budget: nat, rs: seq<Unit>,
                      target: Cell, n: Cell, c: nat)
    requires Shaped(cost, cols, rows) && Improves(cost, cols, rows, budget, rs, target, n, c)
    ensures Lowered(Set(cost, n, Finite(c + EnterCost(n))), cost, cols, rows)
    ensures ChangesQueued(Set(cost, n, Finite(c + EnterCost(n))), cost, queue + [Entry(n, c + EnterCost(n))], cols, rows)
    ensures RelaxedTo(Set(cost, n, Finite(c + EnterCost(n))), cols, rows, budget, rs, target, n, c)
    ensures (queue + [Entry(n, c + EnterCost(n))])[..|queue|] == queue
  {
    var k := c + EnterCost(n);
    var cost' := Set(cost, n, Finite(k));
    assert Entry(n, k) == (queue + [Entry(n, k)])[|queue|];
  }

  /** A step that would not improve `n` finds it already relaxed. */
  lemma NoImproveRelaxed(cost: seq<seq<Cost>>, cols: nat, rows: nat, budget: nat, rs: seq<Unit>, target: Cell,
                         n: Cell, c: nat)
    requires Shaped(cost, cols, rows) && !Improves(cost, cols, rows, budget, rs, target, n, c)
    ensures Lowered(cost, cost, cols, rows) && RelaxedTo(cost, cols, rows, budget, rs, target, n, c)
  {
  }

  /** One neighbour of the dequeued entry `e`: when the neighbour is a
      grid cell the unit may enter and the cost through `e` is lower than
      the known one and within the budget, the cost and predecessor are
      updated and the neighbour is queued; otherwise nothing changes. */
  method Relax(cost: seq<seq<Cost>>, prev: seq<seq<Option<Cell>>>, queue: seq<Entry>, e: Entry, n: Cell,
               cols: nat, rows: nat, start: Cell, budget: nat, rs: seq<Unit>, target: Cell)
    returns (cost': seq<seq<Cost>>, prev': seq<seq<Option<Cell>>>, queue': seq<Entry>)
    requires Sound(cost, prev, cols, rows, start, budget, rs, target)
    requires QueueOk(queue, cost, cols, rows, budget)
    requires InGrid(e.cell, cols, rows) && Adjacent(e.cell, n)
    requires cost[e.cell.col][e.cell.row].Finite? && cost[e.cell.col][e.cell.row].n <= e.cost
    ensures Sound(cost', prev', cols, rows, start, budget, rs, target)
    ensures QueueOk(queue', cost', cols, rows, budget)
    ensures cost'[e.cell.col][e.cell.row].Finite? && cost'[e.cell.col][e.cell.row].n <= e.cost
    ensures (cost', prev', queue') == (cost, prev, queue)
      || Slack(cost', cols, rows, budget) < Slack(cost, cols, rows, budget)
    ensures Improves(cost, cols, rows, budget, rs, target, n, e.cost) ==> (
      && cost' == Set(cost, n, Finite(e.cost + EnterCost(n)))
      && prev' == Set(prev, n, Some(e.cell))
      && queue' == queue + [Entry(n, e.cost + EnterCost(n))])
    ensures !Improves(cost, cols, rows, budget, rs, target, n, e.cost) ==> (cost', prev', queue') == (cost, prev, queue)
    ensures Lowered(cost', cost, cols, rows) && ChangesQueued(cost', cost, queue', cols, rows)
    ensures |queue'| >= |queue| && queue'[..|queue|] == queue
    ensures RelaxedTo(cost', cols, rows, budget, rs, target, n, e.cost)
  {
    if Improves(cost, cols, rows, budget, rs, target, n, e.cost) {
      var k := e.cost + EnterCost(n);
      RelaxSound(cost, prev, cols, rows, start, budget, rs, target, e.cell, e.cost, n, k);
      RelaxQueue(queue, cost, cols, rows, budget, n, k);
      SlackShrinks(cost, cols, rows, budget, n, k);
      ImproveLowers(cost, queue, cols, rows, budget, rs, target, n, e.cost);
      cost', prev', queue' := Set(cost, n, Finite(k)), Set(prev, n, Some(e.cell)), queue + [Entry(n, k)];
    } else {
      NoImproveRelaxed(cost, cols, rows, budget, rs, target, n, e.cost);
      cost', prev', queue' := cost, prev, queue;
    }
  }

  /** The state before the loop: only the start is known, at cost 0. */
  lemma InitialSound(cols: nat, rows: nat, start: Cell, budget: nat, rs: seq<Unit>, target: Cell)
    requires InGrid(start, cols, rows)
    ensures Sound(Set(Fill(cols, rows, Unreached), start, Finite(0)), Fill(cols, rows, None),
                  cols, rows, start, budget, rs, target)
  {
  }

  /** After relaxing the first `d` neighbours of `e`: costs only went down,
      every change is queued after the untouched old queue, and those
      neighbours are relaxed from `e`'s cost. */
  ghost predicate RelaxedFirst(cost: seq<seq<Cost>>, queue: seq<Entry>, cost': seq<seq<Cost>>, queue': seq<Entry>,
                               cols: nat, rows: nat, budget: nat, rs: seq<Unit>, target: Cell, e: Entry, d: nat)
  {
    && Lowered(cost', cost, cols, rows) && ChangesQueued(cost', cost, queue', cols, rows)
    && |queue'| >= |queue| && queue'[..|queue|] == queue
    && d <= |Directions|
    && forall j :: 0 <= j < d ==> RelaxedTo(cost', cols, rows, budget, rs, target, Neighbour(e.cell, j), e.cost)
  }

  lemma RelaxedFirstStart(cost: seq<seq<Cost>>, queue: seq<Entry>, cols: nat, rows: nat, budget: nat, rs: seq<Unit>,
                          target: Cell, e: Entry)
    requires Shaped(cost, cols, rows)
    ensures RelaxedFirst(cost, queue, cost, queue, cols, rows, budget, rs, target, e, 0)
  {
  }

  lemma RelaxedFirstStep(cost: seq<seq<Cost>>, queue: seq<Entry>, cost1: seq<seq<Cost>>, queue1: seq<Entry>,
                         cost2: seq<seq<Cost>>, queue2: seq<Entry>,
                         cols: nat, rows: nat, budget: nat, rs: seq<Unit>, target: Cell, e: Entry, d: nat)
    requires RelaxedFirst(cost, queue, cost1, queue1, cols, rows, budget, rs, target, e, d) && d < |Directions|
    requires Lowered(cost2, cost1, cols, rows) && ChangesQueued(cost2, cost1, queue2, cols, rows)
    requires |queue2| >= |queue1| && queue2[..|queue1|] == queue1
    requires RelaxedTo(cost2, cols, rows, budget, rs, target, Neighbour(e.cell, d), e.cost)
    ensures RelaxedFirst(cost, queue, cost2, queue2, cols, rows, budget, rs, target, e, d + 1)
  {
    assert queue2[..|queue|] == queue by {
      assert queue2[..|queue|] == queue2[..|queue1|][..|queue|];
    }
    forall q, r | 0 <= q < cols && 0 <= r < rows && cost2[q][r] != cost[q][r] && cost2[q][r].Finite?
      ensures Entry(Cell(q, r), cost2[q][r].n) in queue2
    {
      if cost2[q][r] == cost1[q][r] {
        var x := Entry(Cell(q, r), cost2[q][r].n);
        var i :| 0 <= i < |queue1| && queue1[i] == x;
        assert queue2[i] == x;
      }
    }
    forall j | 0 <= j < d + 1
      ensures RelaxedTo(cost2, cols, rows, budget, rs, target, Neighbour(e.cell, j), e.cost)
    {
      if j < d {
        assert RelaxedTo(cost1, cols, rows, budget, rs, target, Neighbour(e.cell, j), e.cost);
      }
    }
  }

  /** What holds after relaxing the first `d` neighbours of `e`, starting
      from `cost`, `prev` and `queue`. */
  ghost predicate RelaxLoop(cost: seq<seq<Cost>>, queue: seq<Entry>,
                            cost': seq<seq<Cost>>, prev': seq<seq<Option<Cell>>>, queue': seq<Entry>,
                            cols: nat, rows: nat, start: Cell, budget: nat, rs: seq<Unit>, target: Cell, e: Entry, d: nat)
  {
    && Shaped(cost, cols, rows)
    && Sound(cost', prev', cols, rows, start, budget, rs, target)
    && QueueOk(queue', cost', cols, rows, budget)
    && InGrid(e.cell, cols, rows)
    && cost'[e.cell.col][e.cell.row].Finite? && cost'[e.cell.col][e.cell.row].n <= e.cost
    && (Slack(cost', cols, rows, budget) < Slack(cost, cols, rows, budget)
        || (Slack(cost', cols, rows, budget) == Slack(cost, cols, rows, budget) && queue' == queue))
    && RelaxedFirst(cost, queue, cost', queue', cols, rows, budget, rs, target, e, d)
  }

  /** Relaxes neighbour `d` of `e`, one turn of the loop in RelaxAll. */
  method RelaxNext(cost: seq<seq<Cost>>, queue: seq<Entry>,
                   cost1: seq<seq<Cost>>, prev1: seq<seq<Option<Cell>>>, queue1: seq<Entry>,
                   cols: nat, rows: nat, start: Cell, budget: nat, rs: seq<Unit>, target: Cell, e: Entry, d: nat)
    returns (cost': seq<seq<Cost>>, prev': seq<seq<Option<Cell>>>, queue': seq<Entry>)
    requires RelaxLoop(cost, queue, cost1, prev1, queue1, cols, rows, start, budget, rs, target, e, d)
    requires d < |Directions|
    ensures RelaxLoop(cost, queue, cost', prev', queue', cols, rows, start, budget, rs, target, e, d + 1)
  {
    NeighbourAdjacent(e.cell, d);
    cost', prev', queue' := Relax(cost1, prev1, queue1, e, Neighbour(e.cell, d), cols, rows, start, budget, rs, target);
    RelaxedFirstStep(cost, queue, cost1, queue1, cost', queue', cols, rows, budget, rs, target, e, d);
    SlackStep(cost, cost1, cost', queue, queue1, queue', cols, rows, budget);
  }

  /** Slack never grows, and stays only while the queue is untouched. */
  lemma SlackStep(cost: seq<seq<Cost>>, cost1: seq<seq<Cost>>, cost2: seq<seq<Cost>>,
                  queue: seq<Entry>, queue1: seq<Entry>, queue2: seq<Entry>, cols: nat, rows: nat, budget: nat)
    requires Shaped(cost, cols, rows) && Shaped(cost1, cols, rows) && Shaped(cost2, cols, rows)
    requires Slack(cost1, cols, rows, budget) < Slack(cost, cols, rows, budget)
      || (Slack(cost1, cols, rows, budget) == Slack(cost, cols, rows, budget) && queue1 == queue)
    requires (cost2 == cost1 && queue2 == queue1) || Slack(cost2, cols, rows, budget) < Slack(cost1, cols, rows, budget)
    ensures Slack(cost2, cols, rows, budget) < Slack(cost, cols, rows, budget)
      || (Slack(cost2, cols, rows, budget) == Slack(cost, cols, rows, budget) && queue2 == queue)
  {
  }

  /** The four neighbours of a dequeued entry, relaxed in the source's
      direction order. */
  method RelaxAll(cost: seq<seq<Cost>>, prev: seq<seq<Option<Cell>>>, queue: seq<Entry>, e: Entry,
                  cols: nat, rows: nat, start: Cell, budget: nat, rs: seq<Unit>, target: Cell)
    returns (cost': seq<seq<Cost>>, prev': seq<seq<Option<Cell>>>, queue': seq<Entry>)
    requires Sound(cost, prev, cols, rows, start, budget, rs, target)
    requires QueueOk(queue, cost, cols, rows, budget)
    requires InGrid(e.cell, cols, rows)
    requires cost[e.cell.col][e.cell.row].Finite? && cost[e.cell.col][e.cell.row].n <= e.cost
    ensures Sound(cost', prev', cols, rows, start, budget, rs, target)
    ensures QueueOk(queue', cost', cols, rows, budget)
    ensures Slack(cost', cols, rows, budget) < Slack(cost, cols, rows, budget)
      || (Slack(cost', cols, rows, budget) == Slack(cost, cols, rows, budget) && queue' == queue)
    ensures RelaxedFirst(cost, queue, cost', queue', cols, rows, budget, rs, target, e, |Directions|)
  {
    cost', prev', queue' := cost, prev, queue;
    RelaxedFirstStart(cost, queue, cols, rows, budget, rs, target, e);
    var d := 0;
    while d < |Directions|
      invariant d <= |Directions|
      invariant RelaxLoop(cost, queue, cost', prev', queue', cols, rows, start, budget, rs, target, e, d)
    {
      cost', prev', queue' := RelaxNext(cost, queue, cost', prev', queue', cols, rows, start, budget, rs, target, e, d);
      d := d + 1;
    }
  }

  lemma QueueTail(queue: seq<Entry>, cost: seq<seq<Cost>>, cols: nat, rows: nat, budget: nat)
    requires Shaped(cost, cols, rows) && QueueOk(queue, cost, cols, rows, budget) && queue != []
    ensures QueueOk(queue[1..], cost, cols, rows, budget)
    ensures InGrid(queue[0].cell, cols, rows)
    ensures cost[queue[0].cell.col][queue[0].cell.row].Finite?
    ensures cost[queue[0].cell.col][queue[0].cell.row].n <= queue[0].cost
  {
    forall i | 0 <= i < |queue| - 1 ensures queue[1..][i] == queue[i + 1] {
    }
  }

  /** What the relaxation loop keeps: a sound state, a well-formed queue,
      and every reached cell settled or still queued. */
  ghost predicate Searching(cost: seq<seq<Cost>>, prev: seq<seq<Option<Cell>>>, queue: seq<Entry>,
                            cols: nat, rows: nat, start: Cell, budget: nat, rs: seq<Unit>, target: Cell)
  {
    && Sound(cost, prev, cols, rows, start, budget, rs, target)
    && QueueOk(queue, cost, cols, rows, budget)
    && Covered(cost, queue, cols, rows, budget, rs, target)
  }

  /** Dequeues the head entry and relaxes its neighbours, one turn of the
      loop in Explore. */
  method ExploreNext(cost: seq<seq<Cost>>, prev: seq<seq<Option<Cell>>>, queue: seq<Entry>,
                     cols: nat, rows: nat, start: Cell, budget: nat, rs: seq<Unit>, target: Cell)
    returns (cost': seq<seq<Cost>>, prev': seq<seq<Option<Cell>>>, queue': seq<Entry>)
    requires Searching(cost, prev, queue, cols, rows, start, budget, rs, target) && queue != []
    ensures Searching(cost', prev', queue', cols, rows, start, budget, rs, target)
    ensures Slack(cost', cols, rows, budget) < Slack(cost, cols, rows, budget)
      || (Slack(cost', cols, rows, budget) == Slack(cost, cols, rows, budget) && |queue'| < |queue|)
  {
    var e := queue[0];
    QueueTail(queue, cost, cols, rows, budget);
    cost', prev', queue' := RelaxAll(cost, prev, queue[1..], e, cols, rows, start, budget, rs, target);
    CoveredStep(cost, queue, cost', queue', cols, rows, budget, rs, target);
  }

  /** The relaxation loop, run until the queue is empty: the final cost map
      and predecessor links form a sound search state, and no step from a
      reached cell can lower any cost. */
  method Explore(start: Cell, target: Cell, budget: nat, rs: seq<Unit>, cols: nat, rows: nat)
    returns (cost: seq<seq<Cost>>, prev: seq<seq<Option<Cell>>>)
    requires InGrid(start, cols, rows)
    ensures Sound(cost, prev, cols, rows, start, budget, rs, target)
    ensures AllSettled(cost, cols, rows, budget, rs, target)
  {
    cost := Set(Fill(cols, rows, Unreached), start, Finite(0));
    prev := Fill(cols, rows, None);
    InitialSound(cols, rows, start, budget, rs, target);
    var queue := [Entry(start, 0)];
    InitialCovered(cols, rows, start, budget, rs, target);
    while queue != []
      invariant Searching(cost, prev, queue, cols, rows, start, budget, rs, target)
      decreases Slack(cost, cols, rows, budget), |queue|
    {
      cost, prev, queue := ExploreNext(cost, prev, queue, cols, rows, start, budget, rs, target);
    }
    CoveredEmpty(cost, cols, rows, budget, rs, target);
  }

  /** A cell whose cost map entry is within the budget. */
  predicate Reached(cost: seq<seq<Cost>>, c: Cell, budget: nat)
    requires 0 <= c.col < |cost| && 0 <= c.row < |cost[c.col]|
  {
    cost[c.col][c.row].Finite? && cost[c.col][c.row].n <= budget
  }

  /** Column-major order of the scan: `a` is visited before `b`. */
  predicate Before(a: Cell, b: Cell)
  {
    a.col < b.col || (a.col == b.col && a.row < b.row)
  }

  function DistTo(target: Cell, c: Cell): nat
  {
    Dist(target.col, target.row, c.col, c.row)
  }

  /** The scan state after visiting every grid cell before `upto`: the best
      cell so far is strictly closer than the start and first among the
      closest, and `minDist` is the distance to beat. */
  ghost predicate ScanInv(cost: seq<seq<Cost>>, cols: nat, rows: nat, start: Cell, target: Cell, budget: nat,
                          best: Cell, found: bool, minDist: nat, upto: Cell)
    requires Shaped(cost, cols, rows)
  {
    && (found ==> (InGrid(best, cols, rows) && Reached(cost, best, budget) && Before(best, upto)
         && minDist == DistTo(target, best) < DistTo(target, start)))
    && (!found ==> best == target && minDist == DistTo(target, start))
    && forall q, r :: (0 <= q < cols && 0 <= r < rows && Before(Cell(q, r), upto) && Reached(cost, Cell(q, r), budget)
         ==> (minDist <= DistTo(target, Cell(q, r))
           && (found && Before(Cell(q, r), best) ==> minDist < DistTo(target, Cell(q, r)))))
  }

  /** One cell of the scan: a reached cell strictly closer than the best so
      far becomes the best. */
  method Consider(cost: seq<seq<Cost>>, cols: nat, rows: nat, start: Cell, target: Cell, budget: nat,
                  best: Cell, found: bool, minDist: nat, c: Cell)
    returns (best': Cell, found': bool, minDist': nat)
    requires Shaped(cost, cols, rows) && InGrid(c, cols, rows)
    requires ScanInv(cost, cols, rows, start, target, budget, best, found, minDist, c)
    ensures ScanInv(cost, cols, rows, start, target, budget, best', found', minDist', Cell(c.col, c.row + 1))
  {
    best', found', minDist' := best, found, minDist;
    if Reached(cost, c, budget) {
      var dist := DistTo(target, c);
      if dist < minDist {
        best', found', minDist' := c, true, dist;
      }
    }
    forall q, r | (0 <= q < cols && 0 <= r < rows && Before(Cell(q, r), Cell(c.col, c.row + 1))
      && Reached(cost, Cell(q, r), budget))
      ensures minDist' <= DistTo(target, Cell(q, r))
      ensures found' && Before(Cell(q, r), best') ==> minDist' < DistTo(target, Cell(q, r))
    {
      if Cell(q, r) != c {
        assert Before(Cell(q, r), c);
      }
    }
  }

  /** Moving from the end of column `q` to the start of column `q + 1`
      changes no visited cell. */
  lemma ScanNextColumn(cost: seq<seq<Cost>>, cols: nat, rows: nat, start: Cell, target: Cell, budget: nat,
                       best: Cell, found: bool, minDist: nat, q: int)
    requires Shaped(cost, cols, rows)
    requires ScanInv(cost, cols, rows, start, target, budget, best, found, minDist, Cell(q, rows))
    ensures ScanInv(cost, cols, rows, start, target, budget, best, found, minDist, Cell(q + 1, 0))
  {
    forall q', r' | 0 <= q' < cols && 0 <= r' < rows && Before(Cell(q', r'), Cell(q + 1, 0))
      ensures Before(Cell(q', r'), Cell(q, rows))
    {
    }
  }

  /** The inner loop of the scan: every row of column `q`. */
  method ScanColumn(cost: seq<seq<Cost>>, cols: nat, rows: nat, start: Cell, target: Cell, budget: nat,
                    best: Cell, found: bool, minDist: nat, q: nat)
    returns (best': Cell, found': bool, minDist': nat)
    requires Shaped(cost, cols, rows) && q < cols
    requires ScanInv(cost, cols, rows, start, target, budget, best, found, minDist, Cell(q, 0))
    ensures ScanInv(cost, cols, rows, start, target, budget, best', found', minDist', Cell(q + 1, 0))
  {
    best', found', minDist' := best, found, minDist;
    var r := 0;
    while r < rows
      invariant 0 <= r <= rows
      invariant ScanInv(cost, cols, rows, start, target, budget, best', found', minDist', Cell(q, r))
    {
      best', found', minDist' := Consider(cost, cols, rows, start, target, budget, best', found', minDist', Cell(q, r));
      r := r + 1;
    }
    ScanNextColumn(cost, cols, rows, start, target, budget, best', found', minDist', q);
  }

  /** The scan for the reachable cell closest to the target. Only cells
      strictly closer than the start count; among equally close cells the
      first in column-major order wins. When none is found the target
      itself is kept. */
  method Closest(cost: seq<seq<Cost>>, cols: nat, rows: nat, start: Cell, target: Cell, budget: nat)
    returns (best: Cell, found: bool)
    requires Shaped(cost, cols, rows)
    ensures found ==> InGrid(best, cols, rows) && Reached(cost, best, budget) && DistTo(target, best) < DistTo(target, start)
    ensures found ==> forall q, r :: (0 <= q < cols && 0 <= r < rows && Reached(cost, Cell(q, r), budget)
      ==> (DistTo(target, best) <= DistTo(target, Cell(q, r))
        && (Before(Cell(q, r), best) ==> DistTo(target, best) < DistTo(target, Cell(q, r)))))
    ensures !found ==> best == target && forall q, r :: (0 <= q < cols && 0 <= r < rows && Reached(cost, Cell(q, r), budget)
      ==> DistTo(target, start) <= DistTo(target, Cell(q, r)))
  {
    best := target;
    var minDist := DistTo(target, start);
    found := false;
    var q := 0;
    while q < cols
      invariant 0 <= q <= cols
      invariant ScanInv(cost, cols, rows, start, target, budget, best, found, minDist, Cell(q, 0))
    {
      best, found, minDist := ScanColumn(cost, cols, rows, start, target, budget, best, found, minDist, q);
      q := q + 1;
    }
    ScanDone(cost, cols, rows, start, target, budget, best, found, minDist);
  }

  /** After the last column every grid cell has been visited. */
  lemma ScanDone(cost: seq<seq<Cost>>, cols: nat, rows: nat, start: Cell, target: Cell, budget: nat,
                 best: Cell, found: bool, minDist: nat)
    requires Shaped(cost, cols, rows)
    requires ScanInv(cost, cols, rows, start, target, budget, best, found, minDist, Cell(cols, 0))
    ensures found ==> InGrid(best, cols, rows) && Reached(cost, best, budget) && DistTo(target, best) < DistTo(target, start)
    ensures found ==> forall q, r :: (0 <= q < cols && 0 <= r < rows && Reached(cost, Cell(q, r), budget)
      ==> (DistTo(target, best) <= DistTo(target, Cell(q, r))
        && (Before(Cell(q, r), best) ==> DistTo(target, best) < DistTo(target, Cell(q, r)))))
    ensures !found ==> best == target && forall q, r :: (0 <= q < cols && 0 <= r < rows && Reached(cost, Cell(q, r), budget)
      ==> DistTo(target, start) <= DistTo(target, Cell(q, r)))
  {
    assert forall q', r' :: 0 <= q' < cols && 0 <= r' < rows ==> Before(Cell(q', r'), Cell(cols, 0));
  }

  /** The path enters each cell from its predecessor: it starts next to
      `from` and each step moves to a 4-neighbour. */
  predicate IsWalk(from: Cell, path: seq<Cell>)
  {
    && (|path| > 0 ==> Adjacent(from, path[0]))
    && (forall k :: 0 < k < |path| ==> Adjacent(path[k - 1], path[k]))
  }

  lemma WalkCostCons(c: Cell, path: seq<Cell>)
    ensures Movement.WalkCost([c] + path) ==
      match Terrain.CostAt(c.col, c.row)
      case Impassable => Terrain.Impassable
      case Passable(n) => if Movement.WalkCost(path).Impassable? then Terrain.Impassable
                          else Terrain.Passable(n + Movement.WalkCost(path).points)
  {
    assert ([c] + path)[1..] == path;
  }

  /** The state of the walk back: `path` leads from `c` to `best` over
      enterable grid cells, and `c`'s cost plus the path's cost is within
      `best`'s cost. */
  ghost predicate Traced(cost: seq<seq<Cost>>, cols: nat, rows: nat, rs: seq<Unit>, target: Cell,
                         best: Cell, c: Cell, path: seq<Cell>)
    requires Shaped(cost, cols, rows) && InGrid(best, cols, rows)
  {
    && InGrid(c, cols, rows) && cost[c.col][c.row].Finite? && cost[best.col][best.row].Finite?
    && (path == [] <==> c == best)
    && (path != [] ==> Adjacent(c, path[0]) && path[|path| - 1] == best)
    && (forall k :: 0 < k < |path| ==> Adjacent(path[k - 1], path[k]))
    && (forall k :: 0 <= k < |path| ==> InGrid(path[k], cols, rows) && Enterable(rs, target, path[k]))
    && Movement.WalkCost(path).Passable?
    && cost[c.col][c.row].n + Movement.WalkCost(path).points <= cost[best.col][best.row].n
  }

  /** One step back along a predecessor link keeps the walk and lowers the
      known cost. Every cell but the start has a predecessor. */
  lemma TraceStep(cost: seq<seq<Cost>>, prev: seq<seq<Option<Cell>>>, cols: nat, rows: nat,
                  start: Cell, budget: nat, rs: seq<Unit>, target: Cell, best: Cell, c: Cell, path: seq<Cell>)
    requires Sound(cost, prev, cols, rows, start, budget, rs, target) && InGrid(best, cols, rows)
    requires Traced(cost, cols, rows, rs, target, best, c, path) && c != start
    ensures prev[c.col][c.row].Some?
    ensures var p := prev[c.col][c.row].value;
      && Traced(cost, cols, rows, rs, target, best, p, [c] + path)
      && cost[p.col][p.row].n < cost[c.col][c.row].n
  {
    var p := prev[c.col][c.row].value;
    assert Link(cost, cols, rows, rs, target, c, p);
    WalkCostCons(c, path);
    var path' := [c] + path;
    forall k | 0 < k < |path'| ensures Adjacent(path'[k - 1], path'[k]) {
      if k > 1 {
        assert path'[k - 1] == path[k - 2] && path'[k] == path[k - 1];
      }
    }
  }

  /** Back at the start, the traced cells form the walk `Trace` promises. */
  lemma TraceDone(cost: seq<seq<Cost>>, cols: nat, rows: nat, start: Cell, rs: seq<Unit>, target: Cell,
                  best: Cell, path: seq<Cell>)
    requires Shaped(cost, cols, rows) && InGrid(best, cols, rows)
    requires Traced(cost, cols, rows, rs, target, best, start, path)
    ensures best == start <==> path == []
    ensures path != [] ==> path[|path| - 1] == best
    ensures IsWalk(start, path)
    ensures forall k :: 0 <= k < |path| ==> InGrid(path[k], cols, rows) && Enterable(rs, target, path[k])
    ensures Movement.WalkCost(path).Passable? && Movement.WalkCost(path).points <= cost[best.col][best.row].n
  {
  }

  /** The walk back along the predecessor links from `best` to the start,
      collecting the cells in travel order (the start excluded). */
  method Trace(cost: seq<seq<Cost>>, prev: seq<seq<Option<Cell>>>, cols: nat, rows: nat,
               start: Cell, budget: nat, rs: seq<Unit>, target: Cell, best: Cell)
    returns (path: seq<Cell>)
    requires Sound(cost, prev, cols, rows, start, budget, rs, target)
    requires InGrid(best, cols, rows) && cost[best.col][best.row].Finite?
    ensures best == start <==> path == []
    ensures path != [] ==> path[|path| - 1] == best
    ensures IsWalk(start, path)
    ensures forall k :: 0 <= k < |path| ==> InGrid(path[k], cols, rows) && Enterable(rs, target, path[k])
    ensures Movement.WalkCost(path).Passable? && Movement.WalkCost(path).points <= cost[best.col][best.row].n
  {
    var c := best;
    path := [];
    while c != start
      invariant Traced(cost, cols, rows, rs, target, best, c, path)
      decreases cost[c.col][c.row].n
    {
      TraceStep(cost, prev, cols, rows, start, budget, rs, target, best, c, path);
      path := [c] + path;
      c := prev[c.col][c.row].value;
    }
    TraceDone(cost, cols, rows, start, rs, target, best, path);
  }

  /** Once every reached cell is settled, the cost map is a lower bound
      on walks: a walk over enterable grid cells from a cell reached at
      cost at most `c`, affordable from `c` within the budget, ends on a
      reached cell whose cost is at most `c` plus the walk's cost. */
  lemma {:induction false} WalkReached(cost: seq<seq<Cost>>, cols: nat, rows: nat, budget: nat, rs: seq<Unit>,
                                       target: Cell, p: Cell, c: nat, path: seq<Cell>)
    requires Shaped(cost, cols, rows) && AllSettled(cost, cols, rows, budget, rs, target)
    requires InGrid(p, cols, rows) && cost[p.col][p.row].Finite? && cost[p.col][p.row].n <= c
    requires IsWalk(p, path)
    requires forall k :: 0 <= k < |path| ==> InGrid(path[k], cols, rows) && Enterable(rs, target, path[k])
    requires Movement.WalkCost(path).Passable? && c + Movement.WalkCost(path).points <= budget
    ensures path != [] ==> var last := path[|path| - 1];
      InGrid(last, cols, rows) && cost[last.col][last.row].Finite? && cost[last.col][last.row].n <= c + Movement.WalkCost(path).points
    decreases |path|
  {
    if path != [] {
      var n, rest := path[0], path[1..];
      assert path == [n] + rest;
      WalkCostCons(n, rest);
      var d := AdjacentIsNeighbour(p, n);
      assert Settled(cost, cols, rows, budget, rs, target, p);
      assert RelaxedTo(cost, cols, rows, budget, rs, target, Neighbour(p, d), cost[p.col][p.row].n);
      var c' := c + EnterCost(n);
      assert IsWalk(n, rest) by {
        forall k | 0 < k < |rest| ensures Adjacent(rest[k - 1], rest[k]) {
          assert Adjacent(path[k], path[k + 1]);
        }
        if rest != [] {
          assert Adjacent(path[0], path[1]);
        }
      }
      forall k | 0 <= k < |rest| ensures InGrid(rest[k], cols, rows) && Enterable(rs, target, rest[k]) {
        assert rest[k] == path[k + 1];
      }
      WalkReached(cost, cols, rows, budget, rs, target, n, c', rest);
      if rest != [] {
        assert path[|path| - 1] == rest[|rest| - 1];
      }
    }
  }

  /** The walk FindPath returns is a cheapest one: any walk from the unit's
      cell over enterable grid cells to the same end costs at least as
      much. */
  lemma CheapestWalk(cost: seq<seq<Cost>>, cols: nat, rows: nat, budget: nat, rs: seq<Unit>, target: Cell,
                     start: Cell, path: seq<Cell>, other: seq<Cell>)
    requires Shaped(cost, cols, rows) && AllSettled(cost, cols, rows, budget, rs, target)
    requires InGrid(start, cols, rows) && cost[start.col][start.row] == Finite(0)
    requires path != [] && InGrid(path[|path| - 1], cols, rows)
    requires Movement.WalkCost(path).Passable?
    requires cost[path[|path| - 1].col][path[|path| - 1].row] == Finite(Movement.WalkCost(path).points)
    requires Movement.WalkCost(path).points <= budget
    requires other != [] && other[|other| - 1] == path[|path| - 1] && IsWalk(start, other)
    requires forall k :: 0 <= k < |other| ==> InGrid(other[k], cols, rows) && Enterable(rs, target, other[k])
    requires Movement.WalkCost(other).Passable?
    ensures Movement.WalkCost(path).points <= Movement.WalkCost(other).points
  {
    if Movement.WalkCost(other).points <= budget {
      WalkReached(cost, cols, rows, budget, rs, target, start, 0, other);
    }
  }

  /** The walk back along the predecessor links once the search is
      settled: its cost is exactly the cost map's entry for its end. */
  method CheapestTrace(cost: seq<seq<Cost>>, prev: seq<seq<Option<Cell>>>, cols: nat, rows: nat,
                       start: Cell, budget: nat, rs: seq<Unit>, target: Cell, best: Cell)
    returns (path: seq<Cell>)
    requires Sound(cost, prev, cols, rows, start, budget, rs, target) && AllSettled(cost, cols, rows, budget, rs, target)
    requires InGrid(best, cols, rows) && cost[best.col][best.row].Finite?
    ensures best == start <==> path == []
    ensures path != [] ==> path[|path| - 1] == best
    ensures IsWalk(start, path)
    ensures forall k :: 0 <= k < |path| ==> InGrid(path[k], cols, rows) && Enterable(rs, target, path[k])
    ensures Movement.WalkCost(path).Passable? && Movement.WalkCost(path).points <= cost[best.col][best.row].n
    ensures path != [] ==> cost[best.col][best.row] == Finite(Movement.WalkCost(path).points)
  {
    path := Trace(cost, prev, cols, rows, start, budget, rs, target, best);
    WalkReached(cost, cols, rows, budget, rs, target, start, 0, path);
  }

  /** The cell a walk from `from` ends on: `from` itself for the empty walk. */
  function End(from: Cell, path: seq<Cell>): Cell
  {
    if path == [] then from else path[|path| - 1]
  }

  /** `path` is a walk of the unit from its own cell over enterable grid
      cells, paid for by its remaining movement, ending on `c`. This is
      stated without the search's tables. */
  ghost predicate WalkTo(unit: Unit, target: Cell, rs: seq<Unit>, cols: nat, rows: nat, path: seq<Cell>, c: Cell)
  {
    && IsWalk(Cell(unit.col, unit.row), path)
    && (forall k :: 0 <= k < |path| ==> InGrid(path[k], cols, rows) && Enterable(rs, target, path[k]))
    && Movement.WalkCost(path).Passable? && Movement.WalkCost(path).points <= unit.movementRemaining
    && End(Cell(unit.col, unit.row), path) == c
  }

  /** Some affordable walk of the unit ends on `c`. */
  ghost predicate Reachable(unit: Unit, target: Cell, rs: seq<Unit>, cols: nat, rows: nat, c: Cell)
  {
    exists path :: WalkTo(unit, target, rs, cols, rows, path, c)
  }

  /** What `findPathTowards` promises, in terms of walks alone: the path is
      an affordable walk; it is non-empty exactly when some reachable grid
      cell is strictly closer to the target than the unit; it then ends on
      the closest reachable cell, the first in column-major order among
      ties, and no affordable walk to that cell is cheaper. */
  ghost predicate Towards(unit: Unit, target: Cell, rs: seq<Unit>, cols: nat, rows: nat, path: seq<Cell>)
  {
    var here := Cell(unit.col, unit.row);
    var last := End(here, path);
    && WalkTo(unit, target, rs, cols, rows, path, last)
    && (path != [] <==> exists q, r :: (0 <= q < cols && 0 <= r < rows && Reachable(unit, target, rs, cols, rows, Cell(q, r))
          && DistTo(target, Cell(q, r)) < DistTo(target, here)))
    && (path != [] ==>
          && InGrid(last, cols, rows)
          && forall q, r :: (0 <= q < cols && 0 <= r < rows && Reachable(unit, target, rs, cols, rows, Cell(q, r))
               ==> (DistTo(target, last) <= DistTo(target, Cell(q, r))
                 && (Before(Cell(q, r), last) ==> DistTo(target, last) < DistTo(target, Cell(q, r))))))
    && (path != [] ==>
          forall other :: (WalkTo(unit, target, rs, cols, rows, other, last)
            ==> Movement.WalkCost(path).points <= Movement.WalkCost(other).points))
  }

  /** A non-empty searched path ends strictly closer to the target than the
      unit stands. */
  lemma TowardsCloser(unit: Unit, target: Cell, rs: seq<Unit>, cols: nat, rows: nat, path: seq<Cell>)
    requires Towards(unit, target, rs, cols, rows, path) && path != []
    ensures DistTo(target, path[|path| - 1]) < DistTo(target, Cell(unit.col, unit.row))
  {
    var q, r :| 0 <= q < cols && 0 <= r < rows && Reachable(unit, target, rs, cols, rows, Cell(q, r))
      && DistTo(target, Cell(q, r)) < DistTo(target, Cell(unit.col, unit.row));
  }

  /** A unit that can pay to step onto an enterable neighbouring grid cell
      strictly closer to the target is given a non-empty path, ending at
      least as close to the target as that cell. */
  lemma StepCloser(unit: Unit, target: Cell, rs: seq<Unit>, cols: nat, rows: nat, path: seq<Cell>, n: Cell)
    requires Towards(unit, target, rs, cols, rows, path)
    requires InGrid(n, cols, rows) && Adjacent(Cell(unit.col, unit.row), n) && Enterable(rs, target, n)
    requires Terrain.CostAt(n.col, n.row).points <= unit.movementRemaining
    requires DistTo(target, n) < DistTo(target, Cell(unit.col, unit.row))
    ensures path != [] && DistTo(target, path[|path| - 1]) <= DistTo(target, n)
  {
    assert [n][1..] == [];
    assert IsWalk(Cell(unit.col, unit.row), [n]);
    assert WalkTo(unit, target, rs, cols, rows, [n], n);
  }

  /** Following the predecessor links back from a traced cell reaches the
      start, and yields an affordable walk of the unit to `best`. */
  lemma {:induction false} WalkBack(cost: seq<seq<Cost>>, prev: seq<seq<Option<Cell>>>, cols: nat, rows: nat,
                                    unit: Unit, rs: seq<Unit>, target: Cell, best: Cell, c: Cell, path: seq<Cell>)
    returns (walk: seq<Cell>)
    requires Sound(cost, prev, cols, rows, Cell(unit.col, unit.row), unit.movementRemaining, rs, target)
    requires InGrid(best, cols, rows) && Traced(cost, cols, rows, rs, target, best, c, path)
    ensures WalkTo(unit, target, rs, cols, rows, walk, best)
    decreases cost[c.col][c.row].n
  {
    var start := Cell(unit.col, unit.row);
    if c == start {
      TraceDone(cost, cols, rows, start, rs, target, best, path);
      walk := path;
    } else {
      TraceStep(cost, prev, cols, rows, start, unit.movementRemaining, rs, target, best, c, path);
      walk := WalkBack(cost, prev, cols, rows, unit, rs, target, best, prev[c.col][c.row].value, [c] + path);
    }
  }

  /** Once the search has ended, the cells it records within the budget
      are exactly the cells some affordable walk of the unit ends on. */
  lemma ReachedIffReachable(cost: seq<seq<Cost>>, prev: seq<seq<Option<Cell>>>, cols: nat, rows: nat,
                            unit: Unit, rs: seq<Unit>, target: Cell, c: Cell)
    requires Sound(cost, prev, cols, rows, Cell(unit.col, unit.row), unit.movementRemaining, rs, target)
    requires AllSettled(cost, cols, rows, unit.movementRemaining, rs, target)
    requires InGrid(c, cols, rows)
    ensures Reached(cost, c, unit.movementRemaining) <==> Reachable(unit, target, rs, cols, rows, c)
  {
    var start := Cell(unit.col, unit.row);
    if Reached(cost, c, unit.movementRemaining) {
      var walk := WalkBack(cost, prev, cols, rows, unit, rs, target, c, c, []);
    }
    if Reachable(unit, target, rs, cols, rows, c) {
      var walk :| WalkTo(unit, target, rs, cols, rows, walk, c);
      WalkReached(cost, cols, rows, unit.movementRemaining, rs, target, start, 0, walk);
    }
  }

  /** `findPathTowards`: the path (start excluded) to the reachable cell
      closest to the target, with the cost map. The path is empty exactly
      when no reachable cell is strictly closer to the target than the
      unit; otherwise it is a walk of 4-neighbour steps over enterable
      cells, affordable from the unit's remaining movement, ending on the
      closest reachable cell, first in column-major order among ties. */
  method FindPath(unit: Unit, target: Cell, rs: seq<Unit>, cols: nat, rows: nat)
    returns (path: seq<Cell>, cost: seq<seq<Cost>>)
    requires InGrid(Cell(unit.col, unit.row), cols, rows) && InGrid(target, cols, rows)
    ensures Shaped(cost, cols, rows)
    ensures cost[unit.col][unit.row] == Finite(0)
    ensures forall q, r :: 0 <= q < cols && 0 <= r < rows && cost[q][r].Finite? ==> cost[q][r].n <= unit.movementRemaining
    ensures path != [] <==> exists q, r :: (0 <= q < cols && 0 <= r < rows && Reached(cost, Cell(q, r), unit.movementRemaining)
      && DistTo(target, Cell(q, r)) < DistTo(target, Cell(unit.col, unit.row)))
    ensures IsWalk(Cell(unit.col, unit.row), path)
    ensures forall k :: 0 <= k < |path| ==> InGrid(path[k], cols, rows) && Enterable(rs, target, path[k])
    ensures Movement.WalkCost(path).Passable? && Movement.WalkCost(path).points <= unit.movementRemaining
    ensures path != [] ==>
      var last := path[|path| - 1];
      && InGrid(last, cols, rows) && Reached(cost, last, unit.movementRemaining)
      && forall q, r :: (0 <= q < cols && 0 <= r < rows && Reached(cost, Cell(q, r), unit.movementRemaining)
           ==> (DistTo(target, last) <= DistTo(target, Cell(q, r))
             && (Before(Cell(q, r), last) ==> DistTo(target, last) < DistTo(target, Cell(q, r)))))
    ensures AllSettled(cost, cols, rows, unit.movementRemaining, rs, target)
    ensures path != [] ==> cost[path[|path| - 1].col][path[|path| - 1].row] == Finite(Movement.WalkCost(path).points)
    ensures Towards(unit, target, rs, cols, rows, path)
  {
    var start := Cell(unit.col, unit.row);
    var budget := unit.movementRemaining;
    var prev;
    cost, prev := Explore(start, target, budget, rs, cols, rows);
    var best, found := Closest(cost, cols, rows, start, target, budget);
    if !found && !Reached(cost, target, budget) {
      path := [];
    } else {
      path := CheapestTrace(cost, prev, cols, rows, start, budget, rs, target, best);
    }
    forall q, r | 0 <= q < cols && 0 <= r < rows
      ensures Reached(cost, Cell(q, r), budget) <==> Reachable(unit, target, rs, cols, rows, Cell(q, r))
    {
      ReachedIffReachable(cost, prev, cols, rows, unit, rs, target, Cell(q, r));
    }
    if path != [] {
      forall other | WalkTo(unit, target, rs, cols, rows, other, path[|path| - 1])
        ensures Movement.WalkCost(path).points <= Movement.WalkCost(other).points
      {
        CheapestWalk(cost, cols, rows, budget, rs, target, start, path, other);
      }
    }
  }
}

=== FILE: roster.dfy ===
/** The active-unit roster: an ordered sequence of units, looked up by id
    and by cell the way the source's `find`, `findIndex` and `some` do. */
module Roster {
  import opened Base
  import opened Units

  /** No two roster entries share an id. */
  ghost predicate UniqueIds(rs: seq<Unit>)
  {
    forall i, j :: 0 <= i < j < |rs| ==> rs[i].id != rs[j].id
  }

  ghost predicate AllWellFormed(rs: seq<Unit>)
  {
    forall i :: 0 <= i < |rs| ==> WellFormed(rs[i])
  }

  /** The roster invariant kept by every operation. */
  ghost predicate Valid(rs: seq<Unit>)
  {
    UniqueIds(rs) && AllWellFormed(rs)
  }

  predicate HasId(rs: seq<Unit>, id: int)
  {
    exists i :: 0 <= i < |rs| && rs[i].id == id
  }

  /** `findIndex(u => u.id === id)`: the first index holding that id. */
  function IndexOfId(rs: seq<Unit>, id: int): (r: Option<nat>)
    ensures r.None? <==> !HasId(rs, id)
    ensures r.Some? ==> (r.value < |rs| && rs[r.value].id == id
      && forall j :: 0 <= j < r.value ==> rs[j].id != id)
  {
    if rs == [] then None
    else if rs[0].id == id then Some(0)
    else
      var r := IndexOfId(rs[1..], id);
      assert forall j :: 1 <= j < |rs| ==> rs[j] == rs[1..][j - 1];
      if r.None? then None else Some(r.value + 1)
  }

  /** The first index holding an id is the one before which it never occurs. */
  lemma IndexOfIdIs(rs: seq<Unit>, k: nat, id: int)
    requires k < |rs| && rs[k].id == id
    requires forall j :: 0 <= j < k ==> rs[j].id != id
    ensures IndexOfId(rs, id) == Some(k)
  {
    assert HasId(rs, id);
  }

  predicate At(u: Unit, col: int, row: int)
  {
    u.col == col && u.row == row
  }

  /** `some(u => u.col === col && u.row === row)`. */
  predicate Occupied(rs: seq<Unit>, col: int, row: int)
  {
    exists i :: 0 <= i < |rs| && At(rs[i], col, row)
  }

  /** `find(u => u.col === col && u.row === row)`, as an index. */
  function FirstAt(rs: seq<Unit>, col: int, row: int): (r: Option<nat>)
    ensures r.None? <==> !Occupied(rs, col, row)
    ensures r.Some? ==> (r.value < |rs| && At(rs[r.value], col, row)
      && forall j :: 0 <= j < r.value ==> !At(rs[j], col, row))
  {
    if rs == [] then None
    else if At(rs[0], col, row) then Some(0)
    else
      var r := FirstAt(rs[1..], col, row);
      assert forall j :: 1 <= j < |rs| ==> rs[j] == rs[1..][j - 1];
      if r.None? then None else Some(r.value + 1)
  }

  /** `splice(k, 1)`. */
  function RemoveAt(rs: seq<Unit>, k: nat): (r: seq<Unit>)
    requires k < |rs|
    ensures |r| == |rs| - 1
    ensures forall j :: 0 <= j < k ==> r[j] == rs[j]
    ensures forall j :: k <= j < |r| ==> r[j] == rs[j + 1]
  {
    rs[..k] + rs[k + 1..]
  }

  /** Removing the entry with a given id when present, as the source does
      with `findIndex` followed by `splice`. */
  function RemoveById(rs: seq<Unit>, id: int): (r: seq<Unit>)
    ensures !HasId(rs, id) ==> r == rs
    ensures HasId(rs, id) ==> |r| == |rs| - 1
    ensures UniqueIds(rs) ==> !HasId(r, id)
    ensures forall x :: x in r ==> x in rs
    ensures forall i :: 0 <= i < |rs| && rs[i].id != id ==> rs[i] in r
  {
    var k := IndexOfId(rs, id);
    if k.None? then rs
    else
      var r := RemoveAt(rs, k.value);
      assert forall j :: 0 <= j < |r| ==> r[j] == rs[if j < k.value then j else j + 1];
      assert forall i :: 0 <= i < |rs| && i != k.value ==> r[if i < k.value then i else i - 1] == rs[i];
      r
  }

  /** Removing an entry keeps ids unique. */
  lemma RemoveByIdUnique(rs: seq<Unit>, id: int)
    requires UniqueIds(rs)
    ensures UniqueIds(RemoveById(rs, id))
  {
    var r := RemoveById(rs, id);
    var k := IndexOfId(rs, id);
    if k.Some? {
      var m := k.value;
      forall i, j | 0 <= i < j < |r| ensures r[i].id != r[j].id {
        assert r[i] == rs[if i < m then i else i + 1];
        assert r[j] == rs[if j < m then j else j + 1];
      }
    }
  }

  /** Removing entries keeps the roster invariant. */
  lemma RemoveByIdValid(rs: seq<Unit>, id: int)
    requires Valid(rs)
    ensures Valid(RemoveById(rs, id))
  {
    var r := RemoveById(rs, id);
    RemoveByIdUnique(rs, id);
    forall j | 0 <= j < |r| ensures WellFormed(r[j]) {
    }
  }

  /** Replacing entry `k` brings in the new unit and nothing else. */
  lemma UpdateMembers(rs: seq<Unit>, k: nat, v: Unit)
    requires k < |rs|
    ensures forall x :: x in rs[k := v] ==> x in rs || x == v
  {
    forall x | x in rs[k := v] ensures x in rs || x == v {
      var i :| 0 <= i < |rs| && rs[k := v][i] == x;
      if i != k {
        assert x == rs[i];
      }
    }
  }

  /** Replacing an entry by one with the same id keeps ids unique. */
  lemma ReplaceValid(rs: seq<Unit>, k: nat, u: Unit)
    requires Valid(rs) && k < |rs| && u.id == rs[k].id && WellFormed(u)
    ensures Valid(rs[k := u])
  {
  }
}

=== FILE: terrain.dfy ===
/** The terrain catalog and the static default terrain grid (js/core.js). */
module Terrain {

  /** The four terrain kinds of the catalog. */
  datatype Kind = Plain | Forest | Hill | Water

  /** Movement cost of entering a cell: a positive number of points, or the
      source's `Infinity` for impassable ground. */
  datatype MoveCost = Passable(points: nat) | Impassable

  /** One catalog entry. */
  datatype TerrainType = TerrainType(moveCost: MoveCost, coverBonus: real, blocksLineOfSight: bool)

  function Info(k: Kind): (t: TerrainType)
    ensures t.moveCost.Impassable? <==> k == Water
    ensures t.moveCost.Passable? ==> 1 <= t.moveCost.points <= 2
    ensures 0.0 <= t.coverBonus < 1.0
  {
    match k
    case Plain => TerrainType(Passable(1), 0.0, false)
    case Forest => TerrainType(Passable(2), 0.3, true)
    case Hill => TerrainType(Passable(2), 0.1, false)
    case Water => TerrainType(Impassable, 0.0, false)
  }

  /** Dimensions of the default terrain grid: 20 rows of 30 columns. */
  const GridRows: nat := 20
  const GridCols: nat := 30

  predicate InTerrainGrid(col: int, row: int)
  {
    0 <= row < GridRows && 0 <= col < GridCols
  }

  /** The generator of the default grid: forest bands on the top and bottom
      three rows, water on the three outermost columns of each side, hills
      on the anti-diagonals where row + col is a multiple of 11. */
  function DefaultKind(col: nat, row: nat): Kind
  {
    if row < 3 || row > 16 then Forest
    else if col < 3 || col > 26 then Water
    else if (row + col) % 11 == 0 then Hill
    else Plain
  }

  /** Terrain lookup with the plain fallback for every cell outside the
      default grid. */
  function KindAt(col: int, row: int): (k: Kind)
    ensures !InTerrainGrid(col, row) ==> k == Plain
    ensures k == Water <==> InTerrainGrid(col, row) && 3 <= row <= 16 && (col < 3 || col > 26)
    ensures k == Forest <==> InTerrainGrid(col, row) && (row < 3 || row > 16)
  {
    if InTerrainGrid(col, row) then DefaultKind(col, row) else Plain
  }

  function At(col: int, row: int): TerrainType
  {
    Info(KindAt(col, row))
  }

  function CostAt(col: int, row: int): MoveCost
  {
    At(col, row).moveCost
  }

  function CoverAt(col: int, row: int): real
  {
    At(col, row).coverBonus
  }

  /** Every cell outside the terrain grid is plain: cost 1 and no cover. */
  lemma OffGridIsPlain(col: int, row: int)
    requires !InTerrainGrid(col, row)
    ensures CostAt(col, row) == Passable(1) && CoverAt(col, row) == 0.0
  {
  }
}

=== FILE: text.dfy ===
/** String helpers the rules rely on: ASCII lower-casing, substring search and
    the code-unit ordering that JavaScript's default `sort` uses. */
module Text {

  function LowerChar(c: char): (d: char)
    ensures 'A' <= c <= 'Z' ==> d as int == c as int + 32
    ensures !('A' <= c <= 'Z') ==> d == c
  {
    if 'A' <= c <= 'Z' then (c as int + 32) as char else c
  }

  function Lower(s: string): (t: string)
    ensures |t| == |s|
    ensures forall i :: 0 <= i < |s| ==> t[i] == LowerChar(s[i])
  {
    if s == [] then [] else [LowerChar(s[0])] + Lower(s[1..])
  }

  /** `s.includes(sub)`: `sub` occurs at some position of `s`. */
  predicate Contains(s: string, sub: string)
  {
    exists i | 0 <= i <= |s| - |sub| :: OccursAt(s, sub, i)
  }

  predicate OccursAt(s: string, sub: string, i: int)
  {
    0 <= i <= |s| - |sub| && s[i..i + |sub|] == sub
  }

  /** Strict lexicographic order on strings, comparing characters by code:
      a proper prefix sorts first. */
  predicate Less(a: string, b: string)
    decreases |a|
  {
    if a == [] then b != []
    else if b == [] then false
    else if a[0] != b[0] then a[0] < b[0]
    else Less(a[1..], b[1..])
  }

  lemma {:induction false} LessIrreflexive(a: string)
    ensures !Less(a, a)
    decreases |a|
  {
    if a != [] {
      LessIrreflexive(a[1..]);
    }
  }

  lemma {:induction false} LessTransitive(a: string, b: string, c: string)
    requires Less(a, b) && Less(b, c)
    ensures Less(a, c)
    decreases |a|
  {
    if a != [] && a[0] == b[0] && b[0] == c[0] {
      LessTransitive(a[1..], b[1..], c[1..]);
    }
  }

  lemma {:induction false} LessTotal(a: string, b: string)
    requires a != b
    ensures Less(a, b) || Less(b, a)
    decreases |a|
  {
    if a != [] && b != [] && a[0] == b[0] {
      assert a == [a[0]] + a[1..] && b == [b[0]] + b[1..];
      LessTotal(a[1..], b[1..]);
    }
  }
}

=== FILE: transport.dfy ===
/** Embarking and disembarking (js/main.js): an infantry unit next to a
    friendly empty transport boards it and leaves the roster; unloading puts
    the passenger back on the first free neighbouring cell. A unit's id
    travels with it, so the whole force (roster units and the units they
    carry) holds the same ids before and after, each as often. */
module Transport {
  import opened Base
  import opened Units
  import opened Roster

  /** How often id `x` occurs in a unit and everything it carries. */
  function Occurs(u: Unit, x: int): (n: nat)
    ensures u.id == x ==> n >= 1
    ensures u.carried.Empty? ==> n == if u.id == x then 1 else 0
    decreases u
  {
    (if u.id == x then 1 else 0) + (if u.carried.Carrying? then Occurs(u.carried.passenger, x) else 0)
  }

  /** How often id `x` occurs among the first `n` roster entries and their
      passengers. */
  function CountUpTo(rs: seq<Unit>, n: nat, x: int): (c: nat)
    requires n <= |rs|
    ensures n > 0 ==> c >= Occurs(rs[n - 1], x)
  {
    if n == 0 then 0 else CountUpTo(rs, n - 1, x) + Occurs(rs[n - 1], x)
  }

  /** How often id `x` occurs in the whole force: roster units and the units
      they carry. */
  function Count(rs: seq<Unit>, x: int): nat
  {
    CountUpTo(rs, |rs|, x)
  }

  /** Two forces hold the same ids, each as often. */
  ghost predicate SameForce(a: seq<Unit>, b: seq<Unit>)
  {
    forall x :: Count(a, x) == Count(b, x)
  }

  /** No id is used twice anywhere in the force. */
  ghost predicate ForceDistinct(rs: seq<Unit>)
  {
    forall x :: Count(rs, x) <= 1
  }

  /** Rosters that agree on their first `n` entries agree on those counts. */
  lemma {:induction false} CountAgree(a: seq<Unit>, b: seq<Unit>, n: nat, x: int)
    requires n <= |a| && n <= |b|
    requires forall i :: 0 <= i < n ==> a[i] == b[i]
    ensures CountUpTo(a, n, x) == CountUpTo(b, n, x)
    decreases n
  {
    if n > 0 {
      CountAgree(a, b, n - 1, x);
      assert a[n - 1] == b[n - 1];
    }
  }

  /** Appending a unit adds exactly its ids. */
  lemma CountAppend(rs: seq<Unit>, u: Unit, x: int)
    ensures Count(rs + [u], x) == Count(rs, x) + Occurs(u, x)
  {
    CountAgree(rs + [u], rs, |rs|, x);
    assert (rs + [u])[|rs|] == u;
  }

  lemma {:induction false} CountUpdate(rs: seq<Unit>, k: nat, v: Unit, n: nat, x: int)
    requires k < n <= |rs|
    ensures CountUpTo(rs[k := v], n, x) + Occurs(rs[k], x) == CountUpTo(rs, n, x) + Occurs(v, x)
    decreases n
  {
    if n == k + 1 {
      CountAgree(rs[k := v], rs, k, x);
    } else {
      CountUpdate(rs, k, v, n - 1, x);
      assert rs[k := v][n - 1] == rs[n - 1];
    }
  }

  /** Replacing entry `k` swaps its ids for those of the new unit. */
  lemma ForceUpdate(rs: seq<Unit>, k: nat, v: Unit, x: int)
    requires k < |rs|
    ensures Count(rs[k := v], x) + Occurs(rs[k], x) == Count(rs, x) + Occurs(v, x)
  {
    CountUpdate(rs, k, v, |rs|, x);
  }

  lemma {:induction false} CountRemove(rs: seq<Unit>, k: nat, n: nat, x: int)
    requires k < n <= |rs|
    ensures CountUpTo(RemoveAt(rs, k), n - 1, x) + Occurs(rs[k], x) == CountUpTo(rs, n, x)
    decreases n
  {
    if n == k + 1 {
      CountAgree(RemoveAt(rs, k), rs, k, x);
    } else {
      CountRemove(rs, k, n - 1, x);
      assert RemoveAt(rs, k)[n - 2] == rs[n - 1];
    }
  }

  /** Removing entry `k` drops exactly its ids. */
  lemma ForceRemove(rs: seq<Unit>, k: nat, x: int)
    requires k < |rs|
    ensures Count(RemoveAt(rs, k), x) + Occurs(rs[k], x) == Count(rs, x)
  {
    CountRemove(rs, k, |rs|, x);
  }

  /** Later entries only add ids. */
  lemma {:induction false} CountGrows(rs: seq<Unit>, m: nat, n: nat, x: int)
    requires m <= n <= |rs|
    ensures CountUpTo(rs, m, x) <= CountUpTo(rs, n, x)
    decreases n
  {
    if m < n {
      CountGrows(rs, m, n - 1, x);
    }
  }

  /** Two different entries contribute their ids side by side. */
  lemma ForcePair(rs: seq<Unit>, i: nat, j: nat, x: int)
    requires i < j < |rs|
    ensures Occurs(rs[i], x) + Occurs(rs[j], x) <= Count(rs, x)
  {
    CountGrows(rs, i + 1, j, x);
    CountGrows(rs, j + 1, |rs|, x);
  }

  /** Distinct force ids make the roster's own ids distinct. */
  lemma ForceDistinctUnique(rs: seq<Unit>)
    requires ForceDistinct(rs)
    ensures UniqueIds(rs)
  {
    forall i, j | 0 <= i < j < |rs| ensures rs[i].id != rs[j].id {
      ForcePair(rs, i, j, rs[i].id);
    }
  }

  /** The result of loading: the new roster and the new selection. */
  datatype Boarded = Boarded(roster: seq<Unit>, selected: int)

  /** The unit at `t` is a transport of the current faction that the unit at
      `s` may board: an infantry-tagged unit of the current faction, one
      step away, into a capacity unit that carries nothing yet. */
  predicate CanBoard(rs: seq<Unit>, s: nat, t: nat, current: string)
    requires s < |rs| && t < |rs|
  {
    && "infantry" in rs[s].symbol
    && rs[s].faction == current
    && rs[t].faction == current
    && rs[t].capacity
    && rs[t].carried.Empty?
    && Dist(rs[t].col, rs[t].row, rs[s].col, rs[s].row) == 1
  }

  /** The transport at `t` with the unit at `s` aboard, and the unit at
      `s` spliced out of the roster. */
  function Board(rs: seq<Unit>, s: nat, t: nat): (r: seq<Unit>)
    requires s < |rs| && t < |rs| && s != t
    ensures |r| == |rs| - 1
    ensures forall j :: 0 <= j < |r| ==> r[j] == rs[t := rs[t].(carried := Carrying(rs[s]))][if j < s then j else j + 1]
  {
    RemoveAt(rs[t := rs[t].(carried := Carrying(rs[s]))], s)
  }

  /** Boarding keeps every unit but the passenger, swaps the transport for
      its loaded self, and adds nothing else. */
  lemma BoardMembers(rs: seq<Unit>, s: nat, t: nat)
    requires s < |rs| && t < |rs| && s != t
    ensures var r := Board(rs, s, t);
      && (forall i :: 0 <= i < |rs| && i != s && i != t ==> rs[i] in r)
      && rs[t].(carried := Carrying(rs[s])) in r
      && (forall v :: v in r ==> v in rs || v == rs[t].(carried := Carrying(rs[s])))
  {
    var r := Board(rs, s, t);
    var loaded := rs[t].(carried := Carrying(rs[s]));
    forall i | 0 <= i < |rs| && i != s && i != t ensures rs[i] in r {
      assert r[if i < s then i else i - 1] == rs[i];
    }
    assert r[if t < s then t else t - 1] == loaded;
    forall v | v in r ensures v in rs || v == loaded {
      var j :| 0 <= j < |r| && r[j] == v;
      var i := if j < s then j else j + 1;
      if i != t {
        assert v == rs[i];
      }
    }
  }

  /** The load branch of the right-click handler: deployment is over, the
      click is on the grid, the selected unit is found by id, and the first
      unit on the clicked cell is the transport. `None` means nothing is
      loaded: either the handler stops early (during deployment, off the
      grid, or without a selected unit of the current faction) or it goes on
      to attack or move. */
  function Load(rs: seq<Unit>, selected: Option<int>, deploying: bool, current: string, col: int, row: int,
                cols: int, rows: int)
    : (r: Option<Boarded>)
    ensures r.Some? <==>
      && !deploying
      && 0 <= col < cols && 0 <= row < rows
      && selected.Some? && IndexOfId(rs, selected.value).Some?
      && FirstAt(rs, col, row).Some?
      && CanBoard(rs, IndexOfId(rs, selected.value).value, FirstAt(rs, col, row).value, current)
    ensures r.Some? ==>
      var s := IndexOfId(rs, selected.value).value;
      var t := FirstAt(rs, col, row).value;
      && s != t
      && r.value.roster == Board(rs, s, t)
      && r.value.selected == rs[t].id
  {
    if deploying || !(0 <= col < cols && 0 <= row < rows) || selected.None? then None
    else
      match IndexOfId(rs, selected.value)
      case None => None
      case Some(s) =>
        match FirstAt(rs, col, row)
        case None => None
        case Some(t) =>
          if CanBoard(rs, s, t, current) then Some(Boarded(Board(rs, s, t), rs[t].id))
          else None
  }

  /** Boarding loses no unit: the force's ids are unchanged. */
  lemma BoardIds(rs: seq<Unit>, s: nat, t: nat)
    requires s < |rs| && t < |rs| && s != t && rs[t].carried.Empty?
    ensures SameForce(Board(rs, s, t), rs)
  {
    var loaded := rs[t].(carried := Carrying(rs[s]));
    var mid := rs[t := loaded];
    assert mid[s] == rs[s];
    assert Board(rs, s, t) == RemoveAt(mid, s);
    forall x ensures Count(Board(rs, s, t), x) == Count(rs, x) {
      ForceUpdate(rs, t, loaded, x);
      ForceRemove(mid, s, x);
    }
  }

  /** Boarding keeps the roster valid and takes the passenger's id off it. */
  lemma BoardValid(rs: seq<Unit>, s: nat, t: nat)
    requires s < |rs| && t < |rs| && s != t && Valid(rs)
    ensures Valid(Board(rs, s, t))
    ensures !HasId(Board(rs, s, t), rs[s].id) && HasId(Board(rs, s, t), rs[t].id)
  {
    var r := Board(rs, s, t);
    forall i, j | 0 <= i < j < |r| ensures r[i].id != r[j].id {
      assert r[i].id == rs[if i < s then i else i + 1].id;
      assert r[j].id == rs[if j < s then j else j + 1].id;
    }
    forall j | 0 <= j < |r| ensures WellFormed(r[j]) {
      var i := if j < s then j else j + 1;
      assert WellFormed(rs[i]) && WellFormed(rs[s]);
    }
    forall j | 0 <= j < |r| ensures r[j].id != rs[s].id {
      assert r[j].id == rs[if j < s then j else j + 1].id;
    }
    var jt := if t < s then t else t - 1;
    assert r[jt].id == rs[t].id;
  }

  /** Loading keeps the roster valid, takes the passenger's id off the
      roster, and loses no unit: the force's ids are unchanged. */
  lemma LoadKeeps(rs: seq<Unit>, selected: Option<int>, deploying: bool, current: string, col: int, row: int,
                  cols: int, rows: int)
    requires Load(rs, selected, deploying, current, col, row, cols, rows).Some?
    ensures var b := Load(rs, selected, deploying, current, col, row, cols, rows).value;
      && SameForce(b.roster, rs)
      && (ForceDistinct(rs) ==> ForceDistinct(b.roster))
      && (Valid(rs) ==> Valid(b.roster) && !HasId(b.roster, selected.value) && HasId(b.roster, b.selected))
  {
    var s := IndexOfId(rs, selected.value).value;
    var t := FirstAt(rs, col, row).value;
    BoardIds(rs, s, t);
    if Valid(rs) {
      BoardValid(rs, s, t);
    }
  }

  /** The four cells tried for unloading, in order: below, above, right,
      left of the transport. */
  function Spots(u: Unit): (cs: seq<Cell>)
    ensures |cs| == 4
    ensures forall i :: 0 <= i < 4 ==> Adjacent(Cell(u.col, u.row), cs[i])
  {
    [Cell(u.col, u.row + 1), Cell(u.col, u.row - 1), Cell(u.col + 1, u.row), Cell(u.col - 1, u.row)]
  }

  /** A cell a passenger may be put on: inside the grid and empty. */
  predicate Free(rs: seq<Unit>, c: Cell, cols: int, rows: int)
  {
    0 <= c.col < cols && 0 <= c.row < rows && !Occupied(rs, c.col, c.row)
  }

  /** The first free cell of `cs`, as an index. */
  function FirstFree(rs: seq<Unit>, cs: seq<Cell>, cols: int, rows: int): (r: Option<nat>)
    ensures r.None? <==> forall i :: 0 <= i < |cs| ==> !Free(rs, cs[i], cols, rows)
    ensures r.Some? ==>
      && r.value < |cs| && Free(rs, cs[r.value], cols, rows)
      && forall i :: 0 <= i < r.value ==> !Free(rs, cs[i], cols, rows)
  {
    if cs == [] then None
    else if Free(rs, cs[0], cols, rows) then Some(0)
    else
      var r := FirstFree(rs, cs[1..], cols, rows);
      assert forall i :: 1 <= i < |cs| ==> cs[i] == cs[1..][i - 1];
      if r.None? then None else Some(r.value + 1)
  }

  /** The passenger of the unit at `k` put on cell `c` and appended to the
      roster, the unit itself emptied in place. */
  function Disembark(rs: seq<Unit>, k: nat, c: Cell): (r: seq<Unit>)
    requires k < |rs| && rs[k].carried.Carrying?
    ensures |r| == |rs| + 1
    ensures r[..|rs|] == rs[k := rs[k].(carried := Empty)]
    ensures forall j :: 0 <= j < |rs| ==> r[j] == if j == k then rs[k].(carried := Empty) else rs[j]
    ensures r[|rs|] == rs[k].carried.passenger.(col := c.col, row := c.row)
  {
    rs[k := rs[k].(carried := Empty)] + [rs[k].carried.passenger.(col := c.col, row := c.row)]
  }

  /** The unload button: outside deployment, the selected unit is a
      capacity unit carrying a passenger, and some neighbouring cell is
      free. The passenger takes the first such cell and is appended to the
      roster; the transport is emptied. `None` means nothing changes.
      Neither the faction of the transport nor its movement is checked. */
  function Unload(rs: seq<Unit>, selected: Option<int>, deploying: bool, cols: int, rows: int)
    : (r: Option<seq<Unit>>)
    ensures r.Some? <==>
      && !deploying && selected.Some? && IndexOfId(rs, selected.value).Some?
      && rs[IndexOfId(rs, selected.value).value].capacity
      && rs[IndexOfId(rs, selected.value).value].carried.Carrying?
      && exists i :: 0 <= i < 4 && Free(rs, Spots(rs[IndexOfId(rs, selected.value).value])[i], cols, rows)
    ensures r.Some? ==>
      var k := IndexOfId(rs, selected.value).value;
      var spots := Spots(rs[k]);
      var i := FirstFree(rs, spots, cols, rows).value;
      && r.value == Disembark(rs, k, spots[i])
      && Free(rs, spots[i], cols, rows) && Adjacent(Cell(rs[k].col, rs[k].row), spots[i])
      && forall j :: 0 <= j < i ==> !Free(rs, spots[j], cols, rows)
  {
    if deploying || selected.None? then None
    else
      match IndexOfId(rs, selected.value)
      case None => None
      case Some(k) =>
        var u := rs[k];
        if !u.capacity || u.carried.Empty? then None
        else
          match FirstFree(rs, Spots(u), cols, rows)
          case None => None
          case Some(i) => Some(Disembark(rs, k, Spots(u)[i]))
  }

  /** Disembarking loses no unit: the force's ids are unchanged. */
  lemma DisembarkIds(rs: seq<Unit>, k: nat, c: Cell)
    requires k < |rs| && rs[k].carried.Carrying?
    ensures SameForce(Disembark(rs, k, c), rs)
  {
    var r := Disembark(rs, k, c);
    var emptied := rs[k].(carried := Empty);
    assert r == rs[k := emptied] + [r[|rs|]];
    forall x ensures Count(r, x) == Count(rs, x) {
      ForceUpdate(rs, k, emptied, x);
      CountAppend(rs[k := emptied], r[|rs|], x);
    }
  }

  /** With distinct force ids, disembarking keeps the roster valid: the
      passenger's id was nowhere else on the roster. */
  lemma DisembarkValid(rs: seq<Unit>, k: nat, c: Cell)
    requires k < |rs| && rs[k].carried.Carrying?
    requires Valid(rs) && ForceDistinct(rs)
    ensures Valid(Disembark(rs, k, c)) && ForceDistinct(Disembark(rs, k, c))
  {
    var r := Disembark(rs, k, c);
    DisembarkIds(rs, k, c);
    ForceDistinctUnique(r);
    forall j | 0 <= j < |r| ensures WellFormed(r[j]) {
      if j == |rs| {
        assert WellFormed(rs[k].carried.passenger);
      } else {
        assert r[j] == r[..|rs|][j];
        assert WellFormed(rs[j]);
      }
    }
  }

  /** Unloading loses no unit, and with distinct force ids the roster stays
      valid. */
  lemma UnloadKeeps(rs: seq<Unit>, selected: Option<int>, deploying: bool, cols: int, rows: int)
    requires Unload(rs, selected, deploying, cols, rows).Some?
    ensures var r := Unload(rs, selected, deploying, cols, rows).value;
      && SameForce(r, rs)
      && (ForceDistinct(rs) ==> ForceDistinct(r))
      && (Valid(rs) && ForceDistinct(rs) ==> Valid(r))
  {
    var k := IndexOfId(rs, selected.value).value;
    var spots := Spots(rs[k]);
    var i := FirstFree(rs, spots, cols, rows).value;
    DisembarkIds(rs, k, spots[i]);
    if Valid(rs) && ForceDistinct(rs) {
      DisembarkValid(rs, k, spots[i]);
    }
  }

  /** The cell a unit one step away from `u` occupies is one of the four
      tried for unloading. */
  lemma NeighbourIsSpot(u: Unit, c: Cell)
    requires Dist(u.col, u.row, c.col, c.row) == 1
    ensures c in Spots(u)
  {
    var cs := Spots(u);
    if c.col == u.col {
      if c.row == u.row + 1 { assert c == cs[0]; } else { assert c == cs[1]; }
    } else {
      if c.col == u.col + 1 { assert c == cs[2]; } else { assert c == cs[3]; }
    }
  }

  /** After boarding, the transport is found by its id one place earlier
      when the passenger stood before it. */
  lemma BoardedIndex(rs: seq<Unit>, s: nat, t: nat)
    requires s < |rs| && t < |rs| && s != t && UniqueIds(rs)
    ensures IndexOfId(Board(rs, s, t), rs[t].id) == Some(if t < s then t else t - 1)
  {
    var r := Board(rs, s, t);
    var jt := if t < s then t else t - 1;
    var loaded := rs[t].(carried := Carrying(rs[s]));
    forall j | 0 <= j < jt ensures r[j].id != rs[t].id {
      var i := if j < s then j else j + 1;
      assert r[j] == rs[t := loaded][i] == rs[i];
    }
    assert r[jt] == rs[t := loaded][t];
    IndexOfIdIs(r, jt, rs[t].id);
  }

  /** After boarding, the cell the passenger left is free. */
  lemma BoardedVacates(rs: seq<Unit>, s: nat, t: nat)
    requires s < |rs| && t < |rs| && s != t
    requires forall i :: 0 <= i < |rs| && i != s ==> !At(rs[i], rs[s].col, rs[s].row)
    ensures !Occupied(Board(rs, s, t), rs[s].col, rs[s].row)
  {
    var r := Board(rs, s, t);
    forall j | 0 <= j < |r| ensures !At(r[j], rs[s].col, rs[s].row) {
      var i := if j < s then j else j + 1;
      assert r[j].col == rs[i].col && r[j].row == rs[i].row;
    }
  }

  /** Unloading a transport emptied in place at `k` puts back every unit of
      the roster it was boarded from. */
  lemma DisembarkRestores(rs: seq<Unit>, s: nat, t: nat, c: Cell)
    requires s < |rs| && t < |rs| && s != t && rs[t].carried.Empty?
    ensures var r := Board(rs, s, t);
      var jt := if t < s then t else t - 1;
      var u := Disembark(r, jt, c);
      && |u| == |rs|
      && u[|rs| - 1] == rs[s].(col := c.col, row := c.row)
      && forall i :: 0 <= i < |rs| && i != s ==> rs[i] in u
  {
    var r := Board(rs, s, t);
    var jt := if t < s then t else t - 1;
    var loaded := rs[t].(carried := Carrying(rs[s]));
    assert r[jt] == loaded;
    assert loaded.(carried := Empty) == rs[t];
    var u := Disembark(r, jt, c);
    forall i | 0 <= i < |rs| && i != s ensures rs[i] in u {
      var j := if i < s then i else i - 1;
      if i == t {
        assert u[jt] == rs[t];
      } else {
        assert (if j < s then j else j + 1) == i;
        assert r[j] == rs[t := loaded][i];
        assert u[j] == r[j];
      }
    }
  }

  /** Boarding and unloading right away, by roster index: the transport
      stands at `jt` afterwards, and the cell the passenger left is free
      and among the four tried, so unloading succeeds. */
  lemma BoardThenUnload(rs: seq<Unit>, s: nat, t: nat, cols: int, rows: int)
    requires s < |rs| && t < |rs| && s != t && UniqueIds(rs)
    requires rs[t].capacity && rs[t].carried.Empty?
    requires Dist(rs[t].col, rs[t].row, rs[s].col, rs[s].row) == 1
    requires 0 <= rs[s].col < cols && 0 <= rs[s].row < rows
    requires forall i :: 0 <= i < |rs| && i != s ==> !At(rs[i], rs[s].col, rs[s].row)
    ensures var u := Unload(Board(rs, s, t), Some(rs[t].id), false, cols, rows);
      && u.Some?
      && |u.value| == |rs|
      && u.value[|rs| - 1] == rs[s].(col := u.value[|rs| - 1].col, row := u.value[|rs| - 1].row)
      && Adjacent(Cell(rs[t].col, rs[t].row), Cell(u.value[|rs| - 1].col, u.value[|rs| - 1].row))
      && forall i :: 0 <= i < |rs| && i != s ==> rs[i] in u.value
  {
    var r := Board(rs, s, t);
    var jt := if t < s then t else t - 1;
    var loaded := rs[t].(carried := Carrying(rs[s]));
    BoardedIndex(rs, s, t);
    assert r[jt] == loaded;
    var back := Cell(rs[s].col, rs[s].row);
    NeighbourIsSpot(loaded, back);
    BoardedVacates(rs, s, t);
    var w :| 0 <= w < 4 && Spots(loaded)[w] == back;
    assert Free(r, Spots(r[jt])[w], cols, rows);
    var i := FirstFree(r, Spots(r[jt]), cols, rows).value;
    DisembarkRestores(rs, s, t, Spots(r[jt])[i]);
  }

  /** Loading and unloading right away gives the passenger back: the
      transport is exactly as before, the passenger reappears at the end of
      the roster next to the transport, unchanged except for its cell, and
      every other unit is still there. Unloading cannot fail, because the
      cell the passenger left is one of the four tried. */
  lemma LoadThenUnload(rs: seq<Unit>, selected: Option<int>, deploying: bool, current: string, col: int, row: int,
                       cols: int, rows: int)
    requires Valid(rs)
    requires Load(rs, selected, deploying, current, col, row, cols, rows).Some?
    requires var s := IndexOfId(rs, selected.value).value;
      && 0 <= rs[s].col < cols && 0 <= rs[s].row < rows
      && forall i :: 0 <= i < |rs| && i != s ==> !At(rs[i], rs[s].col, rs[s].row)
    ensures var b := Load(rs, selected, deploying, current, col, row, cols, rows).value;
      var s := IndexOfId(rs, selected.value).value;
      var t := FirstAt(rs, col, row).value;
      var u := Unload(b.roster, Some(b.selected), deploying, cols, rows);
      && u.Some?
      && |u.value| == |rs|
      && rs[t] in u.value
      && u.value[|rs| - 1] == rs[s].(col := u.value[|rs| - 1].col, row := u.value[|rs| - 1].row)
      && Adjacent(Cell(rs[t].col, rs[t].row), Cell(u.value[|rs| - 1].col, u.value[|rs| - 1].row))
      && forall i :: 0 <= i < |rs| && i != s ==> rs[i] in u.value
  {
    var s := IndexOfId(rs, selected.value).value;
    var t := FirstAt(rs, col, row).value;
    BoardThenUnload(rs, s, t, cols, rows);
  }
}

=== FILE: turns.dfy ===
/** Turn rotation, `processTurnEnd` (js/main.js): the factions present are
    sorted, the turn passes to the one after the current faction (wrapping
    around), and that faction's units get their flags and movement back. */
module Turns {
  import opened Base
  import Text
  import opened Units
  import opened Roster
  import Ai
  import Combat

  /** The game state the turn logic reads and writes. */
  datatype Session = Session(roster: seq<Unit>, current: string, deploying: bool, selected: Option<int>)

  datatype TurnError = StillDeploying | NoUnits | OneFaction

  /** Strictly increasing in code-point order, hence free of duplicates. */
  predicate Sorted(xs: seq<string>)
  {
    forall i, j :: 0 <= i < j < |xs| ==> Text.Less(xs[i], xs[j])
  }

  /** Inserting into a sorted list of distinct names; a name already
      present is not added again. */
  function Insert(xs: seq<string>, x: string): (ys: seq<string>)
    requires Sorted(xs)
    ensures Sorted(ys)
    ensures forall y :: y in ys <==> y in xs || y == x
    ensures |ys| <= |xs| + 1
  {
    if xs == [] then [x]
    else if xs[0] == x then xs
    else if Text.Less(x, xs[0]) then
      var ys := [x] + xs;
      assert Sorted(ys) by {
        forall i, j | 0 <= i < j < |ys| ensures Text.Less(ys[i], ys[j]) {
          if i == 0 && j > 1 {
            Text.LessTransitive(x, xs[0], xs[j - 1]);
          }
        }
      }
      ys
    else
      Text.LessTotal(x, xs[0]);
      var rest := Insert(xs[1..], x);
      var ys := [xs[0]] + rest;
      assert Sorted(ys) by {
        forall i, j | 0 <= i < j < |ys| ensures Text.Less(ys[i], ys[j]) {
          if i == 0 {
            assert ys[j] in rest;
            if ys[j] != x {
              var k :| 1 <= k < |xs| && xs[k] == ys[j];
            }
          }
        }
      }
      ys
  }

  /** A faction some roster unit belongs to. */
  predicate Present(rs: seq<Unit>, f: string)
  {
    exists i :: 0 <= i < |rs| && rs[i].faction == f
  }

  /** `[...new Set(factions)].sort()`: the distinct factions of the roster in
      ascending order. */
  function SortedFactions(rs: seq<Unit>): (fs: seq<string>)
    ensures Sorted(fs)
    ensures forall f :: f in fs <==> Present(rs, f)
    ensures |fs| <= |rs|
  {
    if rs == [] then []
    else
      var init := rs[..|rs| - 1];
      var fs := Insert(SortedFactions(init), rs[|rs| - 1].faction);
      assert forall i :: 0 <= i < |init| ==> init[i] == rs[i];
      assert forall f :: Present(rs, f) ==> Present(init, f) || f == rs[|rs| - 1].faction;
      fs
  }

  /** A sorted list is determined by its elements: sorting the set of
      factions has exactly one outcome. */
  lemma {:induction false} SortedUnique(a: seq<string>, b: seq<string>)
    requires Sorted(a) && Sorted(b)
    requires forall x :: x in a <==> x in b
    ensures a == b
    decreases |a|
  {
    if a != [] {
      assert a[0] in b;
    }
    if b != [] {
      assert b[0] in a;
    }
    if a != [] && b != [] {
      if a[0] != b[0] {
        var i :| 0 < i < |a| && a[i] == b[0];
        var j :| 0 < j < |b| && b[j] == a[0];
        Text.LessTransitive(a[0], b[0], a[0]);
        Text.LessIrreflexive(a[0]);
      }
      assert a == [a[0]] + a[1..] && b == [b[0]] + b[1..];
      forall x ensures x in a[1..] <==> x in b[1..] {
        if x in a[1..] {
          var i :| 0 <= i < |a[1..]| && a[1..][i] == x;
          assert a[i + 1] == x;
          assert Text.Less(a[0], a[i + 1]);
          Text.LessIrreflexive(x);
          assert x != b[0];
          assert x in a;
          var k :| 0 <= k < |b| && b[k] == x;
          assert k > 0 && b[1..][k - 1] == x;
        }
        if x in b[1..] {
          var j :| 0 <= j < |b[1..]| && b[1..][j] == x;
          assert b[j + 1] == x;
          assert Text.Less(b[0], b[j + 1]);
          Text.LessIrreflexive(x);
          assert x != a[0];
          assert x in b;
          var k :| 0 <= k < |a| && a[k] == x;
          assert k > 0 && a[1..][k - 1] == x;
        }
      }
      SortedUnique(a[1..], b[1..]);
    }
  }

  /** `indexOf`: the first position of `x`, or -1. */
  function IndexOf(xs: seq<string>, x: string): (i: int)
    ensures -1 <= i < |xs|
    ensures i == -1 <==> x !in xs
    ensures i >= 0 ==> xs[i] == x && forall j :: 0 <= j < i ==> xs[j] != x
  {
    if xs == [] then -1
    else if xs[0] == x then 0
    else
      var i := IndexOf(xs[1..], x);
      assert forall j :: 1 <= j < |xs| ==> xs[j] == xs[1..][j - 1];
      if i == -1 then -1 else i + 1
  }

  /** The faction whose turn comes after `current`: the next entry of the
      sorted list, wrapping around; an absent `current` gives index -1 and so
      the first entry. */
  function NextFaction(fs: seq<string>, current: string): (next: string)
    requires |fs| > 0
    ensures next in fs
  {
    fs[(IndexOf(fs, current) + 1) % |fs|]
  }

  /** No name occurs twice. */
  predicate Distinct(fs: seq<string>)
  {
    forall i, j :: 0 <= i < j < |fs| ==> fs[i] != fs[j]
  }

  lemma SortedDistinct(fs: seq<string>)
    requires Sorted(fs)
    ensures Distinct(fs)
  {
    forall i, j | 0 <= i < j < |fs| ensures fs[i] != fs[j] {
      Text.LessIrreflexive(fs[i]);
    }
  }

  /** In a list without repetitions a name sits at exactly one position. */
  lemma DistinctIndex(fs: seq<string>, i: nat)
    requires Distinct(fs) && i < |fs|
    ensures IndexOf(fs, fs[i]) == i
  {
  }

  /** From the faction at position `i` the turn passes to position `i + 1`,
      and from the last one back to the first. */
  lemma NextAt(fs: seq<string>, i: nat)
    requires Distinct(fs) && i < |fs|
    ensures NextFaction(fs, fs[i]) == if i + 1 < |fs| then fs[i + 1] else fs[0]
  {
    DistinctIndex(fs, i);
    var n := |fs|;
    if i + 1 < n {
      ModSmall(i + 1, n);
    } else {
      ModSelf(n);
    }
  }

  lemma ModSelf(n: int)
    requires n > 0
    ensures n % n == 0
  {
  }

  lemma ModSmall(a: int, n: int)
    requires 0 <= a < n
    ensures a % n == a
  {
  }

  /** A faction no longer present (all its units destroyed) hands the turn
      to the first faction in the order, not to its successor. */
  lemma NextOfAbsent(fs: seq<string>, current: string)
    requires |fs| > 0 && current !in fs
    ensures NextFaction(fs, current) == fs[0]
  {
    ModSmall(0, |fs|);
  }

  /** Order-theoretic reading of the rotation: the least faction above the
      current one, or the first faction when the current one is the
      greatest. */
  lemma NextFactionOrder(fs: seq<string>, current: string)
    requires Sorted(fs) && current in fs
    ensures (exists f :: f in fs && Text.Less(current, f)) ==>
      var next := NextFaction(fs, current);
      && Text.Less(current, next)
      && forall f :: f in fs && Text.Less(current, f) ==> f == next || Text.Less(next, f)
    ensures (forall f :: f in fs ==> !Text.Less(current, f)) ==> NextFaction(fs, current) == fs[0]
  {
    var i := IndexOf(fs, current);
    SortedDistinct(fs);
    NextAt(fs, i);
    var next := NextFaction(fs, current);
    if i + 1 < |fs| {
      forall f | f in fs && Text.Less(current, f) ensures f == next || Text.Less(next, f) {
        var j :| 0 <= j < |fs| && fs[j] == f;
        if j < i {
          Text.LessTransitive(f, current, f);
          Text.LessIrreflexive(f);
        } else if j == i {
          Text.LessIrreflexive(f);
        }
      }
    } else {
      forall f | f in fs ensures !Text.Less(current, f) {
        var j :| 0 <= j < |fs| && fs[j] == f;
        Text.LessIrreflexive(f);
        if j < i && Text.Less(current, f) {
          Text.LessTransitive(f, current, f);
        }
      }
    }
  }

  /** With two or more factions the turn always changes hands. */
  lemma NextDiffers(fs: seq<string>, current: string)
    requires Sorted(fs) && |fs| >= 2
    ensures NextFaction(fs, current) != current
  {
    if current in fs {
      var i := IndexOf(fs, current);
      SortedDistinct(fs);
      NextAt(fs, i);
      Text.LessIrreflexive(current);
      if i + 1 == |fs| {
        assert Text.Less(fs[0], fs[i]);
      }
    } else {
      NextOfAbsent(fs, current);
    }
  }

  /** The faction in charge after `k` turn ends, starting from `f`. */
  function Rotate(fs: seq<string>, f: string, k: nat): (g: string)
    requires |fs| > 0
    ensures k > 0 ==> g in fs
  {
    if k == 0 then f else NextFaction(fs, Rotate(fs, f, k - 1))
  }

  /** Within one round, `k` turn ends move `k` places along the sorted list,
      wrapping around once. */
  lemma {:induction false} RotateFrom(fs: seq<string>, i: nat, k: nat)
    requires Distinct(fs) && i < |fs| && k <= |fs|
    ensures Rotate(fs, fs[i], k) == fs[if i + k < |fs| then i + k else i + k - |fs|]
  {
    if k > 0 {
      RotateFrom(fs, i, k - 1);
      var m := if i + k - 1 < |fs| then i + k - 1 else i + k - 1 - |fs|;
      var prev := Rotate(fs, fs[i], k - 1);
      assert prev == fs[m];
      NextAt(fs, m);
      assert Rotate(fs, fs[i], k) == NextFaction(fs, fs[m]);
    }
  }

  /** Fairness of the rotation: from a faction that is present, every
      present faction gets its turn within one full round of `|fs|` turn
      ends, and the round brings the turn back to where it started. */
  lemma {:induction false} EveryFactionGetsATurn(fs: seq<string>, current: string, f: string)
    requires Distinct(fs) && current in fs && f in fs
    ensures exists k :: 1 <= k <= |fs| && Rotate(fs, current, k) == f
    ensures Rotate(fs, current, |fs|) == current
  {
    var i := IndexOf(fs, current);
    var j := IndexOf(fs, f);
    RotateFrom(fs, i, |fs|);
    var k := if j > i then j - i else |fs| - i + j;
    assert fs[i] == current && fs[j] == f;
    assert (if i + k < |fs| then i + k else i + k - |fs|) == j;
    RotateFrom(fs, i, k);
  }

  /** Restoring a unit for its faction's turn. */
  function Refresh(u: Unit): (v: Unit)
    ensures !v.hasMoved && !v.hasAttacked && v.movementRemaining == v.movementSpeed
    ensures v.(hasMoved := u.hasMoved, hasAttacked := u.hasAttacked, movementRemaining := u.movementRemaining) == u
    ensures WellFormed(u) ==> WellFormed(v)
  {
    u.(hasMoved := false, hasAttacked := false, movementRemaining := u.movementSpeed)
  }

  /** Refreshing every unit of faction `f`, leaving the others alone. */
  function RefreshFaction(rs: seq<Unit>, f: string): (rs': seq<Unit>)
    ensures |rs'| == |rs|
    ensures forall i :: 0 <= i < |rs| ==> rs'[i] == if rs[i].faction == f then Refresh(rs[i]) else rs[i]
  {
    seq(|rs|, i requires 0 <= i < |rs| => if rs[i].faction == f then Refresh(rs[i]) else rs[i])
  }

  /** A refresh changes no id, faction or position: the roster stays valid
      and the set of factions, hence its sorted list, is the same. */
  lemma RefreshKeeps(rs: seq<Unit>, f: string, cols: nat, rows: nat)
    ensures var rs' := RefreshFaction(rs, f);
      && (Valid(rs) ==> Valid(rs'))
      && (Ai.OnGrid(rs, cols, rows) ==> Ai.OnGrid(rs', cols, rows))
      && SortedFactions(rs') == SortedFactions(rs)
  {
    var rs' := RefreshFaction(rs, f);
    assert forall g :: Present(rs', g) <==> Present(rs, g) by {
      forall g ensures Present(rs', g) <==> Present(rs, g) {
        if Present(rs, g) {
          var i :| 0 <= i < |rs| && rs[i].faction == g;
          assert rs'[i].faction == g;
        }
        if Present(rs', g) {
          var i :| 0 <= i < |rs'| && rs'[i].faction == g;
          assert rs[i].faction == g;
        }
      }
    }
    SortedUnique(SortedFactions(rs'), SortedFactions(rs));
  }

  /** `processTurnEnd`: refused while deploying, on an empty map, or with a
      single faction left; otherwise the turn passes on, that faction's
      units are refreshed and the selection is cleared. */
  function EndTurn(s: Session): (r: Result<Session, TurnError>)
    ensures s.deploying ==> r == Err(StillDeploying)
    ensures !s.deploying && s.roster == [] ==> r == Err(NoUnits)
    ensures r.Ok? ==> !r.value.deploying && r.value.selected.None? && |r.value.roster| == |s.roster|
  {
    if s.deploying then Err(StillDeploying)
    else if s.roster == [] then Err(NoUnits)
    else
      var fs := SortedFactions(s.roster);
      if |fs| <= 1 then Err(OneFaction)
      else
        var next := NextFaction(fs, s.current);
        Ok(Session(RefreshFaction(s.roster, next), next, false, None))
  }

  /** Every unit of the roster belongs to one faction. */
  predicate OneSide(rs: seq<Unit>)
  {
    forall i, j :: 0 <= i < |rs| && 0 <= j < |rs| ==> rs[i].faction == rs[j].faction
  }

  /** The turn cannot pass exactly when, outside deployment, the map holds
      units of a single faction. */
  lemma EndTurnOneFaction(s: Session)
    ensures EndTurn(s) == Err(OneFaction) <==> !s.deploying && s.roster != [] && OneSide(s.roster)
  {
    if !s.deploying && s.roster != [] {
      var fs := SortedFactions(s.roster);
      assert s.roster[0].faction in fs;
      if OneSide(s.roster) && |fs| >= 2 {
        assert fs[0] in fs && fs[1] in fs;
        var i :| 0 <= i < |s.roster| && s.roster[i].faction == fs[0];
        var j :| 0 <= j < |s.roster| && s.roster[j].faction == fs[1];
        Text.LessIrreflexive(fs[0]);
      }
      if |fs| <= 1 {
        forall i, j | 0 <= i < |s.roster| && 0 <= j < |s.roster| ensures s.roster[i].faction == s.roster[j].faction {
          assert s.roster[i].faction in fs && s.roster[j].faction in fs;
        }
      }
    }
  }

  /** What ending the turn does: the new faction is present and differs
      from the old one, exactly its units are refreshed, everything else
      (ids, positions, health, ammunition, the faction list) is kept, and a
      valid roster stays valid. */
  lemma EndTurnOk(s: Session, cols: nat, rows: nat)
    requires EndTurn(s).Ok?
    ensures var t := EndTurn(s).value;
      && t.current != s.current
      && Present(s.roster, t.current)
      && SortedFactions(t.roster) == SortedFactions(s.roster)
      && (forall i :: 0 <= i < |s.roster| && s.roster[i].faction == t.current ==> t.roster[i] == Refresh(s.roster[i]))
      && (forall i :: 0 <= i < |s.roster| && s.roster[i].faction != t.current ==> t.roster[i] == s.roster[i])
      && (Valid(s.roster) ==> Valid(t.roster))
      && (Ai.OnGrid(s.roster, cols, rows) ==> Ai.OnGrid(t.roster, cols, rows))
  {
    var fs := SortedFactions(s.roster);
    var next := NextFaction(fs, s.current);
    NextDiffers(fs, s.current);
    RefreshKeeps(s.roster, next, cols, rows);
  }

  /** `processTurnEnd` followed, when the new faction is computer-controlled,
      by its whole AI turn (`runAITurn`); the AI turn ends without passing
      the turn on again. The dice for unit `i`'s first and second attack
      come from `roll(i, 0)` and `roll(i, 1)`; the ghost results trace the
      AI turn. */
  method EndTurnAndPlay(s: Session, weapons: map<string, Weapon>, ammos: map<string, Ammo>,
                        roll: (nat, nat) -> Combat.Dice, cols: nat, rows: nat)
    returns (r: Result<Session, TurnError>, acted: seq<int>, ghost seen: seq<seq<Unit>>, ghost acts: seq<Ai.Action>)
    requires Valid(s.roster) && Ai.OnGrid(s.roster, cols, rows)
    ensures r.Err? <==> EndTurn(s).Err?
    ensures r.Err? ==> r == EndTurn(s) && acted == []
    ensures r.Ok? ==>
      var t := EndTurn(s).value;
      && r.value.current == t.current && r.value.current != s.current
      && !r.value.deploying && r.value.selected.None?
      && Valid(r.value.roster) && Ai.OnGrid(r.value.roster, cols, rows)
      && (t.current !in Ai.AiFactions ==> r.value == t && acted == [])
      && (t.current in Ai.AiFactions ==>
            && r.value == t.(roster := r.value.roster)
            && Ai.Played(t.current, t.roster, weapons, ammos, roll, cols, rows, seen, acts, r.value.roster, acted)
            && (Ai.FactionIds(t.roster, t.current) != [] ==> acted != [] && acted[0] == Ai.FactionIds(t.roster, t.current)[0]))
      && (forall x :: x in acted ==> exists i :: 0 <= i < |t.roster| && t.roster[i].faction == t.current && t.roster[i].id == x)
  {
    r := EndTurn(s);
    acted := [];
    seen := [];
    acts := [];
    if r.Ok? {
      EndTurnOk(s, cols, rows);
      var t := r.value;
      if t.current in Ai.AiFactions {
        var rs';
        rs', acted, seen, acts := Ai.RunAiTurn(t.current, t.roster, weapons, ammos, roll, cols, rows);
        r := Ok(t.(roster := rs'));
      }
    }
  }
}

=== FILE: units.dfy ===
/** Catalog entries and the per-instance unit record, with the derived
    queries on active weapons and attack range (js/unit.js). */
module Units {
  import opened Base

  /** One weapon system of a unit template. `ammo` is `None` when the entry
      defines no ammunition at all; `preferredAmmo` is "" when absent. */
  datatype LoadoutItem = LoadoutItem(
    weaponId: string,
    maxCount: nat,
    priority: int,
    preferredAmmo: string,
    ammo: Option<map<string, int>>)

  /** A weapon platform of the weapons catalog. */
  datatype Weapon = Weapon(
    name: string,
    category: string,
    compatibleAmmo: seq<string>,
    baseAccuracy: real,
    maxDistance: int,
    fireRate: nat)

  /** An ammunition type; `kind` is one of Bullet, HEAT, HE, APFSDS, or "" when
      the catalog leaves it out. */
  datatype Ammo = Ammo(name: string, damage: real, kind: string, aoeRadius: int)

  /** A unit template. "" stands for a missing `unitClass`; `transport` names
      the template of the vehicle that carries this unit into battle. */
  datatype Template = Template(
    name: string,
    unitClass: string,
    faction: string,
    maxHealth: int,
    movementSpeed: nat,
    symbol: Option<seq<string>>,
    capacity: bool,
    loadout: seq<LoadoutItem>,
    transport: Option<string>)

  /** What a transport holds: nothing, or exactly one embarked unit. */
  datatype Cargo = Empty | Carrying(passenger: Unit)

  /** A combat unit on (or, while carried, off) the battlefield. */
  datatype Unit = Unit(
    id: int,
    templateId: string,
    name: string,
    unitClass: string,
    faction: string,
    maxHealth: int,
    health: int,
    col: int,
    row: int,
    movementSpeed: nat,
    movementRemaining: nat,
    symbol: seq<string>,
    capacity: bool,
    loadout: seq<LoadoutItem>,
    currentAmmo: map<string, map<string, int>>,
    hasMoved: bool,
    hasAttacked: bool,
    stance: string,
    carried: Cargo)

  datatype CreateError = UnknownTemplate(templateId: string)

  /** Ammunition buckets never hold a negative count. */
  ghost predicate AmmoNonNegative(ammo: map<string, map<string, int>>)
  {
    forall w, a :: w in ammo && a in ammo[w] ==> ammo[w][a] >= 0
  }

  /** The record invariants every operation of the engine preserves. */
  ghost predicate WellFormed(u: Unit)
  {
    && u.maxHealth > 0
    && 0 <= u.health <= u.maxHealth
    && u.movementRemaining <= u.movementSpeed
    && AmmoNonNegative(u.currentAmmo)
    && (u.carried.Carrying? ==> WellFormed(u.carried.passenger))
  }

  /** Template data the engine can work with: positive maximum health and
      non-negative starting ammunition. */
  ghost predicate ValidTemplate(t: Template)
  {
    && t.maxHealth > 0
    && forall i, a :: 0 <= i < |t.loadout| && t.loadout[i].ammo.Some? && a in t.loadout[i].ammo.value
         ==> t.loadout[i].ammo.value[a] >= 0
  }

  /** Entry `i` of `items` has weapon id `w` and defines an ammo map. */
  predicate DefinesAmmo(items: seq<LoadoutItem>, i: int, w: string)
  {
    0 <= i < |items| && items[i].weaponId == w && items[i].ammo.Some?
  }

  /** Entry `i` is the last entry with weapon id `w` that defines ammo. */
  predicate LastAmmoEntry(items: seq<LoadoutItem>, i: int, w: string)
  {
    DefinesAmmo(items, i, w) && forall j :: i < j < |items| ==> !DefinesAmmo(items, j, w)
  }

  /** The starting ammunition store: for every weapon id, a copy of the
      `ammo` map of the LAST loadout entry with that id that defines one. */
  function InitialAmmo(items: seq<LoadoutItem>): (m: map<string, map<string, int>>)
    ensures forall w :: w in m <==> exists i :: DefinesAmmo(items, i, w)
    ensures forall w :: w in m ==> exists i :: LastAmmoEntry(items, i, w) && items[i].ammo.value == m[w]
  {
    if items == [] then map[]
    else
      var prefix := InitialAmmo(items[..|items| - 1]);
      var last := items[|items| - 1];
      var m := if last.ammo.Some? then prefix[last.weaponId := last.ammo.value] else prefix;
      AmmoStep(items, items[..|items| - 1], prefix, m);
      m
  }

  /** One more loadout entry: its ammunition map, when it has one, replaces
      whatever an earlier entry with the same weapon id had set. */
  lemma AmmoStep(items: seq<LoadoutItem>, init: seq<LoadoutItem>, prefix: map<string, map<string, int>>,
                  m: map<string, map<string, int>>)
    requires items != [] && init == items[..|items| - 1]
    requires forall w :: w in prefix <==> exists i :: DefinesAmmo(init, i, w)
    requires forall w :: w in prefix ==> exists i :: LastAmmoEntry(init, i, w) && init[i].ammo.value == prefix[w]
    requires var last := items[|items| - 1];
      m == if last.ammo.Some? then prefix[last.weaponId := last.ammo.value] else prefix
    ensures forall w :: w in m <==> exists i :: DefinesAmmo(items, i, w)
    ensures forall w :: w in m ==> exists i :: LastAmmoEntry(items, i, w) && items[i].ammo.value == m[w]
  {
    var k := |items| - 1;
    var last := items[k];
    assert forall i, w :: 0 <= i < k ==> (DefinesAmmo(init, i, w) <==> DefinesAmmo(items, i, w));
    forall w | w in m ensures exists i :: LastAmmoEntry(items, i, w) && items[i].ammo.value == m[w] {
      if last.ammo.Some? && w == last.weaponId {
        assert LastAmmoEntry(items, k, w);
      } else {
        var i :| LastAmmoEntry(init, i, w) && init[i].ammo.value == prefix[w];
        assert LastAmmoEntry(items, i, w);
      }
    }
  }

  /** The `Unit` constructor. The faction always comes from the template:
      there is no faction parameter. */
  function NewUnit(templateId: string, col: int, row: int, templates: map<string, Template>, id: int)
    : (r: Result<Unit, CreateError>)
    ensures templateId !in templates <==> r == Err(UnknownTemplate(templateId))
    ensures r.Ok? ==>
      var t := templates[templateId];
      var u := r.value;
      && u.id == id && u.templateId == templateId && u.name == t.name
      && u.faction == t.faction
      && u.unitClass == (if t.unitClass == "" then "Unknown" else t.unitClass)
      && u.symbol == (if t.symbol.Some? then t.symbol.value else ["unknown"])
      && u.maxHealth == t.maxHealth && u.health == u.maxHealth
      && u.movementSpeed == t.movementSpeed && u.movementRemaining == u.movementSpeed
      && u.col == col && u.row == row
      && !u.hasMoved && !u.hasAttacked
      && u.stance == "Default" && u.carried == Empty
      && u.loadout == t.loadout
      && (forall w :: w in u.currentAmmo <==> exists i :: DefinesAmmo(t.loadout, i, w))
      && (forall w :: w in u.currentAmmo ==> exists i :: LastAmmoEntry(t.loadout, i, w) && t.loadout[i].ammo.value == u.currentAmmo[w])
    ensures r.Ok? && ValidTemplate(templates[templateId]) ==> WellFormed(r.value)
  {
    if templateId !in templates then Err(UnknownTemplate(templateId))
    else
      var t := templates[templateId];
      var ammo := InitialAmmo(t.loadout);
      assert ValidTemplate(t) ==> AmmoNonNegative(ammo) by {
        if ValidTemplate(t) {
          forall w, a | w in ammo && a in ammo[w] ensures ammo[w][a] >= 0 {
            var i :| LastAmmoEntry(t.loadout, i, w) && t.loadout[i].ammo.value == ammo[w];
            assert a in t.loadout[i].ammo.value;
          }
        }
      }
      Ok(Unit(
        id, templateId, t.name,
        if t.unitClass == "" then "Unknown" else t.unitClass,
        t.faction, t.maxHealth, t.maxHealth, col, row,
        t.movementSpeed, t.movementSpeed,
        if t.symbol.Some? then t.symbol.value else ["unknown"],
        t.capacity, t.loadout, ammo,
        false, false, "Default", Empty))
  }

  /** `Math.ceil(a / b)` for a positive divisor. */
  function CeilDiv(a: int, b: int): (q: int)
    requires b > 0
    ensures (q - 1) * b < a <= q * b
  {
    (a + b - 1) / b
  }

  lemma MulLe(a: int, b: int, c: int)
    requires a <= b && c >= 0
    ensures a * c <= b * c
  {
  }

  lemma MulLtCancel(a: int, b: int, c: int)
    requires a * c < b * c && c > 0
    ensures a < b
  {
    if a >= b { MulLe(b, a, c); }
  }

  /** Bounds of the rounded-up share `ceil(k * h / M)` of a live unit. */
  lemma CeilShare(k: nat, h: int, m: int)
    requires h > 0 && m > 0
    ensures var q := CeilDiv(k * h, m);
      && q >= 0
      && (k > 0 ==> q >= 1)
      && (h <= m ==> q <= k)
      && (h >= m ==> q >= k)
  {
    var q := CeilDiv(k * h, m);
    CeilLow(k, h, m, q);
    if h <= m {
      CeilBelow(k, h, m, q);
    }
    if h >= m {
      CeilAbove(k, h, m, q);
    }
  }

  lemma CeilLow(k: nat, h: int, m: int, q: int)
    requires h > 0 && m > 0 && (q - 1) * m < k * h <= q * m
    ensures q >= 0 && (k > 0 ==> q >= 1)
  {
    MulLe(0, k, h);
    if q < 0 { MulLe(q, -1, m); }
    if k > 0 {
      MulLe(1, k, h);
      MulLtCancel(0, q, m);
    }
  }

  lemma CeilBelow(k: nat, h: int, m: int, q: int)
    requires h > 0 && m > 0 && h <= m && (q - 1) * m < k * h <= q * m
    ensures q <= k
  {
    MulLe(h, m, k);
    assert (q - 1) * m < k * m;
    MulLtCancel(q - 1, k, m);
  }

  lemma CeilAbove(k: nat, h: int, m: int, q: int)
    requires h > 0 && m > 0 && h >= m && (q - 1) * m < k * h <= q * m
    ensures q >= k
  {
    MulLe(m, h, k);
    assert k * m <= q * m;
    if q < k { MulLe(q + 1, k, m); }
  }

  /** Functioning instances of a weapon system with `maxCount` instances:
      the health fraction of `maxCount` rounded up, clamped to
      [0, maxCount], and at least one while the unit is alive. */
  function ActiveCount(health: int, maxHealth: int, maxCount: nat): (n: nat)
    requires maxHealth > 0
    ensures n <= maxCount
    ensures health <= 0 ==> n == 0
    ensures health > 0 && maxCount > 0 ==> n >= 1
    ensures health >= maxHealth ==> n == maxCount
    ensures 0 < health <= maxHealth ==> (n - 1) * maxHealth < maxCount * health <= n * maxHealth
  {
    var raw := if health <= 0 then 0 else (CeilShare(maxCount, health, maxHealth); CeilDiv(maxCount * health, maxHealth));
    var clamped := Max(0, Min(maxCount, raw));
    if health > 0 && clamped == 0 && maxCount > 0 then 1 else clamped
  }

  /** Taking damage never adds a functioning weapon instance. */
  lemma {:induction false} ActiveCountMonotone(h1: int, h2: int, maxHealth: int, maxCount: nat)
    requires maxHealth > 0 && h1 <= h2
    ensures ActiveCount(h1, maxHealth, maxCount) <= ActiveCount(h2, maxHealth, maxCount)
  {
    var n1 := ActiveCount(h1, maxHealth, maxCount);
    var n2 := ActiveCount(h2, maxHealth, maxCount);
    if 0 < h1 && h2 < maxHealth && n2 < n1 {
      MulLe(h1, h2, maxCount);
      MulLe(n2, n1 - 1, maxHealth);
      assert false;
    }
  }

  /** Some bucket of the store still holds a round. */
  predicate Stocked(store: map<string, int>)
  {
    exists a :: a in store && store[a] > 0
  }

  /** `getActiveWeaponCounts`' ammo test for one loadout entry: some bucket of
      its weapon id holds a round, or the entry defines no ammunition and
      has no store. */
  predicate HasAmmo(ammo: map<string, map<string, int>>, item: LoadoutItem)
  {
    if item.weaponId in ammo then Stocked(ammo[item.weaponId]) else item.ammo.None?
  }

  /** A loadout entry that places its weapon id in the active-count map. */
  predicate Counted(health: int, maxHealth: int, ammo: map<string, map<string, int>>, item: LoadoutItem)
    requires maxHealth > 0
  {
    ActiveCount(health, maxHealth, item.maxCount) > 0 && HasAmmo(ammo, item)
  }

  /** Entry `i` is the last counted entry with weapon id `w`: the one whose
      count the map keeps, since a later entry overwrites an earlier one. */
  predicate LastCounted(items: seq<LoadoutItem>, i: int, w: string, health: int, maxHealth: int,
                        ammo: map<string, map<string, int>>)
    requires maxHealth > 0
  {
    && 0 <= i < |items| && items[i].weaponId == w && Counted(health, maxHealth, ammo, items[i])
    && forall j :: i < j < |items| && items[j].weaponId == w ==> !Counted(health, maxHealth, ammo, items[j])
  }

  /** The active-count map built entry by entry over `items`: a weapon id is
      present when some entry for it is counted, with the count of the last
      such entry. */
  function CountsOf(items: seq<LoadoutItem>, health: int, maxHealth: int, ammo: map<string, map<string, int>>)
    : (m: map<string, nat>)
    requires maxHealth > 0
    ensures forall w :: w in m <==> exists i :: 0 <= i < |items| && items[i].weaponId == w && Counted(health, maxHealth, ammo, items[i])
    ensures forall w :: w in m ==> m[w] > 0 && exists i :: (LastCounted(items, i, w, health, maxHealth, ammo)
      && m[w] == ActiveCount(health, maxHealth, items[i].maxCount))
  {
    if items == [] then map[]
    else
      var init := items[..|items| - 1];
      var prefix := CountsOf(init, health, maxHealth, ammo);
      var last := items[|items| - 1];
      var m := if Counted(health, maxHealth, ammo, last) then prefix[last.weaponId := ActiveCount(health, maxHealth, last.maxCount)]
               else prefix;
      CountsStep(items, init, prefix, m, health, maxHealth, ammo);
      m
  }

  /** One more loadout entry: when it is counted, its count replaces
      whatever an earlier entry with the same weapon id had set. */
  lemma CountsStep(items: seq<LoadoutItem>, init: seq<LoadoutItem>, prefix: map<string, nat>, m: map<string, nat>,
                   health: int, maxHealth: int, ammo: map<string, map<string, int>>)
    requires maxHealth > 0 && items != [] && init == items[..|items| - 1]
    requires forall w :: w in prefix <==> exists i :: 0 <= i < |init| && init[i].weaponId == w && Counted(health, maxHealth, ammo, init[i])
    requires forall w :: w in prefix ==> prefix[w] > 0 && exists i :: (LastCounted(init, i, w, health, maxHealth, ammo)
      && prefix[w] == ActiveCount(health, maxHealth, init[i].maxCount))
    requires var last := items[|items| - 1];
      m == if Counted(health, maxHealth, ammo, last) then prefix[last.weaponId := ActiveCount(health, maxHealth, last.maxCount)]
           else prefix
    ensures forall w :: w in m <==> exists i :: 0 <= i < |items| && items[i].weaponId == w && Counted(health, maxHealth, ammo, items[i])
    ensures forall w :: w in m ==> m[w] > 0 && exists i :: (LastCounted(items, i, w, health, maxHealth, ammo)
      && m[w] == ActiveCount(health, maxHealth, items[i].maxCount))
  {
    var k := |items| - 1;
    var last := items[k];
    assert forall i :: 0 <= i < k ==> init[i] == items[i];
    forall w | w in m ensures m[w] > 0 && exists i :: (LastCounted(items, i, w, health, maxHealth, ammo)
      && m[w] == ActiveCount(health, maxHealth, items[i].maxCount))
    {
      if Counted(health, maxHealth, ammo, last) && w == last.weaponId {
        assert LastCounted(items, k, w, health, maxHealth, ammo);
      } else {
        var i :| LastCounted(init, i, w, health, maxHealth, ammo) && prefix[w] == ActiveCount(health, maxHealth, init[i].maxCount);
        assert LastCounted(items, i, w, health, maxHealth, ammo);
      }
    }
  }

  /** `getActiveWeaponCounts`. */
  function ActiveCounts(u: Unit): map<string, nat>
    requires u.maxHealth > 0
  {
    CountsOf(u.loadout, u.health, u.maxHealth, u.currentAmmo)
  }

  /** An active weapon never has more instances than its entry allows, and a
      weapon id appears exactly when some entry with that id is counted. */
  lemma ActiveCountsBounded(u: Unit, w: string)
    requires u.maxHealth > 0
    ensures w in ActiveCounts(u) <==> exists i :: (0 <= i < |u.loadout| && u.loadout[i].weaponId == w
      && ActiveCount(u.health, u.maxHealth, u.loadout[i].maxCount) > 0 && HasAmmo(u.currentAmmo, u.loadout[i]))
    ensures w in ActiveCounts(u) ==> exists i :: (0 <= i < |u.loadout| && u.loadout[i].weaponId == w
      && 0 < ActiveCounts(u)[w] <= u.loadout[i].maxCount)
  {
  }

  /** The first loadout entry with the given weapon id (`Array.find`). */
  function FindItem(items: seq<LoadoutItem>, w: string): (r: Option<LoadoutItem>)
    ensures r.None? <==> forall i :: 0 <= i < |items| ==> items[i].weaponId != w
    ensures r.Some? ==> exists i :: (0 <= i < |items| && items[i] == r.value && r.value.weaponId == w
      && forall j :: 0 <= j < i ==> items[j].weaponId != w)
  {
    if items == [] then None
    else if items[0].weaponId == w then Some(items[0])
    else
      var r := FindItem(items[1..], w);
      if r.Some? then
        assert exists i :: (0 <= i < |items| && items[i] == r.value && r.value.weaponId == w
          && forall j :: 0 <= j < i ==> items[j].weaponId != w) by {
          var i :| 0 <= i < |items[1..]| && items[1..][i] == r.value && r.value.weaponId == w
            && forall j :: 0 <= j < i ==> items[1..][j].weaponId != w;
          assert items[i + 1] == r.value;
          assert forall j :: 0 <= j < i + 1 ==> items[j].weaponId != w by {
            forall j | 0 <= j < i + 1 ensures items[j].weaponId != w {
              if j > 0 { assert items[j] == items[1..][j - 1]; }
            }
          }
        }
        r
      else
        assert forall i :: 0 <= i < |items| ==> items[i].weaponId != w by {
          forall i | 0 <= i < |items| ensures items[i].weaponId != w {
            if i > 0 { assert items[i] == items[1..][i - 1]; }
          }
        }
        r
  }

  /** `getMaxAttackRange`'s own ammo test for a weapon id. */
  predicate HasAmmoForRange(u: Unit, w: string)
  {
    if w in u.currentAmmo then Stocked(u.currentAmmo[w])
    else
      var item := FindItem(u.loadout, w);
      item.Some? && item.value.ammo.None?
  }

  /** A weapon that contributes its range to `getMaxAttackRange`, given the
      unit's active-count map. */
  predicate Eligible(counts: map<string, nat>, u: Unit, weapons: map<string, Weapon>, w: string)
  {
    w in counts && w in weapons && HasAmmoForRange(u, w)
  }

  predicate RangeEligible(u: Unit, weapons: map<string, Weapon>, w: string)
    requires u.maxHealth > 0
  {
    Eligible(ActiveCounts(u), u, weapons, w)
  }

  /** Running maximum of eligible ranges over the weapon ids of `items`. */
  function RangeOver(items: seq<LoadoutItem>, counts: map<string, nat>, u: Unit, weapons: map<string, Weapon>)
    : (r: nat)
    ensures forall i :: (0 <= i < |items| && Eligible(counts, u, weapons, items[i].weaponId)
      ==> weapons[items[i].weaponId].maxDistance <= r)
    ensures r > 0 ==> exists i :: (0 <= i < |items| && Eligible(counts, u, weapons, items[i].weaponId)
      && weapons[items[i].weaponId].maxDistance == r)
  {
    if items == [] then 0
    else
      var init := items[..|items| - 1];
      var acc := RangeOver(init, counts, u, weapons);
      var w := items[|items| - 1].weaponId;
      var r: nat := if Eligible(counts, u, weapons, w) && weapons[w].maxDistance > acc then weapons[w].maxDistance else acc;
      assert forall i :: 0 <= i < |init| ==> items[i] == init[i];
      r
  }

  /** `getMaxAttackRange`: the largest `maxDistance` of an active weapon
      present in the catalog with usable ammunition, or 0 when there is none. */
  function MaxAttackRange(u: Unit, weapons: map<string, Weapon>): (r: nat)
    requires u.maxHealth > 0
    ensures forall w :: RangeEligible(u, weapons, w) ==> weapons[w].maxDistance <= r
    ensures r > 0 ==> exists w :: RangeEligible(u, weapons, w) && weapons[w].maxDistance == r
    ensures (forall w :: !RangeEligible(u, weapons, w)) ==> r == 0
  {
    var counts := ActiveCounts(u);
    var r := RangeOver(u.loadout, counts, u, weapons);
    assert forall w :: Eligible(counts, u, weapons, w) ==> weapons[w].maxDistance <= r by {
      forall w | Eligible(counts, u, weapons, w) ensures weapons[w].maxDistance <= r {
        var i :| 0 <= i < |u.loadout| && u.loadout[i].weaponId == w
          && Counted(u.health, u.maxHealth, u.currentAmmo, u.loadout[i]);
      }
    }
    r
  }

  /** Infantry test of the anti-tank restriction: class "RifleSquad" or an
      "infantry" symbol tag. */
  predicate IsInfantry(u: Unit)
  {
    u.unitClass == "RifleSquad" || "infantry" in u.symbol
  }
}
